=== FILE: README.md ===
# Resume editor: a Dafny model

This project models the logic of a small resume editor. The front end is written in React; a FastAPI mock backend rewrites text and stores resumes. The model covers:

- **The document** (`resume.dfy`): one personal-information record, a summary and five ordered collections (experience, education, skills, projects, certifications). Optional fields are `Option`s. A skill's level is a four-value enumeration.
- **The section editors** (`experience.dfy`, `education.dfy`, `skills.dfy`, `projects.dfy`, `certifications.dfy`, `personal.dfy`, `summary.dfy`), on top of the id-keyed collection operations in `collection.dfy`:
  - add, update by id and delete by id;
  - the experience end-date / "current" coupling;
  - the project technologies parser and its display;
  - grouping skills by category, the level colours, and the skills Cancel rule;
  - the certification expiry test and badge;
  - the personal-information field change and preview;
  - the suggestion flows (enhance, proposal, accept, reject) of summary, experience and skills.
- **The application shell** (`app.dfy`): the blank document, navigation gated by the disabled sidebar items, sessions of user events, what each view renders, each section's change replacing one top-level field, and the export file names.
- **The exports**: the PDF export (`pdf.dfy`) as drawing operations placed by an integer y-cursor, and the DOCX export (`docx.dfy`) as a paragraph list.
- **The file intake** (`upload.dfy`): the MIME allow-list gate, the status changes, the scheduled callbacks as events, and the fixed mock document it delivers.
- **The backend** (`backend.dfy`, `store.dfy`):
  - the `ai-enhance` text rewrites for summary, experience, skills and education, and the endpoint's dispatch and errors;
  - the `save-resume` record merge and the `resume/{id}` lookup over memory and saved files.

Text helpers modelling JavaScript `trim`/`split`/`join` and Python `strip`/`split`/`lower`/`isdigit` are in `text.dfy`. `wrappers.dfy` holds `Option`.

Things outside the program become parameters:

- Python `hash()` is a `hash: string -> int` parameter.
- `splitTextToSize` is a `wrap: string -> Lines` parameter that returns at least one line.
- Date parsing is a `parseDate: string -> Option<int>` parameter, and the clock is `now`.
- Generated ids and save times are parameters.
- A network answer is an input event: delivered text, or failure.

## Model

| member | source | states |
|---|---|---|
| Resume.ParseLevel | src/types/resume.ts:35 | A string reads as a level exactly when it is one of the four spellings, and then it spells that level |
| Resume.LevelNamesRoundTrip | src/types/resume.ts:35 | Every level reads back from its spelling; the four spellings are distinct and are exactly Beginner, Intermediate, Advanced, Expert |
| Collection.UpdateWhere | src/components/sections/ExperienceSection.tsx:30-34 | The `map` with a conditional merge: same length, matching entries merged, all others unchanged |
| Collection.UpdateMissIsIdentity | src/components/sections/ExperienceSection.tsx:30-34 | An update whose test matches nothing returns the collection unchanged |
| Collection.Filter | src/components/sections/ExperienceSection.tsx:36-38 | `filter`: every kept element satisfies the test and came from the input; every input element satisfying it is kept |
| Collection.FilterConcat | src/components/sections/ExperienceSection.tsx:36-38 | Filtering a concatenation filters each part: survivors keep their relative order |
| Collection.FilterIdempotent | src/components/sections/ExperienceSection.tsx:36-38 | Filtering twice with the same test is filtering once |
| ExperienceEditor.Merge | src/components/sections/ExperienceSection.tsx:30-34 | `{...exp, ...updates}`: an empty update changes nothing; an update without `current`/`endDate` keeps both |
| ExperienceEditor.MergeIdempotent | src/components/sections/ExperienceSection.tsx:30-34 | Merging the same update twice equals merging it once |
| ExperienceEditor.AddExperience | src/components/sections/ExperienceSection.tsx:15-26 | Exactly one entry is appended: earlier entries kept in order, new one has the given id, all strings empty, not current |
| ExperienceEditor.UpdateExperience | src/components/sections/ExperienceSection.tsx:30-34 | Entries with the id are merged in place, the rest are unchanged, an unknown id leaves the collection equal |
| ExperienceEditor.DeleteExperience | src/components/sections/ExperienceSection.tsx:36-38 | An entry survives iff it was present and has another id; an unknown id is a no-op |
| ExperienceEditor.DeleteExperienceKeepsOrder | src/components/sections/ExperienceSection.tsx:36-38 | Deletion distributes over concatenation, so survivors keep their relative order |
| ExperienceEditor.EndDateChanged | src/components/sections/ExperienceSection.tsx:174 | The matching entries get `endDate := v` and `current := (v == "")`; others are unchanged |
| ExperienceEditor.CurrentToggled | src/components/sections/ExperienceSection.tsx:185 | The matching entries get `current := checked` and an emptied end date when checked, the old one otherwise |
| ExperienceEditor.HandlersKeepConsistent | src/components/sections/ExperienceSection.tsx:174-185 | After either handler every entry satisfies "current implies no end date" |
| ExperienceEditor.OtherUpdatesKeepConsistent | src/components/sections/ExperienceSection.tsx:30-34 | An update touching neither `current` nor `endDate` preserves that coupling |
| ExperienceEditor.AddClicked | src/components/sections/ExperienceSection.tsx:26-27 | The Add button appends a blank entry and opens it for editing; the suggestion state is kept |
| ExperienceEditor.StartEnhance | src/components/sections/ExperienceSection.tsx:40-57 | A whitespace-only description sends nothing and changes nothing; otherwise the entry is marked enhancing and its description sent under `experience` |
| ExperienceEditor.FinishEnhance | src/components/sections/ExperienceSection.tsx:59-70 | A delivered text becomes the one proposal, recorded with the entry id; a failure keeps the slot; the enhancing mark is cleared either way |
| ExperienceEditor.AcceptEnhancement | src/components/sections/ExperienceSection.tsx:73-78 | The proposal is written into the description of the recorded entry and the slot is emptied; with no proposal nothing happens |
| ExperienceEditor.RejectEnhancement | src/components/sections/ExperienceSection.tsx:80-82 | Only the slot is emptied; the entries are never touched |
| ExperienceEditor.BlankDescriptionNeverSends | src/components/sections/ExperienceSection.tsx:41-44 | For a blank description the button is disabled and a start would send nothing |
| EducationEditor.Merge | src/components/sections/EducationSection.tsx:28-32 | An empty update changes nothing; a present `gpa`/`honors` key becomes present in the result |
| EducationEditor.AddEducation | src/components/sections/EducationSection.tsx:13-25 | Exactly one entry appended with every field empty, `gpa` and `honors` present and empty |
| EducationEditor.UpdateEducation | src/components/sections/EducationSection.tsx:28-32 | Merge in place at matching ids; others unchanged; unknown id is a no-op |
| EducationEditor.DeleteEducation | src/components/sections/EducationSection.tsx:34-36 | Survivors are exactly the entries with another id; unknown id is a no-op |
| EducationEditor.DeleteEducationKeepsOrder | src/components/sections/EducationSection.tsx:34-36 | Deletion distributes over concatenation, so survivors keep their relative order |
| EducationEditor.SetField | src/components/sections/EducationSection.tsx:77-154 | One input's update sets exactly its field; every other field and the id are kept |
| EducationEditor.FieldsDetermineEntry | src/components/sections/EducationSection.tsx:77-154 | The seven inputs and the id determine an entry, so the inputs cover the whole record |
| EducationEditor.SetFieldUnchanged | src/components/sections/EducationSection.tsx:77-154 | Writing a present value an input already holds changes nothing (an absent gpa or honors is not such a value) |
| EducationEditor.SetFieldsCommute | src/components/sections/EducationSection.tsx:77-154 | Writes to two different inputs commute: there is no cross-field coupling |
| EducationEditor.FieldChanged | src/components/sections/EducationSection.tsx:77-154 | An input of entry `id` rewrites that field of the matching entries and nothing else |
| EducationEditor.BlankEntryShowsNothing | src/components/sections/EducationSection.tsx:188-204 | A freshly added entry shows no date range, no GPA line and no honours line |
| EducationEditor.OneDateIsNotARange | src/components/sections/EducationSection.tsx:188 | The range stays hidden while the end date is empty, whatever start date is set |
| SkillsEditor.Merge | src/components/sections/SkillsSection.tsx:32-36 | An empty update changes nothing; a given name replaces the name, an absent one keeps it |
| SkillsEditor.AddSkill | src/components/sections/SkillsSection.tsx:21-28 | One skill appended with empty name, level Intermediate, category Programming; earlier skills kept |
| SkillsEditor.UpdateSkill | src/components/sections/SkillsSection.tsx:32-36 | Merge in place at matching ids; others unchanged; unknown id is a no-op |
| SkillsEditor.DeleteSkill | src/components/sections/SkillsSection.tsx:38-40 | Survivors are exactly the skills with another id; unknown id is a no-op |
| SkillsEditor.DeleteSkillKeepsOrder | src/components/sections/SkillsSection.tsx:38-40 | Deletion distributes over concatenation, so survivors keep their relative order |
| SkillsEditor.Push | src/components/sections/SkillsSection.tsx:99-103 | One reduce step keeps the category keys distinct and makes the skill's category a key |
| SkillsEditor.PushGroups | src/components/sections/SkillsSection.tsx:99-103 | One reduce step turns a grouping of the skills so far into a grouping of those plus the new skill |
| SkillsEditor.GroupedIsGrouping | src/components/sections/SkillsSection.tsx:98-104 | The reduce yields distinct keys, each group exactly the skills of its category in original order, no empty group, every category a key |
| SkillsEditor.SkillInItsGroupOnly | src/components/sections/SkillsSection.tsx:98-104 | A skill is in a group iff the group is keyed by its category |
| SkillsEditor.GroupSizesSum | src/components/sections/SkillsSection.tsx:98-104 | The group sizes add up to the number of skills |
| SkillsEditor.LevelColor | src/components/sections/SkillsSection.tsx:88-96 | The default gray class is returned exactly for strings that are not a level |
| SkillsEditor.LevelColorsDistinct | src/components/sections/SkillsSection.tsx:88-96 | The four levels get four distinct classes, none of them the default |
| SkillsEditor.SkillLines | src/components/sections/SkillsSection.tsx:50 | One `name (level)` line per skill, in order |
| SkillsEditor.ContentHasOneLinePerSkill | src/components/sections/SkillsSection.tsx:50 | Splitting the sent content on newlines gives back the per-skill lines, when names have no newline |
| SkillsEditor.AddClicked | src/components/sections/SkillsSection.tsx:28-29 | Add appends a blank skill and opens it for editing |
| SkillsEditor.StartEnhance | src/components/sections/SkillsSection.tsx:42-61 | With no skills nothing is sent or changed; otherwise the flag is raised and the joined lines are sent under `skills` |
| SkillsEditor.FinishEnhance | src/components/sections/SkillsSection.tsx:63-74 | A delivered text fills the slot, a failure keeps it; the skills are untouched and the flag drops |
| SkillsEditor.AcceptEnhancement | src/components/sections/SkillsSection.tsx:77-82 | Accept only empties the slot; the skills are never modified |
| SkillsEditor.RejectEnhancement | src/components/sections/SkillsSection.tsx:84-86 | Reject only empties the slot |
| SkillsEditor.AcceptIsReject | src/components/sections/SkillsSection.tsx:77-86 | Accepting and rejecting a skills suggestion have the same effect |
| SkillsEditor.NoSkillsNeverSends | src/components/sections/SkillsSection.tsx:43-46 | With no skills the button is disabled and a start would send nothing |
| SkillsEditor.SaveClicked | src/components/sections/SkillsSection.tsx:232 | Save ends editing and keeps the skills |
| SkillsEditor.CancelClicked | src/components/sections/SkillsSection.tsx:238-243 | Cancel ends editing; it deletes the edited skill iff the first skill with that id is missing or unnamed, and otherwise keeps the skills |
| SkillsEditor.CancelAfterAddUndoes | src/components/sections/SkillsSection.tsx:21-29 | Cancelling right after Add restores the skills when the new id was fresh |
| ProjectsEditor.Merge | src/components/sections/ProjectsSection.tsx:28-32 | An empty update changes nothing; present `url`/`github` keys become present |
| ProjectsEditor.AddProject | src/components/sections/ProjectsSection.tsx:13-24 | One project appended with empty strings and no technologies; earlier projects kept |
| ProjectsEditor.UpdateProject | src/components/sections/ProjectsSection.tsx:28-32 | Merge in place at matching ids; others unchanged; unknown id is a no-op |
| ProjectsEditor.DeleteProject | src/components/sections/ProjectsSection.tsx:34-36 | Survivors are exactly the projects with another id; unknown id is a no-op |
| ProjectsEditor.DeleteProjectKeepsOrder | src/components/sections/ProjectsSection.tsx:34-36 | Deletion distributes over concatenation, so survivors keep their relative order |
| ProjectsEditor.ParseTechnologies | src/components/sections/ProjectsSection.tsx:39 | Every parsed technology is non-empty, has no comma and no surrounding whitespace |
| ProjectsEditor.ParsePieces | src/components/sections/ProjectsSection.tsx:39 | The parse of comma-joined pieces is those pieces trimmed, with empty ones dropped, in order and with duplicates kept |
| ProjectsEditor.ParseDisplayHead | src/components/sections/ProjectsSection.tsx:39-95 | The parse of `t + ", " + rest` is `t` followed by the cleaned pieces of `rest`, a space glued to the first |
| ProjectsEditor.ParseDisplayStep | src/components/sections/ProjectsSection.tsx:39-95 | The parse of `t + ", " + rest` is `t` followed by the parse of `rest` |
| ProjectsEditor.DisplayRoundTrip | src/components/sections/ProjectsSection.tsx:39-95 | Re-parsing the `join(", ")` display of parsed technologies gives the same list |
| ProjectsEditor.TechnologiesChanged | src/components/sections/ProjectsSection.tsx:38-41 | The handler replaces only `technologies` of matching projects with the parse; other projects are unchanged |
| CertificationsEditor.Merge | src/components/sections/CertificationsSection.tsx:26-30 | An empty update changes nothing; a present `url`/`expiryDate` becomes present, an absent expiry is kept |
| CertificationsEditor.AddCertification | src/components/sections/CertificationsSection.tsx:13-24 | One entry appended with empty name, issuer, date, and present empty `url` and `expiryDate` |
| CertificationsEditor.UpdateCertification | src/components/sections/CertificationsSection.tsx:26-30 | Merge in place at matching ids; others unchanged; unknown id is a no-op |
| CertificationsEditor.DeleteCertification | src/components/sections/CertificationsSection.tsx:32-34 | Survivors are exactly the entries with another id; unknown id is a no-op |
| CertificationsEditor.DeleteCertificationKeepsOrder | src/components/sections/CertificationsSection.tsx:32-34 | Deletion distributes over concatenation, so survivors keep their relative order |
| CertificationsEditor.IsExpired | src/components/sections/CertificationsSection.tsx:36-39 | An empty expiry is never expired; otherwise expired iff it parses to an instant before now |
| CertificationsEditor.ExpiryIsMonotone | src/components/sections/CertificationsSection.tsx:36-39 | Once expired, a certification stays expired as the clock advances |
| CertificationsEditor.BadgeMeansExpired | src/components/sections/CertificationsSection.tsx:159 | The Expired badge is shown iff the expiry is present, non-empty and before now |
| CertificationsEditor.BlankNeverExpired | src/components/sections/CertificationsSection.tsx:13-159 | A freshly added certification never shows the badge |
| PersonalInfoEditor.HandleChange | src/components/sections/PersonalInfoSection.tsx:10-15 | Field `f` reads the new value and the other five fields are unchanged |
| PersonalInfoEditor.FieldsDetermineRecord | src/components/sections/PersonalInfoSection.tsx:10-15 | A record is determined by its six fields |
| PersonalInfoEditor.HandleChangeIdempotent | src/components/sections/PersonalInfoSection.tsx:10-15 | Repeating a change equals making it once |
| PersonalInfoEditor.HandleChangesCommute | src/components/sections/PersonalInfoSection.tsx:10-15 | Changes to different fields commute |
| PersonalInfoEditor.LastChangeWins | src/components/sections/PersonalInfoSection.tsx:10-15 | A later change of the same field overrides an earlier one |
| PersonalInfoEditor.HandleChangeSameValue | src/components/sections/PersonalInfoSection.tsx:10-15 | Writing back a field's own value changes nothing |
| PersonalInfoEditor.PreviewShape | src/components/sections/PersonalInfoSection.tsx:116-136 | The preview has three lines plus one per filled optional field, no empty line, placeholders for an empty name, email or phone, the LinkedIn link to `"https://" + linkedIn` |
| PersonalInfoEditor.PreviewShowsEveryFilledField | src/components/sections/PersonalInfoSection.tsx:116-136 | Every filled-in field appears verbatim on some preview line |
| SummaryEditor.Edited | src/components/sections/SummarySection.tsx:88 | Typing replaces the summary and nothing else |
| SummaryEditor.StartEnhance | src/components/sections/SummarySection.tsx:13-30 | A request is sent iff the summary is not blank; a blank one changes nothing; otherwise the flag is raised |
| SummaryEditor.FinishEnhance | src/components/sections/SummarySection.tsx:32-44 | A delivered text becomes the proposal, a failure keeps it; the summary is untouched and the flag drops |
| SummaryEditor.AcceptEnhancement | src/components/sections/SummarySection.tsx:47-50 | The proposal becomes the summary and the slot is emptied |
| SummaryEditor.RejectEnhancement | src/components/sections/SummarySection.tsx:52-54 | The slot is emptied and the summary kept |
| SummaryEditor.EnhanceRound | src/components/sections/SummarySection.tsx:13-44 | A full round from an idle state sends the summary, raises the flag, then lowers it on every outcome |
| SummaryEditor.EmptyReplyShowsNoPanel | src/components/sections/SummarySection.tsx:96 | An empty delivered text is indistinguishable from no proposal: no panel |
| SummaryEditor.SlotEmptiedByBoth | src/components/sections/SummarySection.tsx:47-96 | After accept or reject no panel is shown; rejecting after accepting changes nothing |
| App.BlankResume | src/App.tsx:22-38 | Six empty personal fields, an empty summary and five empty collections |
| App.NewResume | src/App.tsx:22-41 | The blank document replaces any current one and the view moves to `personal` |
| App.FileUploaded | src/App.tsx:17-20 | The delivered document replaces any current one and the view moves to `personal` |
| App.Navigate | src/App.tsx:186-200 | A click on an enabled sidebar item switches the view; without a document every item but upload is disabled and the click changes nothing; the document is kept |
| App.Render | src/App.tsx:53-161 | The no-data screen is shown iff there is no document and the view is not upload; the upload view shows the upload screen |
| App.RenderCoversNavigation | src/App.tsx:43-161 | With a document, a view renders something iff it is a navigation id; the certifications view renders nothing |
| App.StepConsistent | src/App.tsx:17-200 | Every click, creation, upload or edit keeps the invariant "no document implies the upload view" |
| App.RunConsistent | src/App.tsx:14-200 | Every sequence of events keeps that invariant |
| App.NoDataScreenUnreachable | src/App.tsx:54-70 | No session from the start state ever shows the no-data screen, because the sidebar disables every item but upload until a document exists |
| App.ClicksKeepInitial | src/App.tsx:14-200 | Sidebar clicks alone never leave the start state, which shows the upload screen |
| App.ApplyChange | src/App.tsx:121-156 | A section's change sets its one top-level field and keeps every other field |
| App.FieldsDetermineDocument | src/types/resume.ts:59-67 | A document is determined by its seven top-level fields |
| App.ChangesCommute | src/App.tsx:121-156 | Changes from two different sections commute |
| App.LaterChangeWins | src/App.tsx:121-156 | A later change from the same section overrides an earlier one |
| App.CertificationsNeverChange | src/App.tsx:114-161 | No section change ever touches the certifications |
| App.DocumentChanged | src/App.tsx:121-156 | A change applied to the current document carries the new value, keeps the other fields and the view |
| App.BaseName | src/App.tsx:272 | `fullName \|\| 'resume'`: never empty, the name when there is one |
| App.DatePartOfTimestamp | src/App.tsx:272 | The part before the first `T` of `date + "T" + time` is `date` |
| App.FileNames | src/App.tsx:272-399 | JSON, PDF and DOCX names share the base name with their own extension; the JSON one carries the date; no name gives `resume.pdf` |
| PdfExport.YsConcat | src/App.tsx:288-333 | The text positions of a concatenation are those of each part, in order |
| PdfExport.PlacedConcat | src/App.tsx:288-333 | Two blocks each drawn strictly downwards from where the previous ended combine into one such block |
| PdfExport.Header | src/App.tsx:288-301 | Six operations: size 20, the name ("Your Name" when empty) at 20, size 12, email at 30, phone at 36, location at 42; the cursor is left at 57 |
| PdfExport.SummaryBlock | src/App.tsx:303-312 | Emitted iff the summary is non-empty, drawing "Professional Summary" then the wrapped summary and advancing 8 + 5 per wrapped line + 10; otherwise the cursor stays |
| PdfExport.TextsConcat | src/App.tsx:288-333 | The texts drawn by a concatenation are those of each part, in order |
| PdfExport.EntriesTextsConcat | src/App.tsx:320 | The texts of two runs of entries are the first run's, then the second's |
| PdfExport.EntryTextsInOrder | src/App.tsx:320-331 | Entry i's texts come after every earlier entry's and before every later entry's |
| PdfExport.PresentIffCurrent | src/App.tsx:325 | The date line ends in "Present" iff the entry is current or its end date itself ends so |
| PdfExport.EntryBlock | src/App.tsx:320-331 | Title "position at company" at y, date line at y + 6, the wrapped description only when non-empty (advancing 4 per line + 8); otherwise y + 12; its texts are exactly these, in this order |
| PdfExport.EntriesBlock | src/App.tsx:320-332 | Entries drawn strictly downwards; the drawn texts are each entry's title, date line and description in collection order; four operations each plus one per description |
| PdfExport.ExperienceBlock | src/App.tsx:314-333 | Emitted iff there are entries; draws "Work Experience" then the entries' texts in order; cursor advances at least 8 + 12 per entry |
| PdfExport.ExportPdf | src/App.tsx:288-333 | Every text is drawn strictly below the previous one, starting from 20; the texts are the header's, then the summary's, then the experience's |
| PdfExport.ExportShape | src/App.tsx:288-333 | The summary heading is present iff the summary is non-empty; exact operation count; final cursor lower bound |
| PdfExport.ExportIgnoresOtherSections | src/App.tsx:290-333 | Education, skills, projects, certifications, LinkedIn and website never influence the PDF |
| DocxExport.Header | src/App.tsx:350-363 | A first-level heading with the name ("Your Name" when empty); then a contact line of five plain runs: email, the separator " \| ", phone, the separator again, location; then a blank paragraph |
| DocxExport.SummaryParagraphs | src/App.tsx:364-373 | No paragraphs for an empty summary; otherwise three, the summary text second |
| DocxExport.EntriesParagraphs | src/App.tsx:379-392 | Entry `i` occupies paragraphs 4i to 4i + 3, in collection order |
| DocxExport.ExperienceParagraphs | src/App.tsx:374-393 | Nothing without entries; otherwise the heading then four paragraphs per entry |
| DocxExport.DocxShape | src/App.tsx:349-393 | The paragraph count is 3, plus 3 for a summary, plus 1 + 4n for n > 0 entries; entry `i` starts with its bold title at a fixed index |
| DocxExport.SummaryParagraphIff | src/App.tsx:364-373 | The summary heading and text sit at paragraphs 3 and 4 iff the summary is non-empty |
| DocxExport.DocxIgnoresOtherSections | src/App.tsx:349-393 | Education, skills, projects, certifications, LinkedIn and website never influence the DOCX |
| FileIntake.HandleFiles | src/components/FileUpload.tsx:89-118 | No file: nothing changes; a refused first type: error and one clearing callback; an accepted one: uploading, idle status and one processing callback |
| FileIntake.OnlyFirstFileMatters | src/components/FileUpload.tsx:92 | Only the first file's type decides |
| FileIntake.Fire | src/components/FileUpload.tsx:101-117 | A document is handed over iff the delivery callback fires, and it is the mock document; only the processing callback schedules another |
| FileIntake.Step | src/components/FileUpload.tsx:89-118 | One event hands over at most one document and never takes back an earlier one |
| FileIntake.RefusedFilesNeverDeliver | src/components/FileUpload.tsx:93-103 | A run whose file choices are all refused hands over nothing |
| FileIntake.OnlyMockIsDelivered | src/components/FileUpload.tsx:105-117 | Whatever the events, every handed-over document is the mock document |
| FileIntake.AcceptedFileDelivers | src/components/FileUpload.tsx:105-117 | An accepted file goes uploading/idle, then not uploading/success, then the mock document is handed over |
| FileIntake.RefusedFileErrorsThenClears | src/components/FileUpload.tsx:99-103 | A refused file shows the error; its callback returns to the fresh state without a delivery |
| FileIntake.MockDocumentWellFormed | src/components/FileUpload.tsx:15-87 | The mock document keeps "current implies no end date" and has distinct ids in each collection |
| Backend.MockUsable | backend/main.py:50-96 | The phrase tables have 5 prefixes, 5 improvements, 10 action words, 5 metrics, 3 categories of 3, 5 education phrases |
| Backend.MockLinesStayLines | backend/main.py:50-96 | No phrase contains a newline |
| Backend.MockMetricsNumeric | backend/main.py:72-78 | Every metric contains a digit |
| Backend.MockPhrasesEdged | backend/main.py:67-78 | Every action word starts, and every metric ends, with a non-space character |
| Backend.Pick | backend/main.py:120-162 | `table[hash(key) % len(table)]` is always an entry of the table |
| Backend.EnhanceSummary | backend/main.py:117-123 | Exactly base + " " + improvement + ".", where base is the content when a known prefix occurs and prefix + " " + lower-cased content otherwise (front, end and total length pinned) |
| Backend.SummaryGainsPrefix | backend/main.py:117-123 | Every rewritten summary contains a known prefix, ignoring case |
| Backend.SummaryPrefixedOnce | backend/main.py:117-123 | Rewriting a rewritten summary adds no second prefix |
| Backend.EnhanceExperienceLine | backend/main.py:128-141 | Blank lines and lines with an action word and a digit are unchanged; otherwise exactly the line (or word + " " + lower(line) without an action word) followed by ", " + metric when it has no digit, front, end and length pinned |
| Backend.RewrittenLineHasActionWord | backend/main.py:133-135 | A rewritten non-blank line holds an action word |
| Backend.RewrittenLineHasDigit | backend/main.py:136-138 | A rewritten non-blank line holds a digit |
| Backend.RewrittenLineComplete | backend/main.py:128-141 | A rewritten non-blank line has an action word and a digit and stays one line |
| Backend.ExperienceLineIdempotent | backend/main.py:128-141 | Rewriting a rewritten line changes nothing |
| Backend.ExperienceKeepsLines | backend/main.py:125-142 | Same number of newline-separated lines; blank lines unchanged; each non-blank line gains an action word and a digit |
| Backend.ExperienceIdempotent | backend/main.py:125-142 | Rewriting rewritten experience text changes nothing |
| Backend.NewlinesToCommas | backend/main.py:145 | `replace('\n', ',')`: same length, no newline, every other character kept |
| Backend.SkillItems | backend/main.py:145 | Every item is non-empty, stripped, and has no comma or newline |
| Backend.SkillsOneLinePerItem | backend/main.py:144-154 | One output line per item; line i equals a prefix of category i mod 3, a space, then item i; no items gives "" |
| Backend.EnhanceEducationLine | backend/main.py:159-165 | Blank lines are unchanged; others are exactly line + " " + the picked phrase (front, end and length pinned) |
| Backend.EducationKeepsLines | backend/main.py:156-166 | Same line count, blank lines kept, each non-blank line equals itself + " " + some education phrase |
| Backend.AiEnhanceAsWritten | backend/main.py:106-171 | As written: blank content is answered 500 "Enhancement failed: 400: Content cannot be empty", and only blank content errs |
| Backend.AiEnhance | backend/main.py:106-168 | As intended: blank content is answered 400 "Content cannot be empty", and only blank content errs |
| Backend.BlankContentStatus | backend/main.py:112-171 | The two agree except on blank content, where 500 is returned instead of 400 |
| Backend.EmptySummaryGets500 | backend/main.py:112-171 | The empty summary request gets 500 as written, unlike as intended |
| Backend.OnlyStrippedContentMatters | backend/main.py:110 | Stripping the content first never changes the answer |
| Backend.SectionIgnoresCase | backend/main.py:109 | Section names equal up to case give the same answer |
| Backend.UnknownSectionEchoes | backend/main.py:115-168 | An unknown section returns the stripped content unchanged |
| Backend.RewrittenLineEdges | backend/main.py:128-141 | A rewritten non-blank line starts with a non-space when the line does and ends with one when the line does |
| Backend.ExperienceStaysTrimmed | backend/main.py:125-142 | Rewriting stripped, non-blank experience text gives stripped, non-blank text |
| Backend.ExperienceEndpointIdempotent | backend/main.py:106-142 | For any experience request that succeeds, sending back the answered text returns that same text |
| Backend.Delivery | backend/main.py:168-171 | The editor gets the text exactly when the endpoint answers successfully |
| Backend.NonBlankRequestsAreDelivered | backend/main.py:112-168 | Every non-blank request is delivered, as written and as intended alike |
| ResumeStore.ChosenId | backend/main.py:176 | The given id when non-empty, otherwise `resume_` + the save time |
| ResumeStore.StoredRecord | backend/main.py:177-182 | The posted keys plus `id`, `last_updated`, `version` = "1.0", which override posted keys; other posted values are kept |
| ResumeStore.SaveResume | backend/main.py:173-189 | The record is filed under its id in memory and files; the reply names the id |
| ResumeStore.GetResume | backend/main.py:194-207 | Memory first; a saved file is returned and cached; 404 "Resume not found" iff neither has the id |
| ResumeStore.GetAfterSave | backend/main.py:176-198 | Reading right after saving returns the stored record |
| ResumeStore.SaveKeepsOthers | backend/main.py:183 | Saving leaves every other id's lookup unchanged |
| ResumeStore.StoredRecordKeepsDocument | backend/main.py:177-182 | Posted keys other than the three added are kept; at most three keys are added; building the record twice is building it once |
| ResumeStore.FileLookupIsCached | backend/main.py:200-205 | A record found in the files is served from memory, unchanged, the next time |
| ResumeStore.FreshSavesFileTwo | backend/main.py:176-183 | Two saves without an id at different stamps get distinct ids and both records read back |
| ResumeStore.ResaveOverwrites | backend/main.py:176-183 | Saving again with the returned id keeps the id and replaces the record |

## Left out

- Rendering, CSS classes, icons, `alert`, `console.error`, and the drag handlers: these are presentation. Dropping a file is not gated by `uploading` in the source. The model has no drop event.
- `fetch`, endpoint URLs and response parsing: a network answer is an input event, either delivered text or failure. The saving fetch and its URL are not modelled.
- The editors' `editingId` open/close state beyond Add, Save and Cancel in skills.
- The JSON download's encoding, and the internals of jsPDF, docx and file-saver: these are foreign libraries. `splitTextToSize` is an uninterpreted `wrap` returning at least one line. Font sizes are recorded but have no effect.
- `Date` parsing and `new Date()`: these are `parseDate` and `now` parameters. `toISOString` is a parameter string, and `Date.now()` ids are parameters, not assumed unique.
- The `setTimeout` delays: the three callbacks are events that fire in any order the environment picks.
- Python `hash()`: a `hash` parameter. No specific phrase is ever asserted.
- Unicode: whitespace is the ASCII set, `lower` and `isdigit` work on ASCII only, and case is compared by ASCII folding. JavaScript `trim` and Python `strip`/`lower`/`isdigit` accept more characters.
- The JavaScript ordering of integer-like object keys in `groupedSkills`: groups are in first-appearance order. Category names that look like array indexes would be listed first by JavaScript.
- SkillsEditor.Grouped: a category named like an `Object.prototype` member (`constructor`, `toString`, `__proto__`) would make `acc[category]` truthy in the source's reduce and its `push` would fail. Categories are assumed not to name such members; the editor offers only the fixed list at src/components/sections/SkillsSection.tsx:16-19.
- ProjectsEditor.ParsePieces: the literal example `"React,  Node.js ,, Mongo "` is not evaluated. The general statement covers it.
- ResumeStore.SaveResume: file writes, `os.makedirs` and the 500 "Save failed" path are not modelled. A saved file reads back as the record that was written; the `json.dump`/`json.load` round trip is assumed.
- ResumeStore.GetResume: the 500 "Retrieval failed" path for unreadable files is not modelled.
- `list_resumes`, the root endpoint, CORS, Mangum and FastAPI request validation: framework plumbing.

## Findings

| source | as written | input that shows it | evidently intended | confidence | as-written member | corrected member |
|---|---|---|---|---|---|---|
| backend/main.py:112-171 | The 400 raised for empty content is caught by the blanket `except Exception` and re-raised as 500 "Enhancement failed: 400: Content cannot be empty" | `{"section": "summary", "content": ""}` or whitespace-only content | A 400 client error with detail "Content cannot be empty"; `get_resume` re-raises its `HTTPException` for this reason (lines 209-210) | not executed | Backend.AiEnhanceAsWritten, Backend.EmptySummaryGets500 | Backend.AiEnhance, Backend.BlankContentStatus |

=== FILE: app.dfy ===
/**
 * The application shell: the document held by the editor, the blank
 * document, the active view and what it renders, the per-section change
 * wiring (each replaces one top-level field), and the export filenames.
 */
module App {
  import opened Wrappers
  import opened Text
  import opened Resume

  /** The editor's state: the active view id and the document, if one was created or uploaded. */
  datatype AppState = AppState(active: string, doc: Option<ResumeData>)

  /** The state on start: the upload view and no document. */
  const Initial := AppState("upload", None)

  const BlankInfo := PersonalInfo("", "", "", "", "", "")

  /** The document `handleNewResume` creates. */
  function BlankResume(): (r: ResumeData)
    ensures r.summary == "" && r.experience == [] && r.education == []
    ensures r.skills == [] && r.projects == [] && r.certifications == []
    ensures r.personalInfo.fullName == "" && r.personalInfo.email == "" && r.personalInfo.phone == ""
    ensures r.personalInfo.location == "" && r.personalInfo.linkedIn == "" && r.personalInfo.website == ""
  {
    ResumeData(BlankInfo, "", [], [], [], [], [])
  }

  /** Create New Resume: the blank document replaces any current one and the view moves to personal info. */
  function NewResume(s: AppState): (r: AppState)
    ensures r.doc == Some(BlankResume()) && r.active == "personal"
  {
    AppState("personal", Some(BlankResume()))
  }

  /** `handleFileUpload`: the delivered document replaces any current one and the view moves to personal info. */
  function FileUploaded(s: AppState, delivered: ResumeData): (r: AppState)
    ensures r.doc == Some(delivered) && r.active == "personal"
  {
    AppState("personal", Some(delivered))
  }

  /** The navigation ids, in sidebar order. There is none for certifications. */
  const NavIds: seq<string> := ["upload", "personal", "summary", "experience", "education", "skills", "projects"]

  /** Every item except upload is disabled until a document exists. */
  predicate NavDisabled(s: AppState, id: string) {
    s.doc.None? && id != "upload"
  }

  /**
   * A click on sidebar item `id`: an enabled item switches the view, a
   * disabled one does nothing; the document is untouched either way.
   */
  function Navigate(s: AppState, id: string): (r: AppState)
    requires id in NavIds
    ensures r.doc == s.doc
    ensures !NavDisabled(s, id) ==> r.active == id
    ensures NavDisabled(s, id) ==> r == s
  {
    if NavDisabled(s, id) then s else s.(active := id)
  }

  /** What the content area shows. */
  datatype Screen =
    | NoResumeData
    | UploadScreen
    | PersonalScreen(info: PersonalInfo)
    | SummaryScreen(summary: string)
    | ExperienceScreen(experience: seq<Experience>)
    | EducationScreen(education: seq<Education>)
    | SkillsScreen(skills: seq<Skill>)
    | ProjectsScreen(projects: seq<Project>)
    | Nothing

  /** `renderActiveSection`: the guard for a missing document, then the switch on the view id. */
  function Render(s: AppState): (r: Screen)
    ensures r == NoResumeData <==> s.doc.None? && s.active != "upload"
    ensures s.active == "upload" ==> r == UploadScreen
  {
    if s.doc.None? && s.active != "upload" then NoResumeData
    else if s.active == "upload" then UploadScreen
    else
      var d := s.doc.value;
      if s.active == "personal" then PersonalScreen(d.personalInfo)
      else if s.active == "summary" then SummaryScreen(d.summary)
      else if s.active == "experience" then ExperienceScreen(d.experience)
      else if s.active == "education" then EducationScreen(d.education)
      else if s.active == "skills" then SkillsScreen(d.skills)
      else if s.active == "projects" then ProjectsScreen(d.projects)
      else Nothing
  }

  /**
   * With a document present, a view renders something exactly when it is a
   * navigation id; in particular the certifications view renders nothing.
   */
  lemma RenderCoversNavigation(s: AppState)
    requires s.doc.Some?
    ensures Render(s) == Nothing <==> s.active !in NavIds
    ensures Render(s.(active := "certifications")) == Nothing
  {
  }

  /** A section's `onChange`: the new value of the one top-level field that section edits. */
  datatype SectionChange =
    | InfoChanged(info: PersonalInfo)
    | SummaryChanged(summary: string)
    | ExperienceChanged(experience: seq<Experience>)
    | EducationChanged(education: seq<Education>)
    | SkillsChanged(skills: seq<Skill>)
    | ProjectsChanged(projects: seq<Project>)

  /** The top-level fields of a document. */
  datatype DocField = InfoField | SummaryField | ExperienceField | EducationField | SkillsField | ProjectsField | CertificationsField

  function FieldOf(c: SectionChange): DocField {
    match c
    case InfoChanged(_) => InfoField
    case SummaryChanged(_) => SummaryField
    case ExperienceChanged(_) => ExperienceField
    case EducationChanged(_) => EducationField
    case SkillsChanged(_) => SkillsField
    case ProjectsChanged(_) => ProjectsField
  }

  /** `a` and `b` agree on top-level field `f`. */
  predicate SameField(a: ResumeData, b: ResumeData, f: DocField) {
    match f
    case InfoField => a.personalInfo == b.personalInfo
    case SummaryField => a.summary == b.summary
    case ExperienceField => a.experience == b.experience
    case EducationField => a.education == b.education
    case SkillsField => a.skills == b.skills
    case ProjectsField => a.projects == b.projects
    case CertificationsField => a.certifications == b.certifications
  }

  /** `b` carries the new value of change `c`. */
  predicate Carries(b: ResumeData, c: SectionChange) {
    match c
    case InfoChanged(v) => b.personalInfo == v
    case SummaryChanged(v) => b.summary == v
    case ExperienceChanged(v) => b.experience == v
    case EducationChanged(v) => b.education == v
    case SkillsChanged(v) => b.skills == v
    case ProjectsChanged(v) => b.projects == v
  }

  /** `{...resumeData, <field>: value}`: the changed field takes the new value, every other field is kept. */
  function ApplyChange(d: ResumeData, c: SectionChange): (r: ResumeData)
    ensures Carries(r, c)
    ensures forall f :: f != FieldOf(c) ==> SameField(r, d, f)
  {
    match c
    case InfoChanged(v) => d.(personalInfo := v)
    case SummaryChanged(v) => d.(summary := v)
    case ExperienceChanged(v) => d.(experience := v)
    case EducationChanged(v) => d.(education := v)
    case SkillsChanged(v) => d.(skills := v)
    case ProjectsChanged(v) => d.(projects := v)
  }

  /** Two documents that agree on every top-level field are equal. */
  lemma FieldsDetermineDocument(a: ResumeData, b: ResumeData)
    requires forall f :: SameField(a, b, f)
    ensures a == b
  {
    assert SameField(a, b, InfoField) && SameField(a, b, SummaryField);
    assert SameField(a, b, ExperienceField) && SameField(a, b, EducationField);
    assert SameField(a, b, SkillsField) && SameField(a, b, ProjectsField);
    assert SameField(a, b, CertificationsField);
  }

  /** Changes from two different sections commute. */
  lemma ChangesCommute(d: ResumeData, c1: SectionChange, c2: SectionChange)
    requires FieldOf(c1) != FieldOf(c2)
    ensures ApplyChange(ApplyChange(d, c1), c2) == ApplyChange(ApplyChange(d, c2), c1)
  {
    var a := ApplyChange(ApplyChange(d, c1), c2);
    var b := ApplyChange(ApplyChange(d, c2), c1);
    forall f ensures SameField(a, b, f) {
      if f == FieldOf(c1) {
        assert SameField(a, ApplyChange(d, c1), f);
      } else if f == FieldOf(c2) {
        assert SameField(b, ApplyChange(d, c2), f);
      }
    }
    FieldsDetermineDocument(a, b);
  }

  /** A later change from the same section overrides an earlier one. */
  lemma LaterChangeWins(d: ResumeData, c1: SectionChange, c2: SectionChange)
    requires FieldOf(c1) == FieldOf(c2)
    ensures ApplyChange(ApplyChange(d, c1), c2) == ApplyChange(d, c2)
  {
    var a := ApplyChange(ApplyChange(d, c1), c2);
    var b := ApplyChange(d, c2);
    forall f ensures SameField(a, b, f) {
      if f != FieldOf(c2) {
        assert SameField(ApplyChange(d, c1), d, f);
      }
    }
    FieldsDetermineDocument(a, b);
  }

  /** No section change ever touches the certifications. */
  lemma CertificationsNeverChange(d: ResumeData, c: SectionChange)
    ensures ApplyChange(d, c).certifications == d.certifications
  {
    assert FieldOf(c) != CertificationsField;
  }

  /** A change arriving in the state: applied to the current document, the view is kept. */
  function DocumentChanged(s: AppState, c: SectionChange): (r: AppState)
    requires s.doc.Some?
    ensures r.active == s.active && r.doc.Some? && Carries(r.doc.value, c)
    ensures forall f :: f != FieldOf(c) ==> SameField(r.doc.value, s.doc.value, f)
  {
    s.(doc := Some(ApplyChange(s.doc.value, c)))
  }

  // ---------------------------------------------------------------------
  // Sessions
  // ---------------------------------------------------------------------

  /** What the user can do: click a sidebar item, create a blank document, upload one, or edit a section. */
  datatype Event = Click(id: string) | CreateNew | Uploaded(delivered: ResumeData) | Edited(change: SectionChange)

  /**
   * The state after one event. A click on an id without a sidebar item, or
   * an edit while no editor is shown, cannot be delivered by the interface
   * and leaves the state alone.
   */
  function Step(s: AppState, e: Event): AppState {
    match e
    case Click(id) => if id in NavIds then Navigate(s, id) else s
    case CreateNew => NewResume(s)
    case Uploaded(d) => FileUploaded(s, d)
    case Edited(c) => if s.doc.Some? then DocumentChanged(s, c) else s
  }

  /** The state after a sequence of events, in order. */
  function Run(s: AppState, es: seq<Event>): AppState
    decreases |es|
  {
    if es == [] then s else Run(Step(s, es[0]), es[1..])
  }

  /** The view is the upload view whenever there is no document. */
  predicate Consistent(s: AppState) {
    s.doc.Some? || s.active == "upload"
  }

  /** Every event keeps the state consistent. */
  lemma StepConsistent(s: AppState, e: Event)
    requires Consistent(s)
    ensures Consistent(Step(s, e))
  {
  }

  /** Every session keeps the state consistent. */
  lemma {:induction false} RunConsistent(s: AppState, es: seq<Event>)
    requires Consistent(s)
    ensures Consistent(Run(s, es))
    decreases |es|
  {
    if es != [] {
      StepConsistent(s, es[0]);
      RunConsistent(Step(s, es[0]), es[1..]);
    }
  }

  /**
   * Since the sidebar disables every item but upload until a document
   * exists, no session from the start ever shows the no-data screen.
   */
  lemma NoDataScreenUnreachable(es: seq<Event>)
    ensures Render(Run(Initial, es)) != NoResumeData
  {
    RunConsistent(Initial, es);
  }

  /** Clicks alone never leave the start state: without a document only upload is enabled. */
  lemma {:induction false} ClicksKeepInitial(es: seq<Event>)
    requires forall k :: 0 <= k < |es| ==> es[k].Click?
    ensures Run(Initial, es) == Initial
    ensures Render(Run(Initial, es)) == UploadScreen
    decreases |es|
  {
    if es != [] {
      assert Step(Initial, es[0]) == Initial;
      ClicksKeepInitial(es[1..]);
    }
  }

  // ---------------------------------------------------------------------
  // Export filenames
  // ---------------------------------------------------------------------

  /** `fullName || 'resume'`. */
  function BaseName(d: ResumeData): (r: string)
    ensures r != ""
    ensures d.personalInfo.fullName != "" ==> r == d.personalInfo.fullName
  {
    OrElse(d.personalInfo.fullName, "resume")
  }

  /** `toISOString().split('T')[0]`. */
  function DatePart(iso: string): string {
    Split(iso, 'T')[0]
  }

  /** For an ISO timestamp `date + "T" + time`, the date part is `date`. */
  lemma DatePartOfTimestamp(date: string, time: string)
    requires 'T' !in date
    ensures DatePart(date + "T" + time) == date
  {
    SplitSepHead(time, 'T');
    assert date + "T" + time == date + (['T'] + time);
    SplitPrepend(date, ['T'] + time, 'T');
    assert date + "" == date;
  }

  function JsonFileName(d: ResumeData, iso: string): string {
    BaseName(d) + "_" + DatePart(iso) + ".json"
  }

  function PdfFileName(d: ResumeData): string {
    BaseName(d) + ".pdf"
  }

  function DocxFileName(d: ResumeData): string {
    BaseName(d) + ".docx"
  }

  /**
   * The three downloads share the base name and differ in extension; the
   * JSON one carries the calendar date of the timestamp; a document without
   * a name is saved as `resume`.
   */
  lemma FileNames(d: ResumeData, date: string, time: string)
    requires 'T' !in date
    ensures JsonFileName(d, date + "T" + time) == BaseName(d) + "_" + date + ".json"
    ensures StartsWith(PdfFileName(d), BaseName(d)) && EndsWith(PdfFileName(d), ".pdf")
    ensures StartsWith(DocxFileName(d), BaseName(d)) && EndsWith(DocxFileName(d), ".docx")
    ensures d.personalInfo.fullName == "" ==> PdfFileName(d) == "resume.pdf"
  {
    DatePartOfTimestamp(date, time);
    assert PdfFileName(d)[..|BaseName(d)|] == BaseName(d);
    assert DocxFileName(d)[..|BaseName(d)|] == BaseName(d);
  }
}

=== FILE: backend.dfy ===
/**
 * The mock enhancement endpoint of the backend: per-section string
 * rewriting driven by fixed phrase tables.
 *
 * Phrases are chosen by `hash(text) % len(table)` where `hash` is Python's
 * per-process randomised string hash; here it is the parameter `hash`, and
 * Dafny's `%` agrees with Python's for the positive table lengths used.
 */
module Backend {
  import opened Text
  import opened Resume

  /**
   * The phrase tables of the mock enhancer. The rewriting functions take the
   * tables as a parameter, so their properties are proved for any tables
   * meeting `Usable` (and, where lines matter, `LinesStayLines`); the tables
   * the backend ships are `Mock`.
   */
  datatype PhraseTables = PhraseTables(
    summaryPrefixes: seq<string>,
    summaryImprovements: seq<string>,
    actionWords: seq<string>,
    metrics: seq<string>,
    /** The prefixes of each skill category, in the categories' key order. */
    skillPrefixes: seq<seq<string>>,
    educationEnhancements: seq<string>)

  /** Every table, and every skill category, is non-empty, so every modulo is defined. */
  predicate Usable(t: PhraseTables) {
    |t.summaryPrefixes| > 0 && |t.summaryImprovements| > 0 && |t.actionWords| > 0
    && |t.metrics| > 0 && |t.skillPrefixes| > 0 && |t.educationEnhancements| > 0
    && forall c :: 0 <= c < |t.skillPrefixes| ==> |t.skillPrefixes[c]| > 0
  }

  predicate SingleLine(s: string) {
    '\n' !in s
  }

  /** No phrase that goes into a line-by-line rewrite contains a newline. */
  predicate LinesStayLines(t: PhraseTables) {
    (forall k :: 0 <= k < |t.actionWords| ==> SingleLine(t.actionWords[k]))
    && (forall k :: 0 <= k < |t.metrics| ==> SingleLine(t.metrics[k]))
    && (forall k :: 0 <= k < |t.educationEnhancements| ==> SingleLine(t.educationEnhancements[k]))
    && (forall c, k :: 0 <= c < |t.skillPrefixes| && 0 <= k < |t.skillPrefixes[c]| ==> SingleLine(t.skillPrefixes[c][k]))
  }

  /** Every action word starts, and every metric ends, with a non-space character. */
  predicate PhrasesEdged(t: PhraseTables) {
    (forall k :: 0 <= k < |t.actionWords| ==> |t.actionWords[k]| > 0 && !IsSpace(t.actionWords[k][0]))
    && (forall k :: 0 <= k < |t.metrics| ==> |t.metrics[k]| > 0 && !IsSpace(t.metrics[k][|t.metrics[k]| - 1]))
  }

  /** Every metric mentions a number. */
  predicate MetricsNumeric(t: PhraseTables) {
    forall k :: 0 <= k < |t.metrics| ==> HasDigit(t.metrics[k])
  }

  const SummaryPrefixes: seq<string> := [
    "Dynamic and results-driven",
    "Innovative and detail-oriented",
    "Highly motivated and experienced",
    "Strategic and analytical",
    "Creative and solution-focused"]

  const SummaryImprovements: seq<string> := [
    "with a proven track record of delivering exceptional results",
    "demonstrating exceptional leadership and problem-solving capabilities",
    "with expertise in driving organizational growth and efficiency",
    "specializing in innovative solutions and strategic implementation",
    "with a passion for excellence and continuous improvement"]

  const ActionWords: seq<string> := [
    "Spearheaded", "Orchestrated", "Pioneered", "Optimized", "Streamlined",
    "Collaborated", "Implemented", "Developed", "Managed", "Led"]

  const Metrics: seq<string> := [
    "resulting in 25% increased efficiency",
    "leading to $50K+ cost savings annually",
    "improving team productivity by 30%",
    "reducing processing time by 40%",
    "achieving 95% client satisfaction rate"]

  /** The categories Technical, Leadership and Communication, in that order. */
  const TechnicalPrefixes: seq<string> := ["Advanced proficiency in", "Expert-level knowledge of", "Specialized expertise in"]
  const LeadershipPrefixes: seq<string> := ["Proven leadership in", "Demonstrated excellence in", "Strategic management of"]
  const CommunicationPrefixes: seq<string> := ["Exceptional communication skills in", "Professional proficiency in", "Advanced capabilities in"]

  /** The three longest phrases are written as two joined literals; their values are the phrases themselves. */
  const EducationEnhancements: seq<string> := [
    "with academic excellence " + "and leadership recognition",
    "including relevant coursework " + "in advanced topics",
    "with honors and distinguished " + "academic performance",
    "complemented by practical project experience",
    "with focus on industry-relevant applications"]

  /** The tables the backend ships. */
  const Mock := PhraseTables(
    SummaryPrefixes, SummaryImprovements, ActionWords, Metrics,
    [TechnicalPrefixes, LeadershipPrefixes, CommunicationPrefixes],
    EducationEnhancements)

  /** The shipped tables have the sizes of the backend's tables: 5, 5, 10, 5, three categories of 3, and 5. */
  lemma MockUsable()
    ensures Usable(Mock)
    ensures |Mock.summaryPrefixes| == 5 && |Mock.summaryImprovements| == 5 && |Mock.actionWords| == 10
    ensures |Mock.metrics| == 5 && |Mock.educationEnhancements| == 5
    ensures |Mock.skillPrefixes| == 3 && forall c :: 0 <= c < 3 ==> |Mock.skillPrefixes[c]| == 3
  {
  }

  lemma NewlineFreeConcat(a: string, b: string)
    requires SingleLine(a) && SingleLine(b)
    ensures SingleLine(a + b)
  {
  }

  lemma ActionWordsSingleLine()
    ensures forall k :: 0 <= k < |ActionWords| ==> SingleLine(ActionWords[k])
  {
  }

  lemma Metric0SingleLine()
    ensures SingleLine(Metrics[0])
  {
  }

  lemma Metric1SingleLine()
    ensures SingleLine(Metrics[1])
  {
  }

  lemma Metric2SingleLine()
    ensures SingleLine(Metrics[2])
  {
  }

  lemma Metric3SingleLine()
    ensures SingleLine(Metrics[3])
  {
  }

  lemma Metric4SingleLine()
    ensures SingleLine(Metrics[4])
  {
  }

  lemma TechnicalSingleLine()
    ensures forall k :: 0 <= k < |TechnicalPrefixes| ==> SingleLine(TechnicalPrefixes[k])
  {
  }

  lemma LeadershipSingleLine()
    ensures forall k :: 0 <= k < |LeadershipPrefixes| ==> SingleLine(LeadershipPrefixes[k])
  {
  }

  lemma CommunicationSingleLine()
    ensures forall k :: 0 <= k < |CommunicationPrefixes| ==> SingleLine(CommunicationPrefixes[k])
  {
  }

  lemma Education0SingleLine()
    ensures SingleLine(EducationEnhancements[0])
  {
    NewlineFreeConcat("with academic excellence ", "and leadership recognition");
  }

  lemma Education1SingleLine()
    ensures SingleLine(EducationEnhancements[1])
  {
    NewlineFreeConcat("including relevant coursework ", "in advanced topics");
  }

  lemma Education2SingleLine()
    ensures SingleLine(EducationEnhancements[2])
  {
    NewlineFreeConcat("with honors and distinguished ", "academic performance");
  }

  lemma Education3SingleLine()
    ensures SingleLine(EducationEnhancements[3])
  {
  }

  lemma Education4SingleLine()
    ensures SingleLine(EducationEnhancements[4])
  {
  }

  /** The shipped action words start, and the shipped metrics end, with a non-space character. */
  lemma MockPhrasesEdged()
    ensures PhrasesEdged(Mock)
  {
    assert forall k :: 0 <= k < |ActionWords| ==> |ActionWords[k]| > 0 && IsUpper(ActionWords[k][0]);
    assert Metrics[0][|Metrics[0]| - 1] == 'y';
    assert Metrics[1][|Metrics[1]| - 1] == 'y';
    assert Metrics[2][|Metrics[2]| - 1] == '%';
    assert Metrics[3][|Metrics[3]| - 1] == '%';
    assert Metrics[4][|Metrics[4]| - 1] == 'e';
  }

  /** No shipped phrase used in a line-by-line rewrite contains a newline. */
  lemma MockLinesStayLines()
    ensures LinesStayLines(Mock)
  {
    ActionWordsSingleLine();
    Metric0SingleLine();
    Metric1SingleLine();
    Metric2SingleLine();
    Metric3SingleLine();
    Metric4SingleLine();
    TechnicalSingleLine();
    LeadershipSingleLine();
    CommunicationSingleLine();
    Education0SingleLine();
    Education1SingleLine();
    Education2SingleLine();
    Education3SingleLine();
    Education4SingleLine();
    MockUsable();
    assert Mock.skillPrefixes == [TechnicalPrefixes, LeadershipPrefixes, CommunicationPrefixes];
  }



  /** Every shipped metric mentions a number. */
  lemma MockMetricsNumeric()
    ensures MetricsNumeric(Mock)
  {
    assert IsDigit(Metrics[0][13]);
    assert IsDigit(Metrics[1][12]);
    assert IsDigit(Metrics[2][32]);
    assert IsDigit(Metrics[3][29]);
    assert IsDigit(Metrics[4][10]);
  }

  /** `table[hash(key) % len(table)]`. */
  function Pick(table: seq<string>, key: string, hash: string -> int): (r: string)
    requires |table| > 0
    ensures r in table
  {
    table[hash(key) % |table|]
  }

  // ---------------------------------------------------------------------
  // Summary
  // ---------------------------------------------------------------------

  /** Some summary prefix occurs in `content`, ignoring case. */
  predicate HasKnownPrefix(t: PhraseTables, content: string) {
    exists i :: 0 <= i < |t.summaryPrefixes| && Contains(Lower(content), Lower(t.summaryPrefixes[i]))
  }

  /**
   * The summary rewrite: without a known prefix the text is lower-cased and
   * a prefix put in front; an improvement phrase and a full stop are always
   * appended. Both phrases are chosen by the hash of the original text.
   */
  function EnhanceSummary(t: PhraseTables, content: string, hash: string -> int): (r: string)
    requires Usable(t)
    ensures EndsWith(r, " " + Pick(t.summaryImprovements, content, hash) + ".")
    ensures HasKnownPrefix(t, content) ==> StartsWith(r, content)
    ensures !HasKnownPrefix(t, content) ==>
      StartsWith(r, Pick(t.summaryPrefixes, content, hash) + " " + Lower(content))
    ensures |r| == (if HasKnownPrefix(t, content) then |content|
                    else |Pick(t.summaryPrefixes, content, hash)| + 1 + |content|)
                   + 1 + |Pick(t.summaryImprovements, content, hash)| + 1
  {
    var base := if HasKnownPrefix(t, content) then content
                else Pick(t.summaryPrefixes, content, hash) + " " + Lower(content);
    var tail := " " + Pick(t.summaryImprovements, content, hash) + ".";
    assert (base + tail)[..|base|] == base;
    assert (base + tail)[|base + tail| - |tail|..] == tail;
    base + tail
  }

  /** Every rewritten summary carries a known prefix. */
  lemma SummaryGainsPrefix(t: PhraseTables, content: string, hash: string -> int)
    requires Usable(t)
    ensures HasKnownPrefix(t, EnhanceSummary(t, content, hash))
  {
    var r := EnhanceSummary(t, content, hash);
    var tail := " " + Pick(t.summaryImprovements, content, hash) + ".";
    if HasKnownPrefix(t, content) {
      var i :| 0 <= i < |t.summaryPrefixes| && Contains(Lower(content), Lower(t.summaryPrefixes[i]));
      assert r == content + tail;
      LowerConcat(content, tail);
      ContainsAppend(Lower(content), Lower(t.summaryPrefixes[i]), Lower(tail));
    } else {
      var i := hash(content) % |t.summaryPrefixes|;
      var p := t.summaryPrefixes[i];
      var rest := " " + Lower(content) + tail;
      assert r == p + rest;
      LowerConcat(p, rest);
      ContainsPrefix(Lower(r), Lower(p), Lower(rest));
    }
  }

  /**
   * Enhancing a summary twice prefixes it once: the second pass keeps the
   * whole first result in front and only appends another improvement.
   */
  lemma SummaryPrefixedOnce(t: PhraseTables, content: string, hash: string -> int)
    requires Usable(t)
    ensures var once := EnhanceSummary(t, content, hash);
      StartsWith(EnhanceSummary(t, once, hash), once)
  {
    SummaryGainsPrefix(t, content, hash);
  }

  // ---------------------------------------------------------------------
  // Experience
  // ---------------------------------------------------------------------

  /** Some action word occurs in `line`, case-sensitively. */
  predicate HasActionWord(t: PhraseTables, line: string) {
    exists i :: 0 <= i < |t.actionWords| && Contains(line, t.actionWords[i])
  }

  /**
   * One experience line: blank lines are kept; otherwise an action word is
   * put in front (lower-casing the line) when none occurs, and a metric is
   * appended when the line has no digit. Both are chosen by the hash of
   * the original line.
   */
  function EnhanceExperienceLine(t: PhraseTables, line: string, hash: string -> int): (r: string)
    requires Usable(t)
    ensures IsBlank(line) ==> r == line
    ensures HasActionWord(t, line) && HasDigit(line) ==> r == line
    ensures !IsBlank(line) && !HasActionWord(t, line) ==>
      StartsWith(r, Pick(t.actionWords, line, hash) + " " + Lower(line))
    ensures !IsBlank(line) && HasActionWord(t, line) ==> StartsWith(r, line)
    ensures !IsBlank(line) && !HasDigit(line) ==> EndsWith(r, ", " + Pick(t.metrics, line, hash))
    ensures !IsBlank(line) ==>
      |r| == (if HasActionWord(t, line) then |line| else |Pick(t.actionWords, line, hash)| + 1 + |line|)
             + (if HasDigit(line) then 0 else 2 + |Pick(t.metrics, line, hash)|)
  {
    if IsBlank(line) then line
    else
      var a := if HasActionWord(t, line) then line else Pick(t.actionWords, line, hash) + " " + Lower(line);
      var tail := ", " + Pick(t.metrics, line, hash);
      assert (a + tail)[..|a|] == a;
      assert (a + tail)[|a + tail| - |tail|..] == tail;
      if HasDigit(line) then a else a + tail
  }

  /** A rewritten non-blank line holds an action word. */
  lemma RewrittenLineHasActionWord(t: PhraseTables, line: string, hash: string -> int)
    requires Usable(t) && !IsBlank(line)
    ensures HasActionWord(t, EnhanceExperienceLine(t, line, hash))
  {
    var r := EnhanceExperienceLine(t, line, hash);
    var w := Pick(t.actionWords, line, hash);
    var m := Pick(t.metrics, line, hash);
    var a := if HasActionWord(t, line) then line else w + " " + Lower(line);
    assert HasDigit(line) ==> r == a;
    assert !HasDigit(line) ==> r == a + (", " + m);
    if HasActionWord(t, line) {
      var i :| 0 <= i < |t.actionWords| && Contains(line, t.actionWords[i]);
      if !HasDigit(line) {
        ContainsAppend(line, t.actionWords[i], ", " + m);
      }
    } else {
      var i := hash(line) % |t.actionWords|;
      ContainsPrefix(a, w, " " + Lower(line));
      if !HasDigit(line) {
        ContainsAppend(a, w, ", " + m);
      }
      assert Contains(r, t.actionWords[i]);
    }
  }

  /** A rewritten non-blank line holds a digit. */
  lemma RewrittenLineHasDigit(t: PhraseTables, line: string, hash: string -> int)
    requires Usable(t) && MetricsNumeric(t) && !IsBlank(line)
    ensures HasDigit(EnhanceExperienceLine(t, line, hash))
  {
    var r := EnhanceExperienceLine(t, line, hash);
    var w := Pick(t.actionWords, line, hash);
    var m := Pick(t.metrics, line, hash);
    var a := if HasActionWord(t, line) then line else w + " " + Lower(line);
    if HasDigit(line) {
      assert r == a;
      if !HasActionWord(t, line) {
        LowerKeepsDigits(line);
        HasDigitConcat(w + " ", Lower(line));
      }
    } else {
      assert r == (a + ", ") + m;
      assert HasDigit(m);
      HasDigitConcat(a + ", ", m);
    }
  }

  /**
   * A rewritten non-blank line holds an action word and a digit, is not
   * blank, and gains no newline.
   */
  lemma RewrittenLineComplete(t: PhraseTables, line: string, hash: string -> int)
    requires Usable(t) && LinesStayLines(t) && MetricsNumeric(t)
    requires !IsBlank(line)
    ensures HasActionWord(t, EnhanceExperienceLine(t, line, hash))
    ensures HasDigit(EnhanceExperienceLine(t, line, hash))
    ensures !IsBlank(EnhanceExperienceLine(t, line, hash))
    ensures SingleLine(line) ==> SingleLine(EnhanceExperienceLine(t, line, hash))
  {
    var r := EnhanceExperienceLine(t, line, hash);
    RewrittenLineHasActionWord(t, line, hash);
    RewrittenLineHasDigit(t, line, hash);
    var j :| 0 <= j < |r| && IsDigit(r[j]);
    assert !IsSpace(r[j]);
    if SingleLine(line) {
      var w := Pick(t.actionWords, line, hash);
      var m := Pick(t.metrics, line, hash);
      var a := if HasActionWord(t, line) then line else w + " " + Lower(line);
      assert HasDigit(line) ==> r == a;
      assert !HasDigit(line) ==> r == (a + ", ") + m;
      LowerKeepsDigits(line);
      assert SingleLine(w);
      assert SingleLine(m);
    }
  }

  /** Rewriting a rewritten line changes nothing. */
  lemma ExperienceLineIdempotent(t: PhraseTables, line: string, hash: string -> int)
    requires Usable(t) && LinesStayLines(t) && MetricsNumeric(t)
    ensures var once := EnhanceExperienceLine(t, line, hash);
      EnhanceExperienceLine(t, once, hash) == once
  {
    if !IsBlank(line) {
      RewrittenLineComplete(t, line, hash);
    }
  }

  /** Lower-casing never turns a character into whitespace. */
  lemma LowerCharKeepsNonSpace(c: char)
    ensures IsSpace(LowerChar(c)) ==> IsSpace(c)
  {
  }

  /**
   * A rewritten non-blank line is non-empty; it starts with a non-space
   * when the line does, and ends with one when the line does.
   */
  lemma RewrittenLineEdges(t: PhraseTables, line: string, hash: string -> int)
    requires Usable(t) && PhrasesEdged(t)
    requires StartsSolid(line) || EndsSolid(line)
    ensures StartsSolid(line) ==> StartsSolid(EnhanceExperienceLine(t, line, hash))
    ensures EndsSolid(line) ==> EndsSolid(EnhanceExperienceLine(t, line, hash))
  {
    assert !IsBlank(line);
    var w := Pick(t.actionWords, line, hash);
    var m := Pick(t.metrics, line, hash);
    var a := if HasActionWord(t, line) then line else w + " " + Lower(line);
    var r := EnhanceExperienceLine(t, line, hash);
    assert StartsSolid(line) ==> StartsSolid(a);
    assert EndsSolid(line) ==> EndsSolid(a) by {
      LowerCharKeepsNonSpace(line[|line| - 1]);
    }
    if !HasDigit(line) {
      assert r == a + (", " + m);
      assert r[|r| - 1] == m[|m| - 1];
    }
  }

  function EnhanceExperienceLines(t: PhraseTables, lines: seq<string>, hash: string -> int): (r: seq<string>)
    requires Usable(t)
    ensures |r| == |lines|
    ensures forall i :: 0 <= i < |lines| ==> r[i] == EnhanceExperienceLine(t, lines[i], hash)
  {
    seq(|lines|, i requires 0 <= i < |lines| => EnhanceExperienceLine(t, lines[i], hash))
  }

  /** The experience rewrite: split on newlines, rewrite each line, join with newlines. */
  function EnhanceExperience(t: PhraseTables, content: string, hash: string -> int): string
    requires Usable(t)
  {
    Join(EnhanceExperienceLines(t, Split(content, '\n'), hash), "\n")
  }

  /**
   * The output has exactly the input's lines, each rewritten in place: the
   * same number of lines, blank lines unchanged, every other line complete.
   */
  lemma ExperienceKeepsLines(t: PhraseTables, content: string, hash: string -> int)
    requires Usable(t) && LinesStayLines(t) && MetricsNumeric(t)
    ensures var lines := Split(content, '\n');
      var out := Split(EnhanceExperience(t, content, hash), '\n');
      out == EnhanceExperienceLines(t, lines, hash)
      && (forall i :: 0 <= i < |lines| && IsBlank(lines[i]) ==> out[i] == lines[i])
      && (forall i :: 0 <= i < |lines| && !IsBlank(lines[i]) ==> HasActionWord(t, out[i]) && HasDigit(out[i]))
  {
    var lines := Split(content, '\n');
    var out := EnhanceExperienceLines(t, lines, hash);
    forall k | 0 <= k < |out| ensures '\n' !in out[k] && (!IsBlank(lines[k]) ==> HasActionWord(t, out[k]) && HasDigit(out[k])) {
      if !IsBlank(lines[k]) {
        RewrittenLineComplete(t, lines[k], hash);
      }
    }
    SplitJoin(out, '\n');
  }

  /** Rewriting rewritten experience text changes nothing. */
  lemma ExperienceIdempotent(t: PhraseTables, content: string, hash: string -> int)
    requires Usable(t) && LinesStayLines(t) && MetricsNumeric(t)
    ensures var once := EnhanceExperience(t, content, hash);
      EnhanceExperience(t, once, hash) == once
  {
    var lines := Split(content, '\n');
    var out := EnhanceExperienceLines(t, lines, hash);
    ExperienceKeepsLines(t, content, hash);
    var again := EnhanceExperienceLines(t, out, hash);
    forall k | 0 <= k < |out| ensures again[k] == out[k] {
      ExperienceLineIdempotent(t, lines[k], hash);
    }
    assert again == out;
  }

  /** A rewritten first line starts with a non-space when the original does. */
  lemma RewrittenFirstLine(t: PhraseTables, lines: seq<string>, hash: string -> int)
    requires Usable(t) && PhrasesEdged(t)
    requires |lines| >= 1 && StartsSolid(lines[0])
    ensures StartsSolid(EnhanceExperienceLines(t, lines, hash)[0])
  {
    RewrittenLineEdges(t, lines[0], hash);
    assert EnhanceExperienceLines(t, lines, hash)[0] == EnhanceExperienceLine(t, lines[0], hash);
  }

  /** A rewritten last line ends with a non-space when the original does. */
  lemma RewrittenLastLine(t: PhraseTables, lines: seq<string>, hash: string -> int)
    requires Usable(t) && PhrasesEdged(t)
    requires |lines| >= 1 && EndsSolid(lines[|lines| - 1])
    ensures EndsSolid(EnhanceExperienceLines(t, lines, hash)[|lines| - 1])
  {
    var n := |lines| - 1;
    RewrittenLineEdges(t, lines[n], hash);
    assert EnhanceExperienceLines(t, lines, hash)[n] == EnhanceExperienceLine(t, lines[n], hash);
  }

  /** Rewriting stripped, non-blank experience text yields stripped text. */
  lemma ExperienceStaysTrimmed(t: PhraseTables, content: string, hash: string -> int)
    requires Usable(t) && PhrasesEdged(t)
    requires IsTrimmed(content) && !IsBlank(content)
    ensures IsTrimmed(EnhanceExperience(t, content, hash))
    ensures !IsBlank(EnhanceExperience(t, content, hash))
  {
    var lines := Split(content, '\n');
    var out := EnhanceExperienceLines(t, lines, hash);
    SplitTrimmedEdges(content, '\n');
    RewrittenFirstLine(t, lines, hash);
    RewrittenLastLine(t, lines, hash);
    JoinTrimmed(out, "\n");
  }

  // ---------------------------------------------------------------------
  // Skills
  // ---------------------------------------------------------------------

  /** `content.replace('\n', ',')`. */
  function NewlinesToCommas(s: string): (r: string)
    ensures |r| == |s| && '\n' !in r
    ensures forall i :: 0 <= i < |s| ==> r[i] == (if s[i] == '\n' then ',' else s[i])
  {
    seq(|s|, i requires 0 <= i < |s| => if s[i] == '\n' then ',' else s[i])
  }

  /** The skill items: comma- or newline-separated pieces, trimmed, empty ones dropped. */
  function SkillItems(content: string): (r: seq<string>)
    ensures forall k :: 0 <= k < |r| ==> r[k] != "" && IsTrimmed(r[k]) && ',' !in r[k] && '\n' !in r[k]
  {
    var pieces := Split(NewlinesToCommas(content), ',');
    SplitAvoids(NewlinesToCommas(content), ',', '\n');
    CleanAvoids(pieces, ',');
    CleanAvoids(pieces, '\n');
    Clean(pieces)
  }

  /** Item `i` gets a prefix of category `i mod 3`, chosen by the item's hash. */
  function SkillLine(t: PhraseTables, i: nat, item: string, hash: string -> int): string
    requires Usable(t)
  {
    Pick(t.skillPrefixes[i % |t.skillPrefixes|], item, hash) + " " + item
  }

  function EnhanceSkillLines(t: PhraseTables, items: seq<string>, hash: string -> int): (r: seq<string>)
    requires Usable(t)
    ensures |r| == |items|
    ensures forall i :: 0 <= i < |items| ==> r[i] == SkillLine(t, i, items[i], hash)
  {
    seq(|items|, i requires 0 <= i < |items| => SkillLine(t, i, items[i], hash))
  }

  /** The skills rewrite: one line per item, joined with newlines. */
  function EnhanceSkills(t: PhraseTables, content: string, hash: string -> int): string
    requires Usable(t)
  {
    Join(EnhanceSkillLines(t, SkillItems(content), hash), "\n")
  }

  /** Each skill line is a prefix of its category, a space, and the item. */
  lemma SkillLineHasShape(t: PhraseTables, i: nat, item: string, hash: string -> int)
    requires Usable(t)
    ensures SkillLineShape(t, i, SkillLine(t, i, item, hash), item)
  {
    var c := i % |t.skillPrefixes|;
    var k := hash(item) % |t.skillPrefixes[c]|;
    var p := t.skillPrefixes[c][k];
    assert SkillLine(t, i, item, hash) == p + " " + item;
  }

  /** With single-line prefixes, a skill line of a newline-free item is a single line. */
  lemma SkillLineSingle(t: PhraseTables, i: nat, item: string, hash: string -> int)
    requires Usable(t) && LinesStayLines(t) && SingleLine(item)
    ensures SingleLine(SkillLine(t, i, item, hash))
  {
    var c := i % |t.skillPrefixes|;
    assert SingleLine(t.skillPrefixes[c][hash(item) % |t.skillPrefixes[c]|]);
  }

  /**
   * One output line per item, in order; line `i` is a prefix of category
   * `i mod 3`, a space, and item `i`. Text with no items
   * (only separators and blanks) gives an empty output.
   */
  lemma SkillsOneLinePerItem(t: PhraseTables, content: string, hash: string -> int)
    requires Usable(t) && LinesStayLines(t)
    ensures SkillItems(content) == [] ==> EnhanceSkills(t, content, hash) == ""
    ensures SkillItems(content) != [] ==>
      Split(EnhanceSkills(t, content, hash), '\n') == EnhanceSkillLines(t, SkillItems(content), hash)
    ensures forall i :: 0 <= i < |SkillItems(content)| ==>
      SkillLineShape(t, i, EnhanceSkillLines(t, SkillItems(content), hash)[i], SkillItems(content)[i])
  {
    var items := SkillItems(content);
    var lines := EnhanceSkillLines(t, items, hash);
    forall i | 0 <= i < |items| ensures SkillLineShape(t, i, lines[i], items[i]) {
      SkillLineHasShape(t, i, items[i], hash);
    }
    if items != [] {
      assert Split(Join(lines, "\n"), '\n') == lines by {
        forall k | 0 <= k < |lines| ensures '\n' !in lines[k] {
          SkillLineSingle(t, k, items[k], hash);
        }
        SplitJoin(lines, '\n');
      }
    }
  }

  /** `line` is `p + " " + item` for some prefix `p` of category `i mod n`. */
  predicate SkillLineShape(t: PhraseTables, i: nat, line: string, item: string)
    requires Usable(t)
  {
    var c := i % |t.skillPrefixes|;
    exists k :: 0 <= k < |t.skillPrefixes[c]| && line == t.skillPrefixes[c][k] + " " + item
  }

  // ---------------------------------------------------------------------
  // Education
  // ---------------------------------------------------------------------

  /** One education line: blank lines are kept, others get a phrase appended. */
  function EnhanceEducationLine(t: PhraseTables, line: string, hash: string -> int): (r: string)
    requires Usable(t)
    ensures IsBlank(line) ==> r == line
    ensures !IsBlank(line) ==> StartsWith(r, line + " ") && EndsWith(r, Pick(t.educationEnhancements, line, hash))
    ensures !IsBlank(line) ==> |r| == |line| + 1 + |Pick(t.educationEnhancements, line, hash)|
  {
    if IsBlank(line) then line
    else
      var e := Pick(t.educationEnhancements, line, hash);
      assert ((line + " ") + e)[..|line + " "|] == line + " ";
      assert ((line + " ") + e)[|line| + 1..] == e;
      line + " " + e
  }

  function EnhanceEducationLines(t: PhraseTables, lines: seq<string>, hash: string -> int): (r: seq<string>)
    requires Usable(t)
    ensures |r| == |lines|
    ensures forall i :: 0 <= i < |lines| ==> r[i] == EnhanceEducationLine(t, lines[i], hash)
  {
    seq(|lines|, i requires 0 <= i < |lines| => EnhanceEducationLine(t, lines[i], hash))
  }

  /** The education rewrite: split on newlines, rewrite each line, join with newlines. */
  function EnhanceEducation(t: PhraseTables, content: string, hash: string -> int): string
    requires Usable(t)
  {
    Join(EnhanceEducationLines(t, Split(content, '\n'), hash), "\n")
  }

  /**
   * The same number of lines; blank lines unchanged; every other line is
   * exactly its text, a space and one of the education phrases.
   */
  lemma EducationKeepsLines(t: PhraseTables, content: string, hash: string -> int)
    requires Usable(t) && LinesStayLines(t)
    ensures var lines := Split(content, '\n');
      var out := Split(EnhanceEducation(t, content, hash), '\n');
      |out| == |lines|
      && (forall i :: 0 <= i < |lines| && IsBlank(lines[i]) ==> out[i] == lines[i])
      && (forall i :: 0 <= i < |lines| && !IsBlank(lines[i]) ==>
            StartsWith(out[i], lines[i] + " ") && EndsWithPhrase(out[i], t.educationEnhancements)
            && EducationLineShape(out[i], lines[i], t.educationEnhancements))
  {
    var lines := Split(content, '\n');
    var out := EnhanceEducationLines(t, lines, hash);
    forall k | 0 <= k < |out| ensures '\n' !in out[k] {
      if !IsBlank(lines[k]) {
        var e := Pick(t.educationEnhancements, lines[k], hash);
        assert SingleLine(e);
        assert out[k] == lines[k] + " " + e;
      }
    }
    SplitJoin(out, '\n');
    forall i | 0 <= i < |lines| && !IsBlank(lines[i])
      ensures EndsWithPhrase(out[i], t.educationEnhancements)
    {
      var k := hash(lines[i]) % |t.educationEnhancements|;
      assert EndsWith(out[i], t.educationEnhancements[k]);
    }
    forall i | 0 <= i < |lines| && !IsBlank(lines[i])
      ensures EducationLineShape(out[i], lines[i], t.educationEnhancements)
    {
      var k := hash(lines[i]) % |t.educationEnhancements|;
      assert out[i] == lines[i] + " " + t.educationEnhancements[k];
    }
  }

  /** `line` is `original + " " + e` for some phrase `e` of `table`. */
  predicate EducationLineShape(line: string, original: string, table: seq<string>) {
    exists k :: 0 <= k < |table| && line == original + " " + table[k]
  }

  predicate EndsWithPhrase(s: string, table: seq<string>) {
    exists k :: 0 <= k < |table| && EndsWith(s, table[k])
  }

  // ---------------------------------------------------------------------
  // The endpoint
  // ---------------------------------------------------------------------

  /** The endpoint's answer: the rewritten text, or an HTTP error with its detail text. */
  datatype Reply = Enhanced(content: string) | HttpError(status: int, detail: string)

  /** The section names the endpoint rewrites. */
  predicate KnownSection(s: string) {
    s == "summary" || s == "experience" || s == "skills" || s == "education"
  }

  /** Dispatch on the (already lower-cased) section name; an unknown section returns the text unchanged. */
  function Transform(t: PhraseTables, s: string, content: string, hash: string -> int): string
    requires Usable(t)
  {
    if s == "summary" then EnhanceSummary(t, content, hash)
    else if s == "experience" then EnhanceExperience(t, content, hash)
    else if s == "skills" then EnhanceSkills(t, content, hash)
    else if s == "education" then EnhanceEducation(t, content, hash)
    else content
  }

  /** The detail raised for blank content. */
  const EmptyDetail := "Content cannot be empty"

  /**
   * The endpoint as written: the 400 raised for blank content is caught by
   * the handler's own catch-all and re-raised as a 500 whose detail embeds
   * the original status and detail.
   */
  function AiEnhanceAsWritten(req: EnhanceRequest, hash: string -> int): (r: Reply)
    ensures IsBlank(req.content) <==> r == HttpError(500, "Enhancement failed: 400: " + EmptyDetail)
    ensures r.HttpError? ==> IsBlank(req.content)
  {
    MockUsable();
    var content := Trim(req.content);
    if content == "" then HttpError(500, "Enhancement failed: 400: " + EmptyDetail)
    else Enhanced(Transform(Mock, Lower(req.section), content, hash))
  }

  /** The endpoint as intended: blank content is a client error, 400, and everything else is rewritten. */
  function AiEnhance(req: EnhanceRequest, hash: string -> int): (r: Reply)
    ensures IsBlank(req.content) <==> r == HttpError(400, EmptyDetail)
    ensures r.HttpError? ==> IsBlank(req.content)
  {
    MockUsable();
    var content := Trim(req.content);
    if content == "" then HttpError(400, EmptyDetail)
    else Enhanced(Transform(Mock, Lower(req.section), content, hash))
  }

  /** Blank content is answered 500 as written where 400 is meant; every other request is answered alike. */
  lemma BlankContentStatus(req: EnhanceRequest, hash: string -> int)
    ensures IsBlank(req.content) ==>
      AiEnhanceAsWritten(req, hash).status == 500 && AiEnhance(req, hash).status == 400
    ensures !IsBlank(req.content) ==> AiEnhanceAsWritten(req, hash) == AiEnhance(req, hash)
  {
  }

  /** A concrete request showing the masked status: an empty summary. */
  lemma EmptySummaryGets500()
    ensures AiEnhanceAsWritten(EnhanceRequest("summary", ""), (s: string) => 0) != AiEnhance(EnhanceRequest("summary", ""), (s: string) => 0)
    ensures AiEnhanceAsWritten(EnhanceRequest("summary", ""), (s: string) => 0).status == 500
  {
    assert IsBlank("");
  }

  /** Only the stripped text matters: surrounding whitespace never changes the answer. */
  lemma OnlyStrippedContentMatters(req: EnhanceRequest, hash: string -> int)
    ensures AiEnhance(req.(content := Trim(req.content)), hash) == AiEnhance(req, hash)
  {
    TrimIdempotent(req.content);
  }

  /** The section name is matched ignoring case. */
  lemma SectionIgnoresCase(req: EnhanceRequest, other: string, hash: string -> int)
    requires Lower(other) == Lower(req.section)
    ensures AiEnhance(req.(section := other), hash) == AiEnhance(req, hash)
  {
  }

  /** An unknown section echoes the stripped text. */
  lemma UnknownSectionEchoes(req: EnhanceRequest, hash: string -> int)
    requires !IsBlank(req.content)
    requires !KnownSection(Lower(req.section))
    ensures AiEnhance(req, hash) == Enhanced(Trim(req.content))
  {
    MockUsable();
    assert Transform(Mock, Lower(req.section), Trim(req.content), hash) == Trim(req.content);
  }

  /**
   * Whatever experience text is sent, sending back the text the endpoint
   * answered returns that same text.
   */
  lemma ExperienceEndpointIdempotent(req: EnhanceRequest, hash: string -> int)
    requires Lower(req.section) == "experience"
    ensures var r := AiEnhance(req, hash);
      r.Enhanced? ==> AiEnhance(req.(content := r.content), hash) == r
  {
    if !IsBlank(req.content) {
      MockUsable();
      MockLinesStayLines();
      MockMetricsNumeric();
      MockPhrasesEdged();
      var c := Trim(req.content);
      assert !IsBlank(c);
      var once := EnhanceExperience(Mock, c, hash);
      ExperienceDispatch(c, hash);
      assert AiEnhance(req, hash) == Enhanced(once);
      ExperienceStaysTrimmed(Mock, c, hash);
      assert Trim(once) == once;
      ExperienceIdempotent(Mock, c, hash);
      ExperienceDispatch(once, hash);
    }
  }

  /** The section name `experience` selects the experience rewrite. */
  lemma ExperienceDispatch(content: string, hash: string -> int)
    ensures Lower("experience") == "experience"
    ensures Usable(Mock) && Transform(Mock, "experience", content, hash) == EnhanceExperience(Mock, content, hash)
  {
    MockUsable();
    assert Lower("experience") == "experience";
  }

  /** What the editor sees: any successful answer delivers its text, any error is a failure. */
  function Delivery(r: Reply): (e: EnhanceReply)
    ensures e.Delivered? <==> r.Enhanced?
    ensures r.Enhanced? ==> e.enhancedContent == r.content
  {
    match r
    case Enhanced(c) => Delivered(c)
    case HttpError(_, _) => Failed
  }

  /** Every request whose content is not blank (the only ones the editors send) is delivered, as written and as intended. */
  lemma NonBlankRequestsAreDelivered(req: EnhanceRequest, hash: string -> int)
    requires !IsBlank(req.content)
    ensures Delivery(AiEnhance(req, hash)).Delivered?
    ensures Delivery(AiEnhanceAsWritten(req, hash)) == Delivery(AiEnhance(req, hash))
  {
  }
}

=== FILE: certifications.dfy ===
/**
 * The certifications section: add / update / delete, and the expiry test
 * behind the "Expired" badge. Dates are read by a caller-supplied parser
 * into comparable instants (`None` for a string that is not a date), and
 * the current instant is a parameter.
 */
module CertificationsEditor {
  import opened Wrappers
  import opened Resume
  import Collection

  /** `Partial<Certification>`: `Some` for every key present in the update object. */
  datatype CertificationPatch = CertificationPatch(
    id: Option<string>,
    name: Option<string>,
    issuer: Option<string>,
    date: Option<string>,
    url: Option<string>,
    expiryDate: Option<string>)

  const NoChange := CertificationPatch(None, None, None, None, None, None)

  /** `{...cert, ...updates}`; a present optional key becomes present in the result. */
  function Merge(e: Certification, p: CertificationPatch): (r: Certification)
    ensures p == NoChange ==> r == e
    ensures p.url.Some? ==> r.url == p.url
    ensures p.expiryDate.Some? ==> r.expiryDate == p.expiryDate
    ensures p.expiryDate.None? ==> r.expiryDate == e.expiryDate
  {
    Certification(
      p.id.GetOr(e.id),
      p.name.GetOr(e.name),
      p.issuer.GetOr(e.issuer),
      p.date.GetOr(e.date),
      if p.url.Some? then p.url else e.url,
      if p.expiryDate.Some? then p.expiryDate else e.expiryDate)
  }

  /** The entry `addCertification` creates: every field empty, `url` and `expiryDate` present and empty. */
  function BlankCertification(newId: string): Certification {
    Certification(newId, "", "", "", Some(""), Some(""))
  }

  /** `addCertification`: exactly one blank entry appended at the end. */
  function AddCertification(xs: seq<Certification>, newId: string): (r: seq<Certification>)
    ensures |r| == |xs| + 1
    ensures r[..|xs|] == xs
    ensures var e := r[|xs|];
      e.id == newId && e.name == "" && e.issuer == "" && e.date == ""
      && e.url == Some("") && e.expiryDate == Some("")
  {
    Collection.AppendEntry(xs, BlankCertification(newId))
  }

  /** `updateCertification(id, updates)`: merges into every entry with that id, in place. */
  function UpdateCertification(xs: seq<Certification>, id: string, p: CertificationPatch): (r: seq<Certification>)
    ensures |r| == |xs|
    ensures forall i :: 0 <= i < |xs| && xs[i].id == id ==> r[i] == Merge(xs[i], p)
    ensures forall i :: 0 <= i < |xs| && xs[i].id != id ==> r[i] == xs[i]
    ensures (forall i :: 0 <= i < |xs| ==> xs[i].id != id) ==> r == xs
  {
    Collection.UpdateWhere(xs, (e: Certification) => e.id == id, (e: Certification) => Merge(e, p))
  }

  /** `deleteCertification(id)`: drops every entry with that id and keeps the rest. */
  function DeleteCertification(xs: seq<Certification>, id: string): (r: seq<Certification>)
    ensures forall e :: e in r <==> e in xs && e.id != id
    ensures (forall i :: 0 <= i < |xs| ==> xs[i].id != id) ==> r == xs
  {
    var keep := (e: Certification) => e.id != id;
    if forall i :: 0 <= i < |xs| ==> xs[i].id != id then
      Collection.FilterKeepsAll(xs, keep);
      Collection.Filter(xs, keep)
    else
      Collection.Filter(xs, keep)
  }

  /** Deleting from a concatenation deletes from each part: survivors keep their relative order. */
  lemma DeleteCertificationKeepsOrder(a: seq<Certification>, b: seq<Certification>, id: string)
    ensures DeleteCertification(a + b, id) == DeleteCertification(a, id) + DeleteCertification(b, id)
  {
    Collection.FilterConcat(a, b, (e: Certification) => e.id != id);
  }

  /**
   * `isExpired(expiryDate)`: an empty string is never expired; otherwise the
   * parsed instant must lie strictly before now. A string the parser rejects
   * compares false, as an invalid `Date` does.
   */
  function IsExpired(expiry: string, now: int, parseDate: string -> Option<int>): (r: bool)
    ensures expiry == "" ==> !r
    ensures r <==> expiry != "" && parseDate(expiry).Some? && parseDate(expiry).value < now
  {
    if expiry == "" then false
    else match parseDate(expiry)
      case None => false
      case Some(t) => t < now
  }

  /** Once expired, a certification stays expired as time goes on. */
  lemma ExpiryIsMonotone(expiry: string, now: int, later: int, parseDate: string -> Option<int>)
    requires now <= later
    requires IsExpired(expiry, now, parseDate)
    ensures IsExpired(expiry, later, parseDate)
  {
  }

  /** The badge condition `cert.expiryDate && isExpired(cert.expiryDate)`. */
  predicate ExpiredBadgeShown(c: Certification, now: int, parseDate: string -> Option<int>) {
    c.expiryDate.Some? && c.expiryDate.value != "" && IsExpired(c.expiryDate.value, now, parseDate)
  }

  /** The badge is shown exactly when the expiry is present and parses to an instant before now. */
  lemma BadgeMeansExpired(c: Certification, now: int, parseDate: string -> Option<int>)
    ensures ExpiredBadgeShown(c, now, parseDate) <==>
      c.expiryDate.Some? && c.expiryDate.value != ""
      && parseDate(c.expiryDate.value).Some? && parseDate(c.expiryDate.value).value < now
  {
  }

  /** A freshly added certification never shows the badge, whatever the clock and the parser say. */
  lemma BlankNeverExpired(newId: string, now: int, parseDate: string -> Option<int>)
    ensures !ExpiredBadgeShown(BlankCertification(newId), now, parseDate)
  {
  }
}

=== FILE: collection.dfy ===
/**
 * The three operations every section editor performs on its id-keyed,
 * ordered collection:
 *   add     `[...xs, entry]`
 *   update  `xs.map(x => x.id === id ? {...x, ...updates} : x)`
 *   delete  `xs.filter(x => x.id !== id)`
 * stated once, generically; the section modules instantiate them.
 * Identifiers are not assumed unique: every entry with the id is affected.
 */
module Collection {
  import opened Wrappers

  /** Appends one entry at the end; the prior entries keep their positions. */
  function AppendEntry<T>(xs: seq<T>, entry: T): (r: seq<T>)
    ensures |r| == |xs| + 1
    ensures r[..|xs|] == xs && r[|xs|] == entry
  {
    xs + [entry]
  }

  /** Rewrites with `f` every entry `hit` selects; every other entry and every position is kept. */
  function UpdateWhere<T>(xs: seq<T>, hit: T -> bool, f: T -> T): (r: seq<T>)
    ensures |r| == |xs|
    ensures forall i :: 0 <= i < |xs| && hit(xs[i]) ==> r[i] == f(xs[i])
    ensures forall i :: 0 <= i < |xs| && !hit(xs[i]) ==> r[i] == xs[i]
    decreases |xs|
  {
    if |xs| == 0 then []
    else [if hit(xs[0]) then f(xs[0]) else xs[0]] + UpdateWhere(xs[1..], hit, f)
  }

  /** An update that selects nothing returns a collection equal to its input. */
  lemma UpdateMissIsIdentity<T>(xs: seq<T>, hit: T -> bool, f: T -> T)
    requires forall i :: 0 <= i < |xs| ==> !hit(xs[i])
    ensures UpdateWhere(xs, hit, f) == xs
  {
  }

  /** Keeps, in order, the entries `keep` accepts. */
  function Filter<T>(xs: seq<T>, keep: T -> bool): (r: seq<T>)
    ensures |r| <= |xs|
    ensures forall x :: x in r ==> x in xs && keep(x)
    ensures forall i :: 0 <= i < |xs| && keep(xs[i]) ==> xs[i] in r
    decreases |xs|
  {
    if |xs| == 0 then []
    else (if keep(xs[0]) then [xs[0]] else []) + Filter(xs[1..], keep)
  }

  /** Filtering distributes over concatenation, so the relative order of survivors is kept. */
  lemma {:induction false} FilterConcat<T>(a: seq<T>, b: seq<T>, keep: T -> bool)
    ensures Filter(a + b, keep) == Filter(a, keep) + Filter(b, keep)
    decreases |a|
  {
    if |a| > 0 {
      assert (a + b)[1..] == a[1..] + b;
      FilterConcat(a[1..], b, keep);
    } else {
      assert a + b == b;
    }
  }

  /** A filter that accepts every entry returns a collection equal to its input. */
  lemma {:induction false} FilterKeepsAll<T>(xs: seq<T>, keep: T -> bool)
    requires forall i :: 0 <= i < |xs| ==> keep(xs[i])
    ensures Filter(xs, keep) == xs
    decreases |xs|
  {
    if |xs| > 0 {
      FilterKeepsAll(xs[1..], keep);
    }
  }

  /** A filter that rejects every entry returns the empty collection. */
  lemma {:induction false} FilterDropsAll<T>(xs: seq<T>, keep: T -> bool)
    requires forall i :: 0 <= i < |xs| ==> !keep(xs[i])
    ensures Filter(xs, keep) == []
    decreases |xs|
  {
    if |xs| > 0 {
      FilterDropsAll(xs[1..], keep);
    }
  }

  /** Filtering twice with the same test is filtering once. */
  lemma {:induction false} FilterIdempotent<T>(xs: seq<T>, keep: T -> bool)
    ensures Filter(Filter(xs, keep), keep) == Filter(xs, keep)
  {
    var r := Filter(xs, keep);
    assert forall i :: 0 <= i < |r| ==> r[i] in r;
    FilterKeepsAll(r, keep);
  }

  /** What a filter keeps and what it drops add up to the whole collection. */
  lemma {:induction false} FilterPartition<T>(xs: seq<T>, keep: T -> bool)
    ensures |Filter(xs, keep)| + |Filter(xs, x => !keep(x))| == |xs|
    decreases |xs|
  {
    if |xs| > 0 {
      FilterPartition(xs[1..], keep);
    }
  }

  /** Filtering a collection extended by one entry extends the filtered collection by that entry if it is kept. */
  lemma FilterSnoc<T>(xs: seq<T>, x: T, keep: T -> bool)
    ensures Filter(xs + [x], keep) == Filter(xs, keep) + (if keep(x) then [x] else [])
  {
    FilterConcat(xs, [x], keep);
    assert [x][1..] == [];
  }

  /** `xs.find(hit)` as a position: the first entry `hit` selects, if any. */
  function FindFirst<T>(xs: seq<T>, hit: T -> bool): (r: Option<nat>)
    ensures r.Some? ==> r.value < |xs| && hit(xs[r.value])
    ensures r.Some? ==> forall j :: 0 <= j < r.value ==> !hit(xs[j])
    ensures r.None? <==> forall i :: 0 <= i < |xs| ==> !hit(xs[i])
    decreases |xs|
  {
    if |xs| == 0 then None
    else if hit(xs[0]) then Some(0)
    else match FindFirst(xs[1..], hit)
      case None => None
      case Some(k) => Some(k + 1)
  }

  /** No two entries share an identifier. */
  predicate DistinctIds<T>(xs: seq<T>, idOf: T -> string) {
    forall i, j :: 0 <= i < j < |xs| ==> idOf(xs[i]) != idOf(xs[j])
  }
}

=== FILE: docx.dfy ===
/**
 * The DOCX export: an ordered list of paragraphs. As in the PDF export,
 * only the personal-information header, the summary and the work
 * experience appear; entry title and date lines are the PDF's.
 */
module DocxExport {
  import opened Text
  import opened Resume
  import PdfExport

  datatype Heading = NoHeading | Heading1 | Heading2

  /** A run of text, possibly bold. */
  datatype Run = Run(text: string, bold: bool)

  datatype Paragraph = Paragraph(runs: seq<Run>, heading: Heading)

  /** `new Paragraph({ text })`. */
  function Body(text: string): Paragraph {
    Paragraph([Run(text, false)], NoHeading)
  }

  /** Name as a first-level heading, the contact line with ` | ` separators, a blank paragraph. */
  function Header(p: PersonalInfo): (r: seq<Paragraph>)
    ensures |r| == 3 && r[0].heading == Heading1 && r[2] == Body("")
    ensures r[0].runs == [Run(if p.fullName == "" then "Your Name" else p.fullName, false)]
    ensures r[1].heading == NoHeading && |r[1].runs| == 5
    ensures r[1].runs[0].text == p.email && r[1].runs[2].text == p.phone && r[1].runs[4].text == p.location
    ensures r[1].runs[1].text == " | " && r[1].runs[3].text == " | "
    ensures forall k :: 0 <= k < |r[1].runs| ==> !r[1].runs[k].bold
  {
    [Paragraph([Run(OrElse(p.fullName, "Your Name"), false)], Heading1),
     Paragraph([Run(p.email, false), Run(" | ", false), Run(p.phone, false), Run(" | ", false), Run(p.location, false)], NoHeading),
     Body("")]
  }

  /** Heading, summary text, blank paragraph; nothing for an empty summary. */
  function SummaryParagraphs(summary: string): (r: seq<Paragraph>)
    ensures summary == "" <==> r == []
    ensures summary != "" ==> |r| == 3 && r[1] == Body(summary)
  {
    if summary == "" then []
    else [Paragraph([Run("Professional Summary", false)], Heading2), Body(summary), Body("")]
  }

  /** An entry: the bold title, the date line, the description, a blank paragraph. */
  function EntryParagraphs(e: Experience): (r: seq<Paragraph>)
    ensures |r| == 4
  {
    [Paragraph([Run(PdfExport.TitleLine(e), true)], NoHeading),
     Body(PdfExport.DateLine(e)),
     Body(e.description),
     Body("")]
  }

  /** `experience.flatMap(...)`: entry `i` occupies paragraphs `4i` to `4i + 3`. */
  function EntriesParagraphs(xs: seq<Experience>): (r: seq<Paragraph>)
    ensures |r| == 4 * |xs|
    ensures forall i, k :: 0 <= i < |xs| && 0 <= k < 4 ==> r[4 * i + k] == EntryParagraphs(xs[i])[k]
    decreases |xs|
  {
    if |xs| == 0 then []
    else
      var first := EntryParagraphs(xs[0]);
      var rest := EntriesParagraphs(xs[1..]);
      first + rest
  }

  /** The experience heading and the entries; nothing when there are no entries. */
  function ExperienceParagraphs(xs: seq<Experience>): (r: seq<Paragraph>)
    ensures |xs| == 0 <==> r == []
    ensures |xs| > 0 ==> |r| == 1 + 4 * |xs| && r[0] == Paragraph([Run("Work Experience", false)], Heading2)
    ensures |xs| > 0 ==> r[1..] == EntriesParagraphs(xs)
  {
    if |xs| == 0 then []
    else [Paragraph([Run("Work Experience", false)], Heading2)] + EntriesParagraphs(xs)
  }

  /** The whole document, header then summary then experience. */
  function ExportDocx(d: ResumeData): seq<Paragraph> {
    Header(d.personalInfo) + SummaryParagraphs(d.summary) + ExperienceParagraphs(d.experience)
  }

  /** Where the entries start: after the header, the summary part and the experience heading. */
  function FirstEntryIndex(d: ResumeData): nat {
    3 + (if d.summary == "" then 0 else 3) + 1
  }

  /**
   * The paragraph count is 3, plus 3 for a non-empty summary, plus 1 + 4n
   * for n > 0 entries; entry `i`'s four paragraphs sit at
   * `FirstEntryIndex + 4i` in collection order, starting with its bold title.
   */
  lemma DocxShape(d: ResumeData)
    ensures |ExportDocx(d)| ==
      3 + (if d.summary == "" then 0 else 3) + (if |d.experience| == 0 then 0 else 1 + 4 * |d.experience|)
    ensures forall i, k :: 0 <= i < |d.experience| && 0 <= k < 4 ==>
      ExportDocx(d)[FirstEntryIndex(d) + 4 * i + k] == EntryParagraphs(d.experience[i])[k]
    ensures forall i :: 0 <= i < |d.experience| ==>
      ExportDocx(d)[FirstEntryIndex(d) + 4 * i].runs == [Run(PdfExport.TitleLine(d.experience[i]), true)]
  {
    var xs := d.experience;
    var top := Header(d.personalInfo) + SummaryParagraphs(d.summary);
    var r := ExportDocx(d);
    assert r == top + ExperienceParagraphs(xs);
    assert |top| + 1 == FirstEntryIndex(d);
    forall i, k | 0 <= i < |xs| && 0 <= k < 4
      ensures r[FirstEntryIndex(d) + 4 * i + k] == EntryParagraphs(xs[i])[k]
    {
      assert r[FirstEntryIndex(d) + 4 * i + k] == ExperienceParagraphs(xs)[1 + 4 * i + k];
      assert ExperienceParagraphs(xs)[1 + 4 * i + k] == EntriesParagraphs(xs)[4 * i + k];
    }
    forall i | 0 <= i < |xs|
      ensures r[FirstEntryIndex(d) + 4 * i].runs == [Run(PdfExport.TitleLine(xs[i]), true)]
    {
      assert r[FirstEntryIndex(d) + 4 * i + 0] == EntryParagraphs(xs[i])[0];
    }
  }

  /** The summary text is the fifth paragraph exactly when the summary is non-empty. */
  lemma SummaryParagraphIff(d: ResumeData)
    ensures (|ExportDocx(d)| > 4 && ExportDocx(d)[4] == Body(d.summary) && ExportDocx(d)[3].heading == Heading2
             && ExportDocx(d)[3].runs == [Run("Professional Summary", false)]) <==> d.summary != ""
  {
    var r := ExportDocx(d);
    if d.summary == "" && |r| > 4 {
      assert r[3] == ExperienceParagraphs(d.experience)[0];
    }
  }

  /** Two documents that agree on name, email, phone, location, summary and experience export identically. */
  lemma DocxIgnoresOtherSections(d: ResumeData, e: ResumeData)
    requires d.personalInfo.fullName == e.personalInfo.fullName
    requires d.personalInfo.email == e.personalInfo.email
    requires d.personalInfo.phone == e.personalInfo.phone
    requires d.personalInfo.location == e.personalInfo.location
    requires d.summary == e.summary && d.experience == e.experience
    ensures ExportDocx(d) == ExportDocx(e)
  {
  }
}

=== FILE: education.dfy ===
/**
 * The education section: add / update / delete, the seven per-field input
 * handlers (each writes exactly one field), and the display conditions of
 * the date range and the optional GPA / honours lines.
 */
module EducationEditor {
  import opened Wrappers
  import opened Resume
  import Collection

  /** `Partial<Education>`: `Some` for every key present in the update object. */
  datatype EducationPatch = EducationPatch(
    id: Option<string>,
    institution: Option<string>,
    degree: Option<string>,
    field: Option<string>,
    startDate: Option<string>,
    endDate: Option<string>,
    gpa: Option<string>,
    honors: Option<string>)

  const NoChange := EducationPatch(None, None, None, None, None, None, None, None)

  /** `{...edu, ...updates}`; a present optional key becomes present in the result. */
  function Merge(e: Education, p: EducationPatch): (r: Education)
    ensures p == NoChange ==> r == e
    ensures p.gpa.Some? ==> r.gpa == p.gpa
    ensures p.honors.Some? ==> r.honors == p.honors
  {
    Education(
      p.id.GetOr(e.id),
      p.institution.GetOr(e.institution),
      p.degree.GetOr(e.degree),
      p.field.GetOr(e.field),
      p.startDate.GetOr(e.startDate),
      p.endDate.GetOr(e.endDate),
      if p.gpa.Some? then p.gpa else e.gpa,
      if p.honors.Some? then p.honors else e.honors)
  }

  /** The entry `addEducation` creates: every field empty, `gpa` and `honors` present and empty. */
  function BlankEducation(newId: string): Education {
    Education(newId, "", "", "", "", "", Some(""), Some(""))
  }

  /** `addEducation`: exactly one blank entry appended at the end. */
  function AddEducation(xs: seq<Education>, newId: string): (r: seq<Education>)
    ensures |r| == |xs| + 1
    ensures r[..|xs|] == xs
    ensures var e := r[|xs|];
      e.id == newId && e.institution == "" && e.degree == "" && e.field == ""
      && e.startDate == "" && e.endDate == "" && e.gpa == Some("") && e.honors == Some("")
  {
    Collection.AppendEntry(xs, BlankEducation(newId))
  }

  /** `updateEducation(id, updates)`: merges into every entry with that id, in place. */
  function UpdateEducation(xs: seq<Education>, id: string, p: EducationPatch): (r: seq<Education>)
    ensures |r| == |xs|
    ensures forall i :: 0 <= i < |xs| && xs[i].id == id ==> r[i] == Merge(xs[i], p)
    ensures forall i :: 0 <= i < |xs| && xs[i].id != id ==> r[i] == xs[i]
    ensures (forall i :: 0 <= i < |xs| ==> xs[i].id != id) ==> r == xs
  {
    Collection.UpdateWhere(xs, (e: Education) => e.id == id, (e: Education) => Merge(e, p))
  }

  /** `deleteEducation(id)`: drops every entry with that id and keeps the rest. */
  function DeleteEducation(xs: seq<Education>, id: string): (r: seq<Education>)
    ensures forall e :: e in r <==> e in xs && e.id != id
    ensures (forall i :: 0 <= i < |xs| ==> xs[i].id != id) ==> r == xs
  {
    var keep := (e: Education) => e.id != id;
    if forall i :: 0 <= i < |xs| ==> xs[i].id != id then
      Collection.FilterKeepsAll(xs, keep);
      Collection.Filter(xs, keep)
    else
      Collection.Filter(xs, keep)
  }

  /** Deleting from a concatenation deletes from each part: survivors keep their relative order. */
  lemma DeleteEducationKeepsOrder(a: seq<Education>, b: seq<Education>, id: string)
    ensures DeleteEducation(a + b, id) == DeleteEducation(a, id) + DeleteEducation(b, id)
  {
    Collection.FilterConcat(a, b, (e: Education) => e.id != id);
  }

  /** The seven inputs of an entry's edit form. */
  datatype EducationField = Institution | Degree | FieldOfStudy | Gpa | StartDate | EndDate | Honors

  /** The value input `f` holds for entry `e`; an absent gpa or honors is None (its input then shows an empty box). */
  function FieldValue(e: Education, f: EducationField): Option<string> {
    match f
    case Institution => Some(e.institution)
    case Degree => Some(e.degree)
    case FieldOfStudy => Some(e.field)
    case Gpa => e.gpa
    case StartDate => Some(e.startDate)
    case EndDate => Some(e.endDate)
    case Honors => e.honors
  }

  /** The one-key update object input `f` sends: `{ <f>: v }`. */
  function PatchFor(f: EducationField, v: string): EducationPatch {
    match f
    case Institution => NoChange.(institution := Some(v))
    case Degree => NoChange.(degree := Some(v))
    case FieldOfStudy => NoChange.(field := Some(v))
    case Gpa => NoChange.(gpa := Some(v))
    case StartDate => NoChange.(startDate := Some(v))
    case EndDate => NoChange.(endDate := Some(v))
    case Honors => NoChange.(honors := Some(v))
  }

  /** Applying input `f`'s update to one entry: field `f` reads `v`, every other field and the id are kept. */
  function SetField(e: Education, f: EducationField, v: string): (r: Education)
    ensures FieldValue(r, f) == Some(v)
    ensures forall g :: g != f ==> FieldValue(r, g) == FieldValue(e, g)
    ensures r.id == e.id
  {
    Merge(e, PatchFor(f, v))
  }

  /** Two entries that agree on the id and on every input are equal. */
  lemma FieldsDetermineEntry(a: Education, b: Education)
    requires a.id == b.id
    requires forall f :: FieldValue(a, f) == FieldValue(b, f)
    ensures a == b
  {
    assert FieldValue(a, Institution) == FieldValue(b, Institution);
    assert FieldValue(a, Degree) == FieldValue(b, Degree);
    assert FieldValue(a, FieldOfStudy) == FieldValue(b, FieldOfStudy);
    assert FieldValue(a, Gpa) == FieldValue(b, Gpa);
    assert FieldValue(a, StartDate) == FieldValue(b, StartDate);
    assert FieldValue(a, EndDate) == FieldValue(b, EndDate);
    assert FieldValue(a, Honors) == FieldValue(b, Honors);
  }

  /** Writing a present value an input already holds changes nothing. */
  lemma SetFieldUnchanged(e: Education, f: EducationField, v: string)
    requires FieldValue(e, f) == Some(v)
    ensures SetField(e, f, v) == e
  {
    FieldsDetermineEntry(SetField(e, f, v), e);
  }

  /** Writes to two different inputs commute. */
  lemma SetFieldsCommute(e: Education, f: EducationField, v: string, g: EducationField, w: string)
    requires f != g
    ensures SetField(SetField(e, f, v), g, w) == SetField(SetField(e, g, w), f, v)
  {
    FieldsDetermineEntry(SetField(SetField(e, f, v), g, w), SetField(SetField(e, g, w), f, v));
  }

  /** Input `f` of entry `id`: writes field `f` of every entry with that id and nothing else. */
  function FieldChanged(xs: seq<Education>, id: string, f: EducationField, v: string): (r: seq<Education>)
    ensures |r| == |xs|
    ensures forall i :: 0 <= i < |xs| && xs[i].id == id ==> r[i] == SetField(xs[i], f, v)
    ensures forall i :: 0 <= i < |xs| && xs[i].id != id ==> r[i] == xs[i]
  {
    UpdateEducation(xs, id, PatchFor(f, v))
  }

  /** The date range of an entry card is shown only when both dates are set. */
  predicate DateRangeShown(e: Education) {
    e.startDate != "" && e.endDate != ""
  }

  /** An optional line (`GPA:`, honours) is shown only for a present, non-empty value. */
  predicate OptionalLineShown(v: Option<string>) {
    v.Some? && v.value != ""
  }

  /** A freshly added entry shows neither a date range nor a GPA or honours line. */
  lemma BlankEntryShowsNothing(newId: string)
    ensures !DateRangeShown(BlankEducation(newId))
    ensures !OptionalLineShown(BlankEducation(newId).gpa) && !OptionalLineShown(BlankEducation(newId).honors)
  {
  }

  /** Setting one date never shows the range while the other is still empty. */
  lemma OneDateIsNotARange(e: Education, v: string)
    requires e.endDate == ""
    ensures !DateRangeShown(SetField(e, StartDate, v))
  {
  }
}

=== FILE: experience.dfy ===
/**
 * The work-experience section: add / update / delete over the ordered
 * collection, the end-date and "I currently work here" handlers that couple
 * `endDate` with `current`, and the enhance -> proposal -> accept/reject flow
 * for one entry's description.
 */
module ExperienceEditor {
  import opened Wrappers
  import opened Text
  import opened Resume
  import Collection

  /** `Partial<Experience>`: `Some` for every key present in the update object. */
  datatype ExperiencePatch = ExperiencePatch(
    id: Option<string>,
    company: Option<string>,
    position: Option<string>,
    startDate: Option<string>,
    endDate: Option<string>,
    current: Option<bool>,
    description: Option<string>,
    location: Option<string>)

  /** The empty update object `{}`. */
  const NoChange := ExperiencePatch(None, None, None, None, None, None, None, None)

  /** `{...e, ...p}`: every key present in `p` overrides, every other field is kept. */
  function Merge(e: Experience, p: ExperiencePatch): (r: Experience)
    ensures p == NoChange ==> r == e
    ensures p.current == None && p.endDate == None ==> r.current == e.current && r.endDate == e.endDate
  {
    Experience(
      p.id.GetOr(e.id),
      p.company.GetOr(e.company),
      p.position.GetOr(e.position),
      p.startDate.GetOr(e.startDate),
      p.endDate.GetOr(e.endDate),
      p.current.GetOr(e.current),
      p.description.GetOr(e.description),
      p.location.GetOr(e.location))
  }

  /** Merging the same update twice is merging it once. */
  lemma MergeIdempotent(e: Experience, p: ExperiencePatch)
    ensures Merge(Merge(e, p), p) == Merge(e, p)
  {
  }

  /** The entry `addExperience` creates: every string empty, not current. */
  function BlankExperience(newId: string): Experience {
    Experience(newId, "", "", "", "", false, "", "")
  }

  /** `addExperience`: exactly one blank entry appended at the end. */
  function AddExperience(xs: seq<Experience>, newId: string): (r: seq<Experience>)
    ensures |r| == |xs| + 1
    ensures r[..|xs|] == xs
    ensures var e := r[|xs|];
      e.id == newId && !e.current
      && e.company == "" && e.position == "" && e.startDate == ""
      && e.endDate == "" && e.description == "" && e.location == ""
  {
    Collection.AppendEntry(xs, BlankExperience(newId))
  }

  /** `updateExperience(id, updates)`: merges into every entry with that id, in place. */
  function UpdateExperience(xs: seq<Experience>, id: string, p: ExperiencePatch): (r: seq<Experience>)
    ensures |r| == |xs|
    ensures forall i :: 0 <= i < |xs| && xs[i].id == id ==> r[i] == Merge(xs[i], p)
    ensures forall i :: 0 <= i < |xs| && xs[i].id != id ==> r[i] == xs[i]
    ensures (forall i :: 0 <= i < |xs| ==> xs[i].id != id) ==> r == xs
  {
    Collection.UpdateWhere(xs, (e: Experience) => e.id == id, (e: Experience) => Merge(e, p))
  }

  /** `deleteExperience(id)`: drops every entry with that id and keeps the rest. */
  function DeleteExperience(xs: seq<Experience>, id: string): (r: seq<Experience>)
    ensures forall e :: e in r <==> e in xs && e.id != id
    ensures (forall i :: 0 <= i < |xs| ==> xs[i].id != id) ==> r == xs
  {
    var keep := (e: Experience) => e.id != id;
    if forall i :: 0 <= i < |xs| ==> xs[i].id != id then
      Collection.FilterKeepsAll(xs, keep);
      Collection.Filter(xs, keep)
    else
      Collection.Filter(xs, keep)
  }

  /** Deleting from a concatenation deletes from each part: survivors keep their relative order. */
  lemma DeleteExperienceKeepsOrder(a: seq<Experience>, b: seq<Experience>, id: string)
    ensures DeleteExperience(a + b, id) == DeleteExperience(a, id) + DeleteExperience(b, id)
  {
    Collection.FilterConcat(a, b, (e: Experience) => e.id != id);
  }

  /** The coupling the handlers maintain: a current position has no end date. */
  predicate Consistent(e: Experience) {
    e.current ==> e.endDate == ""
  }

  predicate AllConsistent(xs: seq<Experience>) {
    forall i :: 0 <= i < |xs| ==> Consistent(xs[i])
  }

  /**
   * The end-date input: stores `v` and sets `current` to whether `v` is
   * empty, so a non-empty end date clears `current` and clearing the end
   * date sets it. Nothing else about any entry changes.
   */
  function EndDateChanged(xs: seq<Experience>, id: string, v: string): (r: seq<Experience>)
    ensures |r| == |xs|
    ensures forall i :: 0 <= i < |xs| && xs[i].id == id ==>
      r[i].endDate == v && r[i].current == (v == "")
      && r[i].(endDate := xs[i].endDate, current := xs[i].current) == xs[i]
    ensures forall i :: 0 <= i < |xs| && xs[i].id != id ==> r[i] == xs[i]
  {
    UpdateExperience(xs, id, NoChange.(endDate := Some(v), current := Some(v == "")))
  }

  /**
   * The "I currently work here" checkbox of the rendered entry `shown`:
   * sets `current := checked`; checking it empties the end date, unchecking
   * writes back the end date `shown` was rendered with.
   */
  function CurrentToggled(xs: seq<Experience>, shown: Experience, checked: bool): (r: seq<Experience>)
    ensures |r| == |xs|
    ensures forall i :: 0 <= i < |xs| && xs[i].id == shown.id ==>
      r[i].current == checked
      && r[i].endDate == (if checked then "" else shown.endDate)
      && r[i].(endDate := xs[i].endDate, current := xs[i].current) == xs[i]
    ensures forall i :: 0 <= i < |xs| && xs[i].id != shown.id ==> r[i] == xs[i]
  {
    UpdateExperience(xs, shown.id,
      NoChange.(current := Some(checked), endDate := Some(if checked then "" else shown.endDate)))
  }

  /** Both coupling handlers leave every entry consistent, whatever it was before. */
  lemma HandlersKeepConsistent(xs: seq<Experience>, id: string, v: string, shown: Experience, checked: bool)
    requires AllConsistent(xs)
    ensures AllConsistent(EndDateChanged(xs, id, v))
    ensures AllConsistent(CurrentToggled(xs, shown, checked))
  {
    var r1 := EndDateChanged(xs, id, v);
    var r2 := CurrentToggled(xs, shown, checked);
    forall i | 0 <= i < |r1| ensures Consistent(r1[i]) {
      if xs[i].id == id {
        assert r1[i].current == (v == "");
      }
    }
    forall i | 0 <= i < |r2| ensures Consistent(r2[i]) {
      if xs[i].id == shown.id {
        assert r2[i].current == checked;
      }
    }
  }

  /** An update that touches neither `current` nor `endDate` keeps every entry consistent. */
  lemma OtherUpdatesKeepConsistent(xs: seq<Experience>, id: string, p: ExperiencePatch)
    requires AllConsistent(xs)
    requires p.current == None && p.endDate == None
    ensures AllConsistent(UpdateExperience(xs, id, p))
  {
    var r := UpdateExperience(xs, id, p);
    forall i | 0 <= i < |r| ensures Consistent(r[i]) {
      if xs[i].id == id {
        assert r[i] == Merge(xs[i], p);
      }
    }
  }

  /** A pending suggestion for one entry's description. */
  datatype Proposal = Proposal(id: string, content: string)

  /**
   * The section's props and local state: the collection it edits, the entry
   * being edited, the entry whose enhancement is in flight, and the single
   * suggestion slot.
   */
  datatype ExperienceSection = ExperienceSection(
    entries: seq<Experience>,
    editingId: Option<string>,
    enhancingId: Option<string>,
    proposal: Option<Proposal>)

  /** The Add button: appends a blank entry and opens it for editing. */
  function AddClicked(s: ExperienceSection, newId: string): (r: ExperienceSection)
    ensures r.entries == AddExperience(s.entries, newId)
    ensures r.editingId == Some(newId)
    ensures r.enhancingId == s.enhancingId && r.proposal == s.proposal
  {
    s.(entries := AddExperience(s.entries, newId), editingId := Some(newId))
  }

  /**
   * Enhance on entry `e`: a blank description sends nothing and changes
   * nothing; otherwise marks `e` as enhancing and sends its description.
   */
  function StartEnhance(s: ExperienceSection, e: Experience): (r: (ExperienceSection, Option<EnhanceRequest>))
    ensures IsBlank(e.description) ==> r.0 == s && r.1 == None
    ensures !IsBlank(e.description) ==>
      r.1 == Some(EnhanceRequest("experience", e.description))
      && r.0 == s.(enhancingId := Some(e.id))
  {
    if IsBlank(e.description) then (s, None)
    else (s.(enhancingId := Some(e.id)), Some(EnhanceRequest("experience", e.description)))
  }

  /**
   * The reply to the request sent for entry `forId`: a delivered text
   * becomes the one proposal (overwriting any earlier one); a failure keeps
   * the slot. Either way nothing is enhancing afterwards and the entries are
   * untouched.
   */
  function FinishEnhance(s: ExperienceSection, forId: string, reply: EnhanceReply): (r: ExperienceSection)
    ensures r.enhancingId == None
    ensures r.entries == s.entries && r.editingId == s.editingId
    ensures reply.Delivered? ==> r.proposal == Some(Proposal(forId, reply.enhancedContent))
    ensures reply.Failed? ==> r.proposal == s.proposal
  {
    match reply
    case Delivered(text) => s.(enhancingId := None, proposal := Some(Proposal(forId, text)))
    case Failed => s.(enhancingId := None)
  }

  /**
   * Accept: writes the proposal into the description of every entry with the
   * recorded id, then empties the slot; with no proposal nothing happens.
   */
  function AcceptEnhancement(s: ExperienceSection): (r: ExperienceSection)
    ensures r.proposal == None
    ensures s.proposal == None ==> r == s
    ensures s.proposal.Some? ==>
      var pr := s.proposal.value;
      |r.entries| == |s.entries|
      && (forall i :: 0 <= i < |s.entries| && s.entries[i].id == pr.id ==>
            r.entries[i] == s.entries[i].(description := pr.content))
      && (forall i :: 0 <= i < |s.entries| && s.entries[i].id != pr.id ==>
            r.entries[i] == s.entries[i])
  {
    match s.proposal
    case None => s
    case Some(pr) =>
      s.(entries := UpdateExperience(s.entries, pr.id, NoChange.(description := Some(pr.content))),
         proposal := None)
  }

  /** Reject: empties the slot and never touches the entries. */
  function RejectEnhancement(s: ExperienceSection): (r: ExperienceSection)
    ensures r.proposal == None
    ensures r.entries == s.entries && r.editingId == s.editingId && r.enhancingId == s.enhancingId
  {
    s.(proposal := None)
  }

  /** The suggestion panel is shown under the entry whose id the proposal records. */
  predicate ProposalShownFor(s: ExperienceSection, id: string) {
    s.proposal.Some? && s.proposal.value.id == id
  }

  /** The Enhance button of entry `e` is disabled while `e` is enhancing or its description is blank. */
  predicate EnhanceDisabled(s: ExperienceSection, e: Experience) {
    s.enhancingId == Some(e.id) || IsBlank(e.description)
  }

  /** A disabled button could not have sent anything: a blank description starts nothing. */
  lemma BlankDescriptionNeverSends(s: ExperienceSection, e: Experience)
    requires IsBlank(e.description)
    ensures EnhanceDisabled(s, e)
    ensures StartEnhance(s, e).1 == None
  {
  }
}

=== FILE: pdf.dfy ===
/**
 * The PDF export: an ordered list of drawing operations produced by moving
 * an integer y-cursor down the page. Only the personal-information header,
 * the summary and the work experience are drawn.
 *
 * The wrapping of long text to the page width is the caller-supplied `wrap`,
 * which returns at least one line.
 */
module PdfExport {
  import opened Text
  import opened Resume

  /** What the line-wrapping call returns: one or more lines. */
  type Lines = s: seq<string> | |s| >= 1 witness [""]

  /** One drawing call: a font-size change, or text drawn at (x, y). */
  datatype PdfOp = SetFontSize(size: int) | DrawText(lines: seq<string>, x: int, y: int)

  /** The operations of a block and the cursor after it. */
  datatype Layout = Layout(ops: seq<PdfOp>, y: int)

  /** The left margin every text is drawn at. */
  const Left := 20

  /** The y of every text operation, in drawing order. */
  function Ys(ops: seq<PdfOp>): seq<int>
    decreases |ops|
  {
    if |ops| == 0 then []
    else (if ops[0].DrawText? then [ops[0].y] else []) + Ys(ops[1..])
  }

  lemma {:induction false} YsConcat(a: seq<PdfOp>, b: seq<PdfOp>)
    ensures Ys(a + b) == Ys(a) + Ys(b)
    decreases |a|
  {
    if |a| > 0 {
      assert (a + b)[1..] == a[1..] + b;
      YsConcat(a[1..], b);
    } else {
      assert a + b == b;
    }
  }

  /** The lines of every text operation, in drawing order. */
  function Texts(ops: seq<PdfOp>): seq<seq<string>>
    decreases |ops|
  {
    if |ops| == 0 then []
    else (if ops[0].DrawText? then [ops[0].lines] else []) + Texts(ops[1..])
  }

  lemma {:induction false} TextsConcat(a: seq<PdfOp>, b: seq<PdfOp>)
    ensures Texts(a + b) == Texts(a) + Texts(b)
    decreases |a|
  {
    if |a| > 0 {
      assert (a + b)[1..] == a[1..] + b;
      TextsConcat(a[1..], b);
    } else {
      assert a + b == b;
    }
  }

  /** A font change followed by one text at `y`. */
  function Pair(size: int, lines: seq<string>, y: int): seq<PdfOp> {
    [SetFontSize(size), DrawText(lines, Left, y)]
  }

  lemma YsPair(size: int, lines: seq<string>, y: int)
    ensures Ys(Pair(size, lines, y)) == [y]
  {
    var ops := Pair(size, lines, y);
    var rest := [DrawText(lines, Left, y)];
    assert ops[1..] == rest;
    assert rest[1..] == [];
    assert Ys(rest) == [y] + Ys([]);
    assert Ys(ops) == [] + Ys(rest);
  }

  lemma YsText(lines: seq<string>, y: int)
    ensures Ys([DrawText(lines, Left, y)]) == [y]
  {
    assert [DrawText(lines, Left, y)][1..] == [];
  }

  lemma TextsPair(size: int, lines: seq<string>, y: int)
    ensures Texts(Pair(size, lines, y)) == [lines]
  {
    var ops := Pair(size, lines, y);
    var rest := [DrawText(lines, Left, y)];
    assert ops[1..] == rest;
    assert rest[1..] == [];
    assert Texts(rest) == [lines] + Texts([]);
    assert Texts(ops) == [] + Texts(rest);
  }

  lemma TextsText(lines: seq<string>, y: int)
    ensures Texts([DrawText(lines, Left, y)]) == [lines]
  {
    assert [DrawText(lines, Left, y)][1..] == [];
  }

  predicate Increasing(s: seq<int>) {
    forall i, j :: 0 <= i < j < |s| ==> s[i] < s[j]
  }

  /**
   * A block placed from cursor `lo`: its texts are drawn at strictly
   * increasing heights, none above `lo`, all above the cursor it leaves,
   * and the cursor never moves up.
   */
  predicate Placed(l: Layout, lo: int) {
    lo <= l.y
    && Increasing(Ys(l.ops))
    && forall i :: 0 <= i < |Ys(l.ops)| ==> lo <= Ys(l.ops)[i] < l.y
  }

  /** Two blocks placed one after the other form a placed block. */
  lemma PlacedConcat(a: Layout, b: Layout, lo: int)
    requires Placed(a, lo) && Placed(b, a.y)
    ensures Placed(Layout(a.ops + b.ops, b.y), lo)
  {
    YsConcat(a.ops, b.ops);
    var ya, yb := Ys(a.ops), Ys(b.ops);
    assert Ys(a.ops + b.ops) == ya + yb;
    forall i, j | 0 <= i < j < |ya + yb| ensures (ya + yb)[i] < (ya + yb)[j] {
      if j < |ya| {
      } else if i >= |ya| {
        assert (ya + yb)[i] == yb[i - |ya|];
      } else {
        assert (ya + yb)[i] == ya[i] && (ya + yb)[j] == yb[j - |ya|];
      }
    }
  }

  /** The header's texts: the name, or `Your Name` without one, then email, phone and location. */
  function HeaderTexts(p: PersonalInfo): seq<seq<string>> {
    [[OrElse(p.fullName, "Your Name")], [p.email], [p.phone], [p.location]]
  }

  /** The personal header: name at 20, then email, phone and location 10, 6 and 6 below, leaving 15 units of spacing. */
  function Header(p: PersonalInfo): (r: Layout)
    ensures Placed(r, 20) && r.y == 57
    ensures |r.ops| == 6 && Ys(r.ops) == [20, 30, 36, 42]
    ensures r.ops[0] == SetFontSize(20) && r.ops[2] == SetFontSize(12)
    ensures r.ops[1] == DrawText([if p.fullName == "" then "Your Name" else p.fullName], Left, 20)
    ensures r.ops[3] == DrawText([p.email], Left, 30)
    ensures r.ops[4] == DrawText([p.phone], Left, 36)
    ensures r.ops[5] == DrawText([p.location], Left, 42)
    ensures Texts(r.ops) == HeaderTexts(p)
  {
    var a := Pair(20, [OrElse(p.fullName, "Your Name")], 20);
    var b := Pair(12, [p.email], 30);
    var c := [DrawText([p.phone], Left, 36)];
    var e := [DrawText([p.location], Left, 42)];
    var ops := a + b + c + e;
    assert Ys(ops) == [20, 30, 36, 42] by {
      YsPair(20, [OrElse(p.fullName, "Your Name")], 20);
      YsPair(12, [p.email], 30);
      YsText([p.phone], 36);
      YsText([p.location], 42);
      YsConcat(a, b);
      YsConcat(a + b, c);
      YsConcat(a + b + c, e);
    }
    assert Texts(ops) == HeaderTexts(p) by {
      TextsPair(20, [OrElse(p.fullName, "Your Name")], 20);
      TextsPair(12, [p.email], 30);
      TextsText([p.phone], 36);
      TextsText([p.location], 42);
      TextsConcat(a, b);
      TextsConcat(a + b, c);
      TextsConcat(a + b + c, e);
    }
    Layout(ops, 57)
  }

  /** The summary's texts: the heading and the wrapped summary, or none for an empty summary. */
  function SummaryTexts(summary: string, wrap: string -> Lines): seq<seq<string>> {
    if summary == "" then [] else [["Professional Summary"], wrap(summary)]
  }

  /** The summary block: a heading and the wrapped text, five units per line, or nothing for an empty summary. */
  function SummaryBlock(summary: string, y: int, wrap: string -> Lines): (r: Layout)
    ensures Placed(r, y)
    ensures summary == "" <==> r.ops == []
    ensures summary == "" ==> r.y == y
    ensures summary != "" ==> r.y == y + 8 + 5 * |wrap(summary)| + 10
    ensures Texts(r.ops) == SummaryTexts(summary, wrap)
  {
    if summary == "" then Layout([], y)
    else
      var lines := wrap(summary);
      var ops := Pair(16, ["Professional Summary"], y) + Pair(11, lines, y + 8);
      assert Ys(ops) == [y, y + 8] by {
        YsPair(16, ["Professional Summary"], y);
        YsPair(11, lines, y + 8);
        YsConcat(Pair(16, ["Professional Summary"], y), Pair(11, lines, y + 8));
      }
      assert Texts(ops) == [["Professional Summary"], lines] by {
        TextsPair(16, ["Professional Summary"], y);
        TextsPair(11, lines, y + 8);
        TextsConcat(Pair(16, ["Professional Summary"], y), Pair(11, lines, y + 8));
      }
      Layout(ops, y + 8 + 5 * |lines| + 10)
  }

  /** The title line of an entry. */
  function TitleLine(e: Experience): string {
    e.position + " at " + e.company
  }

  /** The date line of an entry: the start, then `Present` for a current position or the end date. */
  function DateLine(e: Experience): string {
    e.startDate + " - " + (if e.current then "Present" else e.endDate)
  }

  /** The date line ends in `Present` exactly when the position is current or the end date itself ends so. */
  lemma PresentIffCurrent(e: Experience)
    ensures EndsWith(DateLine(e), "Present") <==> e.current || EndsWith(e.endDate, "Present")
  {
    var tail := if e.current then "Present" else e.endDate;
    var s := DateLine(e);
    assert s == (e.startDate + " - ") + tail;
    if |tail| >= 7 {
      assert s[|s| - 7..] == tail[|tail| - 7..];
      assert EndsWith(s, "Present") <==> EndsWith(tail, "Present");
    } else {
      assert !e.current;
      if |s| >= 7 {
        var k := 6 - |tail|;
        assert s[|s| - |tail| - 1] == ' ';
        assert s[|s| - 7..][k] == ' ';
        assert "Present"[k] != ' ';
      }
      assert !EndsWith(s, "Present");
    }
  }

  /** Whether an entry has a description block. */
  function HasDescription(e: Experience): nat {
    if e.description == "" then 0 else 1
  }

  /** An entry's texts: its title line, its date line, then its wrapped description if it has one. */
  function EntryTexts(e: Experience, wrap: string -> Lines): seq<seq<string>> {
    [[TitleLine(e)], [DateLine(e)]] + (if e.description == "" then [] else [wrap(e.description)])
  }

  /** The texts of the entries, entry after entry in collection order. */
  function EntriesTexts(xs: seq<Experience>, wrap: string -> Lines): seq<seq<string>>
    decreases |xs|
  {
    if |xs| == 0 then [] else EntryTexts(xs[0], wrap) + EntriesTexts(xs[1..], wrap)
  }

  /** The texts of two runs of entries are those of the first run, then those of the second. */
  lemma {:induction false} EntriesTextsConcat(xs: seq<Experience>, ys: seq<Experience>, wrap: string -> Lines)
    ensures EntriesTexts(xs + ys, wrap) == EntriesTexts(xs, wrap) + EntriesTexts(ys, wrap)
    decreases |xs|
  {
    if |xs| > 0 {
      assert (xs + ys)[0] == xs[0];
      assert (xs + ys)[1..] == xs[1..] + ys;
      EntriesTextsConcat(xs[1..], ys, wrap);
    } else {
      assert xs + ys == ys;
    }
  }

  /** Entry `i`'s texts come after those of every earlier entry and before those of every later one. */
  lemma EntryTextsInOrder(xs: seq<Experience>, i: int, wrap: string -> Lines)
    requires 0 <= i < |xs|
    ensures EntriesTexts(xs, wrap) ==
      EntriesTexts(xs[..i], wrap) + EntryTexts(xs[i], wrap) + EntriesTexts(xs[i + 1..], wrap)
  {
    assert xs == xs[..i] + xs[i..];
    EntriesTextsConcat(xs[..i], xs[i..], wrap);
    assert xs[i..][0] == xs[i] && xs[i..][1..] == xs[i + 1..];
  }

  /**
   * One entry: the title 6 above the date line, then, only for a non-empty
   * description, the wrapped description at four units per line and eight
   * units of spacing.
   */
  function EntryBlock(e: Experience, y: int, wrap: string -> Lines): (r: Layout)
    ensures Placed(r, y) && r.y >= y + 12
    ensures |r.ops| == 4 + HasDescription(e)
    ensures r.ops[1] == DrawText([TitleLine(e)], Left, y)
    ensures r.ops[3] == DrawText([DateLine(e)], Left, y + 6)
    ensures e.description == "" ==> r.y == y + 12
    ensures e.description != "" ==>
      r.ops[4] == DrawText(wrap(e.description), Left, y + 12) && r.y == y + 12 + 4 * |wrap(e.description)| + 8
    ensures Texts(r.ops) == EntryTexts(e, wrap)
  {
    var head := Pair(12, [TitleLine(e)], y) + Pair(10, [DateLine(e)], y + 6);
    assert Ys(head) == [y, y + 6] by {
      YsPair(12, [TitleLine(e)], y);
      YsPair(10, [DateLine(e)], y + 6);
      YsConcat(Pair(12, [TitleLine(e)], y), Pair(10, [DateLine(e)], y + 6));
    }
    assert Texts(head) == [[TitleLine(e)], [DateLine(e)]] by {
      TextsPair(12, [TitleLine(e)], y);
      TextsPair(10, [DateLine(e)], y + 6);
      TextsConcat(Pair(12, [TitleLine(e)], y), Pair(10, [DateLine(e)], y + 6));
    }
    if e.description == "" then Layout(head, y + 12)
    else
      var lines := wrap(e.description);
      var ops := head + [DrawText(lines, Left, y + 12)];
      assert Ys(ops) == [y, y + 6, y + 12] by {
        YsConcat(head, [DrawText(lines, Left, y + 12)]);
        YsText(lines, y + 12);
      }
      assert Texts(ops) == [[TitleLine(e)], [DateLine(e)], lines] by {
        TextsConcat(head, [DrawText(lines, Left, y + 12)]);
        TextsText(lines, y + 12);
      }
      Layout(ops, y + 12 + 4 * |lines| + 8)
  }

  /** How many entries have a description. */
  function DescriptionCount(xs: seq<Experience>): nat
    decreases |xs|
  {
    if |xs| == 0 then 0 else HasDescription(xs[0]) + DescriptionCount(xs[1..])
  }

  /** The entries in collection order, each starting where the previous one left the cursor. */
  function EntriesBlock(xs: seq<Experience>, y: int, wrap: string -> Lines): (r: Layout)
    ensures Placed(r, y)
    ensures r.y >= y + 12 * |xs|
    ensures |r.ops| == 4 * |xs| + DescriptionCount(xs)
    ensures Texts(r.ops) == EntriesTexts(xs, wrap)
    decreases |xs|
  {
    if |xs| == 0 then Layout([], y)
    else
      var first := EntryBlock(xs[0], y, wrap);
      var rest := EntriesBlock(xs[1..], first.y, wrap);
      PlacedConcat(first, rest, y);
      TextsConcat(first.ops, rest.ops);
      Layout(first.ops + rest.ops, rest.y)
  }

  /** The experience texts: the heading and the entries' texts, or none without entries. */
  function ExperienceTexts(xs: seq<Experience>, wrap: string -> Lines): seq<seq<string>> {
    if |xs| == 0 then [] else [["Work Experience"]] + EntriesTexts(xs, wrap)
  }

  /** The experience block: a heading and the entries, or nothing when there are no entries. */
  function ExperienceBlock(xs: seq<Experience>, y: int, wrap: string -> Lines): (r: Layout)
    ensures Placed(r, y)
    ensures |xs| == 0 <==> r.ops == []
    ensures |xs| == 0 ==> r.y == y
    ensures |xs| > 0 ==> r.y >= y + 8 + 12 * |xs|
    ensures |xs| > 0 ==> |r.ops| == 2 + 4 * |xs| + DescriptionCount(xs)
    ensures |xs| > 0 ==> r.ops[1] == DrawText(["Work Experience"], Left, y)
    ensures Texts(r.ops) == ExperienceTexts(xs, wrap)
  {
    if |xs| == 0 then Layout([], y)
    else
      var heading := Layout(Pair(16, ["Work Experience"], y), y + 8);
      YsPair(16, ["Work Experience"], y);
      var entries := EntriesBlock(xs, y + 8, wrap);
      PlacedConcat(heading, entries, y);
      TextsPair(16, ["Work Experience"], y);
      TextsConcat(heading.ops, entries.ops);
      Layout(heading.ops + entries.ops, entries.y)
  }

  /** The whole export: header, then summary, then experience. */
  function ExportPdf(d: ResumeData, wrap: string -> Lines): (r: Layout)
    ensures Placed(r, 20)
    ensures Texts(r.ops) ==
      HeaderTexts(d.personalInfo) + SummaryTexts(d.summary, wrap) + ExperienceTexts(d.experience, wrap)
  {
    var header := Header(d.personalInfo);
    var summary := SummaryBlock(d.summary, header.y, wrap);
    var experience := ExperienceBlock(d.experience, summary.y, wrap);
    PlacedConcat(header, summary, 20);
    var upper := Layout(header.ops + summary.ops, summary.y);
    PlacedConcat(upper, experience, 20);
    TextsConcat(header.ops, summary.ops);
    TextsConcat(upper.ops, experience.ops);
    Layout(upper.ops + experience.ops, experience.y)
  }

  /**
   * The shape of the export: six header operations; the summary heading as
   * the eighth operation exactly when the summary is non-empty; the
   * experience part empty exactly when there are no entries; the operation
   * count; and the final cursor's lower bound.
   */
  lemma ExportShape(d: ResumeData, wrap: string -> Lines)
    ensures var ops := ExportPdf(d, wrap).ops;
      (|ops| > 7 && ops[7] == DrawText(["Professional Summary"], Left, 57)) <==> d.summary != ""
    ensures |ExportPdf(d, wrap).ops| ==
      6 + (if d.summary == "" then 0 else 4)
      + (if |d.experience| == 0 then 0 else 2 + 4 * |d.experience| + DescriptionCount(d.experience))
    ensures ExportPdf(d, wrap).y >=
      57 + (if d.summary == "" then 0 else 23) + (if |d.experience| == 0 then 0 else 8 + 12 * |d.experience|)
  {
    var header := Header(d.personalInfo);
    var summary := SummaryBlock(d.summary, 57, wrap);
    var experience := ExperienceBlock(d.experience, summary.y, wrap);
    var ops := header.ops + summary.ops + experience.ops;
    assert ExportPdf(d, wrap).ops == ops;
    if d.summary == "" {
      assert ops == header.ops + experience.ops;
      if |ops| > 7 {
        assert ops[7] == experience.ops[1];
        assert experience.ops[1] == DrawText(["Work Experience"], Left, 57);
      }
    } else {
      assert ops[7] == summary.ops[1];
    }
  }

  /** Two documents that agree on name, email, phone, location, summary and experience export identically. */
  lemma ExportIgnoresOtherSections(d: ResumeData, e: ResumeData, wrap: string -> Lines)
    requires d.personalInfo.fullName == e.personalInfo.fullName
    requires d.personalInfo.email == e.personalInfo.email
    requires d.personalInfo.phone == e.personalInfo.phone
    requires d.personalInfo.location == e.personalInfo.location
    requires d.summary == e.summary && d.experience == e.experience
    ensures ExportPdf(d, wrap) == ExportPdf(e, wrap)
  {
  }
}

=== FILE: personal.dfy ===
/**
 * The personal-information section: the single-field change handler and
 * the preview card with its placeholders and optional lines.
 */
module PersonalInfoEditor {
  import opened Text
  import opened Resume

  /** `keyof PersonalInfo`. */
  datatype InfoField = FullName | Email | Phone | Location | LinkedIn | Website

  function Get(p: PersonalInfo, f: InfoField): string {
    match f
    case FullName => p.fullName
    case Email => p.email
    case Phone => p.phone
    case Location => p.location
    case LinkedIn => p.linkedIn
    case Website => p.website
  }

  /** `handleChange(field, value)`: `{...personalInfo, [field]: value}`. */
  function HandleChange(p: PersonalInfo, f: InfoField, v: string): (r: PersonalInfo)
    ensures Get(r, f) == v
    ensures forall g :: g != f ==> Get(r, g) == Get(p, g)
  {
    match f
    case FullName => p.(fullName := v)
    case Email => p.(email := v)
    case Phone => p.(phone := v)
    case Location => p.(location := v)
    case LinkedIn => p.(linkedIn := v)
    case Website => p.(website := v)
  }

  /** A record is determined by its six fields. */
  lemma FieldsDetermineRecord(a: PersonalInfo, b: PersonalInfo)
    requires forall f :: Get(a, f) == Get(b, f)
    ensures a == b
  {
    assert Get(a, FullName) == Get(b, FullName);
    assert Get(a, Email) == Get(b, Email);
    assert Get(a, Phone) == Get(b, Phone);
    assert Get(a, Location) == Get(b, Location);
    assert Get(a, LinkedIn) == Get(b, LinkedIn);
    assert Get(a, Website) == Get(b, Website);
  }

  /** Repeating a change is the change once. */
  lemma HandleChangeIdempotent(p: PersonalInfo, f: InfoField, v: string)
    ensures HandleChange(HandleChange(p, f, v), f, v) == HandleChange(p, f, v)
  {
    FieldsDetermineRecord(HandleChange(HandleChange(p, f, v), f, v), HandleChange(p, f, v));
  }

  /** Changes to different fields commute. */
  lemma HandleChangesCommute(p: PersonalInfo, f: InfoField, v: string, g: InfoField, w: string)
    requires f != g
    ensures HandleChange(HandleChange(p, f, v), g, w) == HandleChange(HandleChange(p, g, w), f, v)
  {
    FieldsDetermineRecord(HandleChange(HandleChange(p, f, v), g, w), HandleChange(HandleChange(p, g, w), f, v));
  }

  /** A later change of the same field overrides an earlier one. */
  lemma LastChangeWins(p: PersonalInfo, f: InfoField, v: string, w: string)
    ensures HandleChange(HandleChange(p, f, v), f, w) == HandleChange(p, f, w)
  {
    FieldsDetermineRecord(HandleChange(HandleChange(p, f, v), f, w), HandleChange(p, f, w));
  }

  /** Writing back the value a field already has changes nothing. */
  lemma HandleChangeSameValue(p: PersonalInfo, f: InfoField)
    ensures HandleChange(p, f, Get(p, f)) == p
  {
    FieldsDetermineRecord(HandleChange(p, f, Get(p, f)), p);
  }

  /** One line of the preview card: plain text, or a link with its target. */
  datatype PreviewLine = Plain(text: string) | Link(text: string, href: string)

  /** A line that is emitted only when its value is non-empty. */
  function OptionalLine(v: string, line: PreviewLine): seq<PreviewLine> {
    if v == "" then [] else [line]
  }

  /**
   * The preview card: name, email and phone with their placeholders, then the
   * location, LinkedIn (linked through `https://`) and website lines, each
   * only when non-empty.
   */
  function Preview(p: PersonalInfo): seq<PreviewLine> {
    [Plain(OrElse(p.fullName, "Your Name")),
     Plain(OrElse(p.email, "your.email@example.com")),
     Plain(OrElse(p.phone, "+1 (555) 123-4567"))]
    + OptionalLine(p.location, Plain(p.location))
    + OptionalLine(p.linkedIn, Link(p.linkedIn, "https://" + p.linkedIn))
    + OptionalLine(p.website, Link(p.website, p.website))
  }

  /** Counts the non-empty optional fields. */
  function Present(p: PersonalInfo): nat {
    (if p.location == "" then 0 else 1)
    + (if p.linkedIn == "" then 0 else 1)
    + (if p.website == "" then 0 else 1)
  }

  /**
   * The preview always has the three header lines and one more line per
   * non-empty optional field; no line is ever blank; an empty name, email or
   * phone shows its placeholder; a filled LinkedIn handle is linked through `https://`.
   */
  lemma PreviewShape(p: PersonalInfo)
    ensures |Preview(p)| == 3 + Present(p)
    ensures forall i :: 0 <= i < |Preview(p)| ==> Preview(p)[i].text != ""
    ensures p.fullName != "" ==> Preview(p)[0] == Plain(p.fullName)
    ensures p.fullName == "" ==> Preview(p)[0] == Plain("Your Name")
    ensures Preview(p)[1] == Plain(if p.email == "" then "your.email@example.com" else p.email)
    ensures Preview(p)[2] == Plain(if p.phone == "" then "+1 (555) 123-4567" else p.phone)
    ensures p.location != "" ==> Preview(p)[3] == Plain(p.location)
    ensures p.linkedIn != "" ==> Link(p.linkedIn, "https://" + p.linkedIn) in Preview(p)
    ensures p.linkedIn == "" && p.website == "" ==> forall i :: 0 <= i < |Preview(p)| ==> Preview(p)[i].Plain?
  {
  }

  /** Which fields the preview shows verbatim when they are filled in: all six. */
  lemma PreviewShowsEveryFilledField(p: PersonalInfo, f: InfoField)
    requires Get(p, f) != ""
    ensures exists i :: 0 <= i < |Preview(p)| && Preview(p)[i].text == Get(p, f)
  {
    var pre := Preview(p);
    var off := 3 + (if p.location == "" then 0 else 1);
    match f
    case FullName => assert pre[0].text == p.fullName;
    case Email => assert pre[1].text == p.email;
    case Phone => assert pre[2].text == p.phone;
    case Location => assert pre[3].text == p.location;
    case LinkedIn => assert pre[off].text == p.linkedIn;
    case Website =>
      var k := off + (if p.linkedIn == "" then 0 else 1);
      assert pre[k].text == p.website;
  }
}

=== FILE: projects.dfy ===
/**
 * The projects section: add / update / delete, and the technologies field,
 * which is edited as one comma-separated string and stored as a list
 * (split on ",", trim each piece, drop the empty ones), then shown again
 * joined with ", ".
 */
module ProjectsEditor {
  import opened Wrappers
  import opened Text
  import opened Resume
  import Collection

  /** `Partial<Project>`: `Some` for every key present in the update object. */
  datatype ProjectPatch = ProjectPatch(
    id: Option<string>,
    name: Option<string>,
    description: Option<string>,
    technologies: Option<seq<string>>,
    url: Option<string>,
    github: Option<string>,
    startDate: Option<string>,
    endDate: Option<string>)

  const NoChange := ProjectPatch(None, None, None, None, None, None, None, None)

  /** `{...p, ...patch}`; a present optional key (`url`, `github`) becomes present in the result. */
  function Merge(e: Project, p: ProjectPatch): (r: Project)
    ensures p == NoChange ==> r == e
    ensures p.url.Some? ==> r.url == p.url
    ensures p.github.Some? ==> r.github == p.github
  {
    Project(
      p.id.GetOr(e.id),
      p.name.GetOr(e.name),
      p.description.GetOr(e.description),
      p.technologies.GetOr(e.technologies),
      if p.url.Some? then p.url else e.url,
      if p.github.Some? then p.github else e.github,
      p.startDate.GetOr(e.startDate),
      p.endDate.GetOr(e.endDate))
  }

  /** The entry `addProject` creates: empty strings, empty URL and GitHub, no technologies. */
  function BlankProject(newId: string): Project {
    Project(newId, "", "", [], Some(""), Some(""), "", "")
  }

  /** `addProject`: exactly one blank project appended at the end. */
  function AddProject(xs: seq<Project>, newId: string): (r: seq<Project>)
    ensures |r| == |xs| + 1
    ensures r[..|xs|] == xs
    ensures var p := r[|xs|];
      p.id == newId && p.technologies == [] && p.name == "" && p.description == ""
      && p.url == Some("") && p.github == Some("") && p.startDate == "" && p.endDate == ""
  {
    Collection.AppendEntry(xs, BlankProject(newId))
  }

  /** `updateProject(id, updates)`: merges into every project with that id, in place. */
  function UpdateProject(xs: seq<Project>, id: string, p: ProjectPatch): (r: seq<Project>)
    ensures |r| == |xs|
    ensures forall i :: 0 <= i < |xs| && xs[i].id == id ==> r[i] == Merge(xs[i], p)
    ensures forall i :: 0 <= i < |xs| && xs[i].id != id ==> r[i] == xs[i]
    ensures (forall i :: 0 <= i < |xs| ==> xs[i].id != id) ==> r == xs
  {
    Collection.UpdateWhere(xs, (e: Project) => e.id == id, (e: Project) => Merge(e, p))
  }

  /** `deleteProject(id)`: drops every project with that id and keeps the rest. */
  function DeleteProject(xs: seq<Project>, id: string): (r: seq<Project>)
    ensures forall e :: e in r <==> e in xs && e.id != id
    ensures (forall i :: 0 <= i < |xs| ==> xs[i].id != id) ==> r == xs
  {
    var keep := (e: Project) => e.id != id;
    if forall i :: 0 <= i < |xs| ==> xs[i].id != id then
      Collection.FilterKeepsAll(xs, keep);
      Collection.Filter(xs, keep)
    else
      Collection.Filter(xs, keep)
  }

  /** Deleting from a concatenation deletes from each part: survivors keep their relative order. */
  lemma DeleteProjectKeepsOrder(a: seq<Project>, b: seq<Project>, id: string)
    ensures DeleteProject(a + b, id) == DeleteProject(a, id) + DeleteProject(b, id)
  {
    Collection.FilterConcat(a, b, (e: Project) => e.id != id);
  }

  /**
   * `handleTechnologiesChange`'s parse: every technology is non-empty, holds
   * no comma and has no surrounding whitespace.
   */
  function ParseTechnologies(text: string): (r: seq<string>)
    ensures forall k :: 0 <= k < |r| ==> r[k] != "" && ',' !in r[k] && IsTrimmed(r[k])
  {
    CleanAvoids(Split(text, ','), ',');
    Clean(Split(text, ','))
  }

  /**
   * The parse of comma-joined pieces is the pieces, trimmed, with the empty
   * ones dropped, in their left-to-right order.
   */
  lemma ParsePieces(pieces: seq<string>)
    requires |pieces| >= 1
    requires forall k :: 0 <= k < |pieces| ==> ',' !in pieces[k]
    ensures ParseTechnologies(Join(pieces, ",")) == Clean(pieces)
  {
    SplitJoin(pieces, ',');
  }

  /** The text the technologies input shows: the list joined with ", ". */
  function TechnologiesText(ts: seq<string>): string {
    Join(ts, ", ")
  }

  /** What the parse produces is exactly what it can read back from its own display. */
  predicate WellFormedTechnology(t: string) {
    t != "" && ',' !in t && IsTrimmed(t)
  }

  /** Splitting `t + ", " + j` on commas: `t`, then the pieces of `j` with a space glued to the first. */
  lemma SplitDisplayStep(t: string, j: string)
    requires ',' !in t
    ensures Split(t + ", " + j, ',') == [t] + ([[' '] + Split(j, ',')[0]] + Split(j, ',')[1..])
  {
    var x := [' '] + j;
    var y := [','] + x;
    assert t + ", " + j == t + y;
    SplitSepHead(x, ',');
    var sy := Split(y, ',');
    assert sy[0] == "";
    assert sy[1..] == Split(x, ',');
    SplitPrepend(t, y, ',');
    assert t + sy[0] == t;
    SplitPrepend([' '], j, ',');
  }

  /** A space glued to the front of the first piece is trimmed away again. */
  lemma CleanSpaceHead(x: string, rest: seq<string>)
    ensures Clean([[' '] + x] + rest) == Clean([x] + rest)
  {
    TrimSkipsSpace(' ', x);
    CleanCons([' '] + x, rest);
    CleanCons(x, rest);
  }

  /** The parse of a single well-formed technology is that technology alone. */
  lemma ParseSingle(t: string)
    requires WellFormedTechnology(t)
    ensures ParseTechnologies(t) == [t]
  {
    SplitPrepend(t, "", ',');
    assert Split("", ',') == [""];
    assert t + "" == t;
    var sp := Split(t, ',');
    assert sp == [t];
    CleanCons(t, []);
    assert Clean([]) == [];
  }

  /** The parse of `t + ", " + j` is `t` followed by the cleaned pieces of `j`, a space glued to the first. */
  lemma ParseDisplayHead(t: string, j: string)
    requires WellFormedTechnology(t)
    ensures ParseTechnologies(t + ", " + j) == [t] + Clean([[' '] + Split(j, ',')[0]] + Split(j, ',')[1..])
  {
    var x := [[' '] + Split(j, ',')[0]] + Split(j, ',')[1..];
    SplitDisplayStep(t, j);
    CleanCons(t, x);
  }

  /** The parse of `t + ", " + j` is `t` followed by the parse of `j`. */
  lemma ParseDisplayStep(t: string, j: string)
    requires WellFormedTechnology(t)
    ensures ParseTechnologies(t + ", " + j) == [t] + ParseTechnologies(j)
  {
    var sj := Split(j, ',');
    ParseDisplayHead(t, j);
    CleanSpaceHead(sj[0], sj[1..]);
    assert [sj[0]] + sj[1..] == sj;
  }

  /** An empty input parses to no technologies. */
  lemma ParseEmpty()
    ensures ParseTechnologies("") == []
  {
    assert Split("", ',') == [""];
    assert IsBlank("");
    CleanCons("", []);
    assert Clean([]) == [];
  }

  /** The displayed text of two or more technologies parses as the head followed by the parse of the rest's text. */
  lemma ParseTextStep(ts: seq<string>)
    requires |ts| >= 2 && WellFormedTechnology(ts[0])
    ensures ParseTechnologies(TechnologiesText(ts)) == [ts[0]] + ParseTechnologies(TechnologiesText(ts[1..]))
  {
    var j := TechnologiesText(ts[1..]);
    assert TechnologiesText(ts) == ts[0] + ", " + j by {
      JoinCons(ts, ", ");
    }
    ParseDisplayStep(ts[0], j);
  }

  /** One step of the round trip: a well-formed head in front of a tail that already round-trips. */
  lemma RoundTripStep(ts: seq<string>)
    requires |ts| >= 2 && WellFormedTechnology(ts[0])
    requires ParseTechnologies(TechnologiesText(ts[1..])) == ts[1..]
    ensures ParseTechnologies(TechnologiesText(ts)) == ts
  {
    ParseTextStep(ts);
    assert [ts[0]] + ts[1..] == ts;
  }


  /** Round trip: re-parsing the displayed text of well-formed technologies gives the same list. */
  lemma {:induction false} DisplayRoundTrip(ts: seq<string>)
    requires forall k :: 0 <= k < |ts| ==> WellFormedTechnology(ts[k])
    ensures ParseTechnologies(TechnologiesText(ts)) == ts
    decreases |ts|
  {
    if |ts| == 0 {
      ParseEmpty();
    } else if |ts| == 1 {
      ParseSingle(ts[0]);
    } else {
      var tail := ts[1..];
      assert forall k :: 0 <= k < |tail| ==> WellFormedTechnology(tail[k]) by {
        forall k | 0 <= k < |tail| ensures WellFormedTechnology(tail[k]) {
          assert tail[k] == ts[k + 1];
        }
      }
      DisplayRoundTrip(tail);
      RoundTripStep(ts);
    }
  }

  /** The technologies input: replaces only `technologies` of the matching projects, with the parse. */
  function TechnologiesChanged(xs: seq<Project>, id: string, text: string): (r: seq<Project>)
    ensures |r| == |xs|
    ensures forall i :: 0 <= i < |xs| && xs[i].id == id ==>
      r[i] == xs[i].(technologies := ParseTechnologies(text))
    ensures forall i :: 0 <= i < |xs| && xs[i].id != id ==> r[i] == xs[i]
  {
    UpdateProject(xs, id, NoChange.(technologies := Some(ParseTechnologies(text))))
  }

  /** The date range of a project card is shown only when both dates are set. */
  predicate DateRangeShown(p: Project) {
    p.startDate != "" && p.endDate != ""
  }
}

=== FILE: resume.dfy ===
/**
 * The resume document model: the record types of the editor and the
 * request/response shapes exchanged with the backend.
 *
 * Optional properties (`gpa?`, `honors?`, `url?`, `github?`, `expiryDate?`)
 * are `Option`s; every collection entry carries a string `id`, the
 * personal-info record does not.
 */
module Resume {
  import opened Wrappers

  datatype PersonalInfo = PersonalInfo(
    fullName: string,
    email: string,
    phone: string,
    location: string,
    linkedIn: string,
    website: string)

  /**
   * A work-experience entry. The type does not tie `current` to `endDate`;
   * the editor handlers do (see `ExperienceEditor`).
   */
  datatype Experience = Experience(
    id: string,
    company: string,
    position: string,
    startDate: string,
    endDate: string,
    current: bool,
    description: string,
    location: string)

  datatype Education = Education(
    id: string,
    institution: string,
    degree: string,
    field: string,
    startDate: string,
    endDate: string,
    gpa: Option<string>,
    honors: Option<string>)

  /** The closed proficiency enumeration of a skill. */
  datatype Level = Beginner | Intermediate | Advanced | Expert

  datatype Skill = Skill(id: string, name: string, level: Level, category: string)

  datatype Project = Project(
    id: string,
    name: string,
    description: string,
    technologies: seq<string>,
    url: Option<string>,
    github: Option<string>,
    startDate: string,
    endDate: string)

  datatype Certification = Certification(
    id: string,
    name: string,
    issuer: string,
    date: string,
    url: Option<string>,
    expiryDate: Option<string>)

  /** The root aggregate: one personal-info record, one summary, five ordered collections. */
  datatype ResumeData = ResumeData(
    personalInfo: PersonalInfo,
    summary: string,
    experience: seq<Experience>,
    education: seq<Education>,
    skills: seq<Skill>,
    projects: seq<Project>,
    certifications: seq<Certification>)

  /** Body of a POST to the enhancement endpoint. */
  datatype EnhanceRequest = EnhanceRequest(section: string, content: string)

  /**
   * What an enhancement call yields to the editor: a 2xx response carrying
   * `enhanced_content`, or any failure (non-2xx status or transport error).
   */
  datatype EnhanceReply = Delivered(enhancedContent: string) | Failed

  /** The spelling of a level in the source's string union. */
  function LevelName(l: Level): string {
    match l
    case Beginner => "Beginner"
    case Intermediate => "Intermediate"
    case Advanced => "Advanced"
    case Expert => "Expert"
  }

  /** Reads a level back from its spelling; any other string is not a level. */
  function ParseLevel(s: string): (r: Option<Level>)
    ensures r.Some? ==> LevelName(r.value) == s
    ensures (exists l :: LevelName(l) == s) ==> r.Some?
  {
    if s == "Beginner" then Some(Beginner)
    else if s == "Intermediate" then Some(Intermediate)
    else if s == "Advanced" then Some(Advanced)
    else if s == "Expert" then Some(Expert)
    else None
  }

  /** A level's spelling is exactly one of the four names, and names are distinct. */
  lemma LevelNamesRoundTrip(l: Level, m: Level)
    ensures ParseLevel(LevelName(l)) == Some(l)
    ensures LevelName(l) == LevelName(m) ==> l == m
    ensures LevelName(l) in ["Beginner", "Intermediate", "Advanced", "Expert"]
  {
  }
}

=== FILE: skills.dfy ===
/**
 * The skills section: add / update / delete, the grouping of skills by
 * category for display, the colour class of a level, the request content
 * sent for enhancement, the suggestion slot (whose Accept only clears it),
 * and the Cancel rule of the edit panel.
 */
module SkillsEditor {
  import opened Wrappers
  import opened Text
  import opened Resume
  import Collection

  /** `Partial<Skill>`: `Some` for every key present in the update object. */
  datatype SkillPatch = SkillPatch(
    id: Option<string>,
    name: Option<string>,
    level: Option<Level>,
    category: Option<string>)

  const NoChange := SkillPatch(None, None, None, None)

  /** `{...skill, ...updates}`. */
  function Merge(e: Skill, p: SkillPatch): (r: Skill)
    ensures p == NoChange ==> r == e
    ensures p.name.Some? ==> r.name == p.name.value
    ensures p.name.None? ==> r.name == e.name
    ensures p.category.None? && p.id.None? ==> r.category == e.category && r.id == e.id
  {
    Skill(p.id.GetOr(e.id), p.name.GetOr(e.name), p.level.GetOr(e.level), p.category.GetOr(e.category))
  }

  /** The skill `addSkill` creates. */
  function BlankSkill(newId: string): Skill {
    Skill(newId, "", Intermediate, "Programming")
  }

  /** `addSkill`: one skill with an empty name, level Intermediate, category Programming, at the end. */
  function AddSkill(xs: seq<Skill>, newId: string): (r: seq<Skill>)
    ensures |r| == |xs| + 1
    ensures r[..|xs|] == xs
    ensures r[|xs|].id == newId && r[|xs|].name == ""
    ensures r[|xs|].level == Intermediate && r[|xs|].category == "Programming"
  {
    Collection.AppendEntry(xs, BlankSkill(newId))
  }

  /** `updateSkill(id, updates)`: merges into every skill with that id, in place. */
  function UpdateSkill(xs: seq<Skill>, id: string, p: SkillPatch): (r: seq<Skill>)
    ensures |r| == |xs|
    ensures forall i :: 0 <= i < |xs| && xs[i].id == id ==> r[i] == Merge(xs[i], p)
    ensures forall i :: 0 <= i < |xs| && xs[i].id != id ==> r[i] == xs[i]
    ensures (forall i :: 0 <= i < |xs| ==> xs[i].id != id) ==> r == xs
  {
    Collection.UpdateWhere(xs, (e: Skill) => e.id == id, (e: Skill) => Merge(e, p))
  }

  /** `deleteSkill(id)`: drops every skill with that id and keeps the rest. */
  function DeleteSkill(xs: seq<Skill>, id: string): (r: seq<Skill>)
    ensures forall e :: e in r <==> e in xs && e.id != id
    ensures (forall i :: 0 <= i < |xs| ==> xs[i].id != id) ==> r == xs
  {
    var keep := (e: Skill) => e.id != id;
    if forall i :: 0 <= i < |xs| ==> xs[i].id != id then
      Collection.FilterKeepsAll(xs, keep);
      Collection.Filter(xs, keep)
    else
      Collection.Filter(xs, keep)
  }

  /** Deleting from a concatenation deletes from each part: survivors keep their relative order. */
  lemma DeleteSkillKeepsOrder(a: seq<Skill>, b: seq<Skill>, id: string)
    ensures DeleteSkill(a + b, id) == DeleteSkill(a, id) + DeleteSkill(b, id)
  {
    Collection.FilterConcat(a, b, (e: Skill) => e.id != id);
  }

  // ---------------------------------------------------------------------
  // Grouping by category
  // ---------------------------------------------------------------------

  /** One entry of the `Record<string, Skill[]>` the display reduces to. */
  datatype Group = Group(category: string, members: seq<Skill>)

  /** The test that selects the skills of one category. */
  function InCategory(c: string): Skill -> bool {
    (s: Skill) => s.category == c
  }

  /** The category keys, in insertion order. */
  function Keys(gs: seq<Group>): (r: seq<string>)
    ensures |r| == |gs|
    ensures forall i :: 0 <= i < |gs| ==> r[i] == gs[i].category
  {
    seq(|gs|, i requires 0 <= i < |gs| => gs[i].category)
  }

  /** No category is a key twice. */
  predicate DistinctKeys(gs: seq<Group>) {
    forall i, j :: 0 <= i < j < |gs| ==> gs[i].category != gs[j].category
  }

  /** One step of the reduce: push `s` onto its category's group, creating the group at the end if absent. */
  function Push(gs: seq<Group>, s: Skill): (r: seq<Group>)
    requires DistinctKeys(gs)
    ensures DistinctKeys(r)
    ensures s.category in Keys(r)
  {
    match Collection.FindFirst(gs, (g: Group) => g.category == s.category)
    case Some(i) =>
      var r := gs[i := gs[i].(members := gs[i].members + [s])];
      assert Keys(r)[i] == s.category;
      r
    case None =>
      var r := gs + [Group(s.category, [s])];
      assert Keys(r)[|gs|] == s.category;
      r
  }

  /** `skills.reduce(...)`: the groups built left to right over the skills. */
  function Grouped(xs: seq<Skill>): (r: seq<Group>)
    ensures DistinctKeys(r)
    decreases |xs|
  {
    if |xs| == 0 then [] else Push(Grouped(xs[..|xs| - 1]), xs[|xs| - 1])
  }

  /**
   * What the grouping means: the keys are distinct, each group holds exactly
   * the skills of its category in their original order, every group is
   * non-empty, and every skill's category is a key.
   */
  predicate GroupsOf(gs: seq<Group>, xs: seq<Skill>) {
    DistinctKeys(gs) && MembersByCategory(gs, xs) && NoEmptyGroup(gs) && CoversCategories(gs, xs)
  }

  /** Each group holds exactly the skills of its category, in their original order. */
  predicate MembersByCategory(gs: seq<Group>, xs: seq<Skill>) {
    forall i :: 0 <= i < |gs| ==> gs[i].members == Collection.Filter(xs, InCategory(gs[i].category))
  }

  predicate NoEmptyGroup(gs: seq<Group>) {
    forall i :: 0 <= i < |gs| ==> gs[i].members != []
  }

  /** Every skill's category is a key. */
  predicate CoversCategories(gs: seq<Group>, xs: seq<Skill>) {
    forall k :: 0 <= k < |xs| ==> xs[k].category in Keys(gs)
  }

  /** `Push` keeps every group equal to the filter of its category over the extended collection. */
  lemma PushMembers(gs: seq<Group>, xs: seq<Skill>, s: Skill, ys: seq<Skill>)
    requires GroupsOf(gs, xs) && ys == xs + [s]
    ensures MembersByCategory(Push(gs, s), ys) && NoEmptyGroup(Push(gs, s))
  {
    var r := Push(gs, s);
    forall i | 0 <= i < |r|
      ensures r[i].members == Collection.Filter(ys, InCategory(r[i].category)) && r[i].members != []
    {
      PushMember(gs, xs, s, ys, i);
    }
  }

  /** One group after `Push`: the filter of its category over the extended collection, and not empty. */
  lemma PushMember(gs: seq<Group>, xs: seq<Skill>, s: Skill, ys: seq<Skill>, i: nat)
    requires GroupsOf(gs, xs) && ys == xs + [s] && i < |Push(gs, s)|
    ensures Push(gs, s)[i].members == Collection.Filter(ys, InCategory(Push(gs, s)[i].category))
    ensures Push(gs, s)[i].members != []
  {
    match Collection.FindFirst(gs, (g: Group) => g.category == s.category) {
      case Some(j) => JoinGroup(gs, xs, s, ys, j, i);
      case None => NewGroup(gs, xs, s, ys, i);
    }
  }

  /** `s` joins the existing group `j` of its category; group `i` is then the filter of its category. */
  lemma JoinGroup(gs: seq<Group>, xs: seq<Skill>, s: Skill, ys: seq<Skill>, j: nat, i: nat)
    requires GroupsOf(gs, xs) && ys == xs + [s]
    requires j < |gs| && gs[j].category == s.category && i < |gs|
    ensures var r := gs[j := gs[j].(members := gs[j].members + [s])];
      r[i].members == Collection.Filter(ys, InCategory(r[i].category)) && r[i].members != []
  {
    var c := gs[i].category;
    Collection.FilterSnoc(xs, s, InCategory(c));
    assert gs[i].members == Collection.Filter(xs, InCategory(c));
    assert gs[i].members != [];
    if i != j {
      assert c != s.category;
    }
  }

  /** `s` opens a new group at the end; every group, old or new, is the filter of its category. */
  lemma NewGroup(gs: seq<Group>, xs: seq<Skill>, s: Skill, ys: seq<Skill>, i: nat)
    requires GroupsOf(gs, xs) && ys == xs + [s] && i <= |gs|
    requires forall k :: 0 <= k < |gs| ==> gs[k].category != s.category
    ensures var r := gs + [Group(s.category, [s])];
      r[i].members == Collection.Filter(ys, InCategory(r[i].category)) && r[i].members != []
  {
    var r := gs + [Group(s.category, [s])];
    var c := r[i].category;
    Collection.FilterSnoc(xs, s, InCategory(c));
    if i < |gs| {
      assert r[i] == gs[i];
      assert gs[i].members == Collection.Filter(xs, InCategory(c));
      assert gs[i].members != [];
    } else {
      Collection.FilterDropsAll(xs, InCategory(s.category));
    }
  }

  /** `Push` keeps every category of the extended collection a key. */
  lemma PushKeys(gs: seq<Group>, xs: seq<Skill>, s: Skill, ys: seq<Skill>)
    requires GroupsOf(gs, xs) && ys == xs + [s]
    ensures CoversCategories(Push(gs, s), ys)
  {
    var r := Push(gs, s);
    forall k | 0 <= k < |ys| ensures ys[k].category in Keys(r) {
      if k < |xs| {
        var c := xs[k].category;
        var j :| 0 <= j < |gs| && Keys(gs)[j] == c;
        assert Keys(r)[j] == c;
      }
    }
  }

  /** `Push` extends a grouping of `xs` to a grouping of `xs + [s]`. */
  lemma PushGroups(gs: seq<Group>, xs: seq<Skill>, s: Skill, ys: seq<Skill>)
    requires GroupsOf(gs, xs) && ys == xs + [s]
    ensures GroupsOf(Push(gs, s), ys)
  {
    PushMembers(gs, xs, s, ys);
    PushKeys(gs, xs, s, ys);
  }

  /** The reduce builds a grouping of the whole collection. */
  lemma {:induction false} GroupedIsGrouping(xs: seq<Skill>)
    ensures GroupsOf(Grouped(xs), xs)
    decreases |xs|
  {
    if |xs| > 0 {
      var init := xs[..|xs| - 1];
      var gs := Grouped(init);
      assert Grouped(xs) == Push(gs, xs[|xs| - 1]);
      GroupedIsGrouping(init);
      PushGroups(gs, init, xs[|xs| - 1], xs);
    }
  }

  /** Every skill sits in exactly the group keyed by its category. */
  lemma SkillInItsGroupOnly(xs: seq<Skill>, k: nat, i: nat)
    requires k < |xs| && i < |Grouped(xs)|
    ensures xs[k] in Grouped(xs)[i].members <==> Grouped(xs)[i].category == xs[k].category
  {
    GroupedIsGrouping(xs);
  }

  /** The number of skills across all groups. */
  function Total(gs: seq<Group>): nat
    decreases |gs|
  {
    if |gs| == 0 then 0 else |gs[0].members| + Total(gs[1..])
  }

  lemma {:induction false} TotalSnoc(gs: seq<Group>, g: Group)
    ensures Total(gs + [g]) == Total(gs) + |g.members|
    decreases |gs|
  {
    if |gs| > 0 {
      assert (gs + [g])[1..] == gs[1..] + [g];
      TotalSnoc(gs[1..], g);
    } else {
      assert gs + [g] == [g];
    }
  }

  lemma {:induction false} TotalUpdate(gs: seq<Group>, i: nat, g: Group)
    requires i < |gs|
    ensures Total(gs[i := g]) == Total(gs) - |gs[i].members| + |g.members|
    decreases |gs|
  {
    if i > 0 {
      assert gs[i := g][1..] == gs[1..][i - 1 := g];
      TotalUpdate(gs[1..], i - 1, g);
    }
  }

  /** The group sizes add up to the number of skills. */
  lemma {:induction false} GroupSizesSum(xs: seq<Skill>)
    ensures Total(Grouped(xs)) == |xs|
    decreases |xs|
  {
    if |xs| > 0 {
      var init := xs[..|xs| - 1];
      var s := xs[|xs| - 1];
      var gs := Grouped(init);
      GroupSizesSum(init);
      match Collection.FindFirst(gs, (g: Group) => g.category == s.category)
      case Some(i) =>
        TotalUpdate(gs, i, gs[i].(members := gs[i].members + [s]));
      case None =>
        TotalSnoc(gs, Group(s.category, [s]));
    }
  }

  // ---------------------------------------------------------------------
  // Level colours
  // ---------------------------------------------------------------------

  const DefaultColor := "bg-gray-100 text-gray-800"

  /** `getLevelColor`: a switch on the level's spelling with a gray default. */
  function LevelColor(level: string): (r: string)
    ensures r == DefaultColor <==> ParseLevel(level).None?
  {
    if level == "Beginner" then "bg-yellow-100 text-yellow-800"
    else if level == "Intermediate" then "bg-blue-100 text-blue-800"
    else if level == "Advanced" then "bg-green-100 text-green-800"
    else if level == "Expert" then "bg-purple-100 text-purple-800"
    else DefaultColor
  }

  /** The four levels get four distinct colours, none of them the default. */
  lemma LevelColorsDistinct(l: Level, m: Level)
    ensures LevelColor(LevelName(l)) != DefaultColor
    ensures l != m ==> LevelColor(LevelName(l)) != LevelColor(LevelName(m))
  {
  }

  // ---------------------------------------------------------------------
  // Enhancement request content
  // ---------------------------------------------------------------------

  /** The line a skill contributes: `name (level)`. */
  function SkillLine(s: Skill): string {
    s.name + " (" + LevelName(s.level) + ")"
  }

  function SkillLines(xs: seq<Skill>): (r: seq<string>)
    ensures |r| == |xs|
    ensures forall i :: 0 <= i < |xs| ==> r[i] == SkillLine(xs[i])
  {
    seq(|xs|, i requires 0 <= i < |xs| => SkillLine(xs[i]))
  }

  /** The content sent for enhancement: the skill lines joined with newlines. */
  function SkillsContent(xs: seq<Skill>): string {
    Join(SkillLines(xs), "\n")
  }

  /** For names without newlines, the content has exactly one line per skill, in order. */
  lemma ContentHasOneLinePerSkill(xs: seq<Skill>)
    requires |xs| >= 1
    requires forall i :: 0 <= i < |xs| ==> '\n' !in xs[i].name
    ensures Split(SkillsContent(xs), '\n') == SkillLines(xs)
  {
    var lines := SkillLines(xs);
    forall k | 0 <= k < |lines| ensures '\n' !in lines[k] {
      assert '\n' !in LevelName(xs[k].level);
    }
    SplitJoin(lines, '\n');
  }

  // ---------------------------------------------------------------------
  // Section state
  // ---------------------------------------------------------------------

  /** Props and local state: the skills, the skill being edited, the in-flight flag, the suggestion text. */
  datatype SkillsSection = SkillsSection(
    skills: seq<Skill>,
    editingId: Option<string>,
    enhancing: bool,
    proposal: string)

  /** The Add button: appends a blank skill and opens it for editing. */
  function AddClicked(s: SkillsSection, newId: string): (r: SkillsSection)
    ensures r.skills == AddSkill(s.skills, newId)
    ensures r.editingId == Some(newId)
    ensures r.enhancing == s.enhancing && r.proposal == s.proposal
  {
    s.(skills := AddSkill(s.skills, newId), editingId := Some(newId))
  }

  /** Enhance: with no skills nothing is sent and nothing changes; otherwise the content of all skills is sent. */
  function StartEnhance(s: SkillsSection): (r: (SkillsSection, Option<EnhanceRequest>))
    ensures |s.skills| == 0 <==> r.1.None?
    ensures |s.skills| == 0 ==> r.0 == s
    ensures |s.skills| > 0 ==>
      r.1 == Some(EnhanceRequest("skills", SkillsContent(s.skills)))
      && r.0 == s.(enhancing := true)
  {
    if |s.skills| == 0 then (s, None)
    else (s.(enhancing := true), Some(EnhanceRequest("skills", SkillsContent(s.skills))))
  }

  /** The reply: a delivered text fills the slot, a failure keeps it; the flag drops either way. */
  function FinishEnhance(s: SkillsSection, reply: EnhanceReply): (r: SkillsSection)
    ensures !r.enhancing
    ensures r.skills == s.skills && r.editingId == s.editingId
    ensures reply.Delivered? ==> r.proposal == reply.enhancedContent
    ensures reply.Failed? ==> r.proposal == s.proposal
  {
    match reply
    case Delivered(text) => s.(enhancing := false, proposal := text)
    case Failed => s.(enhancing := false)
  }

  /** Accept: only empties the slot; the skills are never modified. */
  function AcceptEnhancement(s: SkillsSection): (r: SkillsSection)
    ensures r.proposal == ""
    ensures r.skills == s.skills && r.editingId == s.editingId && r.enhancing == s.enhancing
  {
    s.(proposal := "")
  }

  /** Reject: only empties the slot. */
  function RejectEnhancement(s: SkillsSection): (r: SkillsSection)
    ensures r.proposal == ""
    ensures r.skills == s.skills && r.editingId == s.editingId && r.enhancing == s.enhancing
  {
    s.(proposal := "")
  }

  /** Accept and Reject of a skills suggestion have the same effect. */
  lemma AcceptIsReject(s: SkillsSection)
    ensures AcceptEnhancement(s) == RejectEnhancement(s)
  {
  }

  /** The Enhance button is disabled while enhancing or when there are no skills. */
  predicate EnhanceDisabled(s: SkillsSection) {
    s.enhancing || |s.skills| == 0
  }

  /** A disabled-for-emptiness button could not have sent anything. */
  lemma NoSkillsNeverSends(s: SkillsSection)
    requires |s.skills| == 0
    ensures EnhanceDisabled(s) && StartEnhance(s).1 == None
  {
  }

  /** The suggestion panel is shown for a non-empty suggestion only. */
  predicate PanelShown(s: SkillsSection) {
    s.proposal != ""
  }

  /** `skills.find(s => s.id === id)?.name` is falsy: no such skill, or its name is empty. */
  predicate Unnamed(xs: seq<Skill>, id: string) {
    match Collection.FindFirst(xs, (e: Skill) => e.id == id)
    case None => true
    case Some(i) => xs[i].name == ""
  }

  /** Save: ends editing, keeps the skills. */
  function SaveClicked(s: SkillsSection): (r: SkillsSection)
    ensures r.editingId == None && r.skills == s.skills
  {
    s.(editingId := None)
  }

  /**
   * Cancel: deletes the edited skill iff the first skill with the edited id
   * is missing or has an empty name, and in both cases ends editing.
   */
  function CancelClicked(s: SkillsSection): (r: SkillsSection)
    ensures r.editingId == None
    ensures r.enhancing == s.enhancing && r.proposal == s.proposal
    ensures s.editingId.None? ==> r.skills == s.skills
    ensures s.editingId.Some? && Unnamed(s.skills, s.editingId.value) ==>
      r.skills == DeleteSkill(s.skills, s.editingId.value)
    ensures s.editingId.Some? && !Unnamed(s.skills, s.editingId.value) ==> r.skills == s.skills
  {
    match s.editingId
    case None => s
    case Some(id) =>
      if Unnamed(s.skills, id) then s.(skills := DeleteSkill(s.skills, id), editingId := None)
      else s.(editingId := None)
  }

  /** Cancelling right after Add removes the blank skill again when its id was fresh. */
  lemma CancelAfterAddUndoes(s: SkillsSection, newId: string)
    requires forall i :: 0 <= i < |s.skills| ==> s.skills[i].id != newId
    ensures CancelClicked(AddClicked(s, newId)).skills == s.skills
  {
    var t := AddClicked(s, newId);
    var xs := t.skills;
    assert xs == s.skills + [BlankSkill(newId)];
    var found := Collection.FindFirst(xs, (e: Skill) => e.id == newId);
    assert found == Some(|s.skills|);
    DeleteSkillKeepsOrder(s.skills, [BlankSkill(newId)], newId);
    assert DeleteSkill([BlankSkill(newId)], newId) == [] by {
      assert forall e :: e in DeleteSkill([BlankSkill(newId)], newId) ==> e.id != newId && e in [BlankSkill(newId)];
    }
    assert s.skills + [] == s.skills;
  }
}

=== FILE: store.dfy ===
/**
 * The backend's resume store: `save_resume` builds the stored record by
 * merging three keys over the posted dictionary and files it under its id;
 * `get_resume` looks the id up in memory, then in the saved files.
 *
 * The saved-files directory is a map from id to the record last written
 * there; writing and reading JSON text is not modelled (a record reads back
 * as it was written).
 */
module ResumeStore {
  import opened Wrappers

  /** A JSON value as the backend receives it. */
  datatype Json =
    | JNull
    | JBool(b: bool)
    | JNum(n: int)
    | JStr(s: string)
    | JArr(items: seq<Json>)
    | JObj(fields: map<string, Json>)

  /** A posted or stored resume: a dictionary with arbitrary keys. */
  type Record = map<string, Json>

  /** The in-memory dictionary and the saved files, both keyed by resume id. */
  datatype Store = Store(memory: map<string, Record>, files: map<string, Record>)

  const Empty := Store(map[], map[])

  /** The body of a save: the document and an optional id. */
  datatype SaveRequest = SaveRequest(resumeData: Record, resumeId: Option<string>)

  datatype SaveResponse = SaveResponse(message: string, resumeId: string)

  const SavedMessage := "Resume saved successfully"

  /**
   * `request.resume_id or f"resume_{stamp}"`: a missing or empty id is
   * replaced by one made from the save time, `stamp` (formatted
   * `%Y%m%d_%H%M%S`).
   */
  function ChosenId(req: SaveRequest, stamp: string): (id: string)
    ensures req.resumeId.Some? && req.resumeId.value != "" ==> id == req.resumeId.value
    ensures req.resumeId.None? || req.resumeId == Some("") ==> id == "resume_" + stamp
  {
    match req.resumeId
    case Some(given) => if given != "" then given else "resume_" + stamp
    case None => "resume_" + stamp
  }

  /**
   * `{**resume_data, "id": ..., "last_updated": ..., "version": "1.0"}`: the
   * three keys override posted keys of the same name; every other posted key
   * is kept with its value, and nothing else is added.
   */
  function StoredRecord(data: Record, id: string, updated: string): (r: Record)
    ensures r.Keys == data.Keys + {"id", "last_updated", "version"}
    ensures r["id"] == JStr(id) && r["last_updated"] == JStr(updated) && r["version"] == JStr("1.0")
    ensures forall k :: k in data && k !in {"id", "last_updated", "version"} ==> r[k] == data[k]
  {
    data["id" := JStr(id)]["last_updated" := JStr(updated)]["version" := JStr("1.0")]
  }

  /**
   * `save_resume`: the record is filed under its id in memory and in the
   * saved files, replacing any earlier one; the reply names the id.
   * `stamp` and `updated` are the save time in the two formats used.
   */
  function SaveResume(st: Store, req: SaveRequest, stamp: string, updated: string): (r: (Store, SaveResponse))
    ensures var id := ChosenId(req, stamp);
      r.1 == SaveResponse(SavedMessage, id)
      && r.0.memory == st.memory[id := StoredRecord(req.resumeData, id, updated)]
      && r.0.files == st.files[id := StoredRecord(req.resumeData, id, updated)]
  {
    var id := ChosenId(req, stamp);
    var rec := StoredRecord(req.resumeData, id, updated);
    (Store(st.memory[id := rec], st.files[id := rec]), SaveResponse(SavedMessage, id))
  }

  /** A lookup's outcome: the record, or an HTTP error. */
  datatype Lookup = Found(record: Record) | NotFound(status: int, detail: string)

  /**
   * `get_resume`: memory first; otherwise a saved file, which is also put
   * into memory; otherwise 404.
   */
  function GetResume(st: Store, id: string): (r: (Store, Lookup))
    ensures id in st.memory ==> r == (st, Found(st.memory[id]))
    ensures id !in st.memory && id in st.files ==>
      r == (st.(memory := st.memory[id := st.files[id]]), Found(st.files[id]))
    ensures r.1.NotFound? <==> id !in st.memory && id !in st.files
    ensures r.1.NotFound? ==> r == (st, NotFound(404, "Resume not found"))
  {
    if id in st.memory then (st, Found(st.memory[id]))
    else if id in st.files then (st.(memory := st.memory[id := st.files[id]]), Found(st.files[id]))
    else (st, NotFound(404, "Resume not found"))
  }

  /** Reading a resume right after saving it returns the stored record, and changes nothing. */
  lemma GetAfterSave(st: Store, req: SaveRequest, stamp: string, updated: string)
    ensures var (st2, reply) := SaveResume(st, req, stamp, updated);
      GetResume(st2, reply.resumeId) == (st2, Found(StoredRecord(req.resumeData, reply.resumeId, updated)))
  {
  }

  /** Saving under one id leaves every other id's lookup as it was. */
  lemma SaveKeepsOthers(st: Store, req: SaveRequest, stamp: string, updated: string, other: string)
    requires other != ChosenId(req, stamp)
    ensures GetResume(SaveResume(st, req, stamp, updated).0, other).1 == GetResume(st, other).1
  {
  }

  /** A stored record reads back the posted document: every posted key but the three added is kept. */
  lemma StoredRecordKeepsDocument(data: Record, id: string, updated: string)
    ensures forall k :: k in data && k !in {"id", "last_updated", "version"} ==>
      k in StoredRecord(data, id, updated) && StoredRecord(data, id, updated)[k] == data[k]
    ensures |StoredRecord(data, id, updated).Keys| <= |data.Keys| + 3
    ensures StoredRecord(StoredRecord(data, id, updated), id, updated) == StoredRecord(data, id, updated)
  {
    var r := StoredRecord(data, id, updated);
    var added: set<string> := {"id", "last_updated", "version"};
    assert |added| == 3;
    assert r.Keys == data.Keys + added;
    SetUnionBound(data.Keys, added);
    var rr := StoredRecord(r, id, updated);
    assert rr.Keys == r.Keys;
    forall k | k in r ensures rr[k] == r[k] {
    }
    assert rr == r;
  }

  lemma SetUnionBound<T>(a: set<T>, b: set<T>)
    ensures |a + b| <= |a| + |b|
  {
    assert a + b == a + (b - a);
    assert |a + (b - a)| == |a| + |b - a|;
  }

  /** A record found in the files is cached: the second lookup is served from memory with the same record. */
  lemma FileLookupIsCached(st: Store, id: string)
    requires id !in st.memory && id in st.files
    ensures var (st2, first) := GetResume(st, id);
      GetResume(st2, id) == (st2, first)
  {
  }

  /** Two saves without an id at different times file two records, and both read back. */
  lemma FreshSavesFileTwo(st: Store, data1: Record, data2: Record, stamp1: string, stamp2: string, updated: string)
    requires stamp1 != stamp2
    ensures var (st1, reply1) := SaveResume(st, SaveRequest(data1, None), stamp1, updated);
      var (st2, reply2) := SaveResume(st1, SaveRequest(data2, None), stamp2, updated);
      reply1.resumeId != reply2.resumeId
      && GetResume(st2, reply1.resumeId).1 == Found(StoredRecord(data1, reply1.resumeId, updated))
      && GetResume(st2, reply2.resumeId).1 == Found(StoredRecord(data2, reply2.resumeId, updated))
  {
    var id1, id2 := "resume_" + stamp1, "resume_" + stamp2;
    assert id1[7..] == stamp1 && id2[7..] == stamp2;
    assert id1 != id2;
  }

  /** Saving again with the id the first save returned keeps that id and overwrites the record. */
  lemma ResaveOverwrites(st: Store, data1: Record, data2: Record, stamp1: string, stamp2: string, updated: string)
    ensures var (st1, reply1) := SaveResume(st, SaveRequest(data1, None), stamp1, updated);
      var (st2, reply2) := SaveResume(st1, SaveRequest(data2, Some(reply1.resumeId)), stamp2, updated);
      reply2.resumeId == reply1.resumeId
      && GetResume(st2, reply1.resumeId).1 == Found(StoredRecord(data2, reply1.resumeId, updated))
  {
    var id := "resume_" + stamp1;
    assert id != "" by {
      assert |id| >= 7;
    }
  }
}

=== FILE: summary.dfy ===
/**
 * The summary section: the enhance precondition, the in-flight flag, the
 * single suggestion slot (where the empty string means "no suggestion"),
 * and Accept / Reject.
 */
module SummaryEditor {
  import opened Wrappers
  import opened Text
  import opened Resume

  /** The summary prop together with the section's local state. */
  datatype SummarySection = SummarySection(summary: string, enhancing: bool, proposal: string)

  /** Typing in the text area replaces the summary. */
  function Edited(s: SummarySection, text: string): (r: SummarySection)
    ensures r.summary == text && r.enhancing == s.enhancing && r.proposal == s.proposal
  {
    s.(summary := text)
  }

  /** Enhance: a blank summary sends nothing and changes nothing; otherwise the flag is raised and the summary sent. */
  function StartEnhance(s: SummarySection): (r: (SummarySection, Option<EnhanceRequest>))
    ensures IsBlank(s.summary) <==> r.1.None?
    ensures IsBlank(s.summary) ==> r.0 == s
    ensures !IsBlank(s.summary) ==>
      r.1 == Some(EnhanceRequest("summary", s.summary)) && r.0 == s.(enhancing := true)
  {
    if IsBlank(s.summary) then (s, None)
    else (s.(enhancing := true), Some(EnhanceRequest("summary", s.summary)))
  }

  /** The reply: a delivered text fills the slot, a failure keeps it; the summary is untouched and the flag drops. */
  function FinishEnhance(s: SummarySection, reply: EnhanceReply): (r: SummarySection)
    ensures !r.enhancing
    ensures r.summary == s.summary
    ensures reply.Delivered? ==> r.proposal == reply.enhancedContent
    ensures reply.Failed? ==> r.proposal == s.proposal
  {
    match reply
    case Delivered(text) => s.(enhancing := false, proposal := text)
    case Failed => s.(enhancing := false)
  }

  /** Accept: the suggestion becomes the summary and the slot is emptied. */
  function AcceptEnhancement(s: SummarySection): (r: SummarySection)
    ensures r.summary == s.proposal && r.proposal == ""
    ensures r.enhancing == s.enhancing
  {
    s.(summary := s.proposal, proposal := "")
  }

  /** Reject: the slot is emptied and the summary kept. */
  function RejectEnhancement(s: SummarySection): (r: SummarySection)
    ensures r.summary == s.summary && r.proposal == ""
    ensures r.enhancing == s.enhancing
  {
    s.(proposal := "")
  }

  /** The suggestion panel is shown only for a non-empty suggestion. */
  predicate PanelShown(s: SummarySection) {
    s.proposal != ""
  }

  /** The Enhance button is disabled while enhancing or while the summary is blank. */
  predicate ButtonDisabled(s: SummarySection) {
    s.enhancing || IsBlank(s.summary)
  }

  /**
   * A full round: a request is sent only for a non-blank summary; after any
   * reply the flag is down; the panel appears only for a non-empty delivered
   * text; a failure leaves both summary and slot as they were.
   */
  lemma EnhanceRound(s: SummarySection, reply: EnhanceReply)
    requires !s.enhancing && !IsBlank(s.summary)
    ensures var (t, req) := StartEnhance(s);
      req.Some? && t.enhancing && ButtonDisabled(t)
      && !FinishEnhance(t, reply).enhancing
      && (reply.Failed? ==> FinishEnhance(t, reply) == s)
      && (PanelShown(FinishEnhance(t, reply)) <==>
            (reply.Delivered? && reply.enhancedContent != "") || (reply.Failed? && s.proposal != ""))
  {
  }

  /** An empty delivered text looks exactly like no suggestion. */
  lemma EmptyReplyShowsNoPanel(s: SummarySection)
    ensures !PanelShown(FinishEnhance(s, Delivered("")))
    ensures FinishEnhance(s, Delivered("")) == RejectEnhancement(s).(enhancing := false)
  {
  }

  /** Accepting then rejecting is accepting; after either the panel is gone. */
  lemma SlotEmptiedByBoth(s: SummarySection)
    ensures !PanelShown(AcceptEnhancement(s)) && !PanelShown(RejectEnhancement(s))
    ensures RejectEnhancement(AcceptEnhancement(s)) == AcceptEnhancement(s)
  {
  }
}

=== FILE: text.dfy ===
/**
 * String helpers shared by the editors and the backend: JavaScript's
 * `trim()` / Python's `strip()`, `split` on one character, `join`, the
 * split-trim-drop-empty clean-up of comma lists, ASCII `lower()`,
 * substring and digit tests.
 *
 * Whitespace, case and digits are modelled on ASCII only (see README).
 */
module Text {

  /** The whitespace characters both `trim()` and `strip()` remove. */
  predicate IsSpace(c: char) {
    c == ' ' || c == '\t' || c == '\n' || c == '\r' || c == '\U{0B}' || c == '\U{0C}'
  }

  /** `!s.trim()` in the editors and `not s.strip()` in the backend. */
  predicate IsBlank(s: string) {
    forall i :: 0 <= i < |s| ==> IsSpace(s[i])
  }

  /** Neither end of `s` is whitespace. */
  predicate IsTrimmed(s: string) {
    s == [] || (!IsSpace(s[0]) && !IsSpace(s[|s| - 1]))
  }

  function TrimStart(s: string): (r: string)
    ensures |r| <= |s| && r == s[|s| - |r|..]
    ensures IsBlank(s[..|s| - |r|])
    ensures r == [] || !IsSpace(r[0])
    ensures r == [] <==> IsBlank(s)
  {
    if |s| > 0 && IsSpace(s[0]) then TrimStart(s[1..]) else s
  }

  function TrimEnd(s: string): (r: string)
    ensures |r| <= |s| && r == s[..|r|]
    ensures IsBlank(s[|r|..])
    ensures r == [] || !IsSpace(r[|r| - 1])
    ensures r == [] <==> IsBlank(s)
  {
    if |s| > 0 && IsSpace(s[|s| - 1]) then TrimEnd(s[..|s| - 1]) else s
  }

  /** Removes leading and trailing whitespace; nothing else changes. */
  function Trim(s: string): (r: string)
    ensures IsTrimmed(r)
    ensures r == [] <==> IsBlank(s)
    ensures IsTrimmed(s) ==> r == s
  {
    var front := TrimStart(s);
    var r := TrimEnd(front);
    assert r == [] || r[0] == front[0];
    r
  }

  /** Trimming only removes characters. */
  lemma TrimKeepsChars(s: string, c: char)
    requires c !in s
    ensures c !in Trim(s)
  {
    var front := TrimStart(s);
    assert c !in front;
  }

  /** A leading space never survives trimming. */
  lemma TrimSkipsSpace(c: char, s: string)
    requires IsSpace(c)
    ensures Trim([c] + s) == Trim(s)
  {
    assert ([c] + s)[1..] == s;
  }

  /** A blank prefix is exactly what `TrimStart` removes in front of a non-space. */
  lemma {:induction false} TrimStartBlankPrefix(left: string, y: string)
    requires IsBlank(left)
    requires y == [] || !IsSpace(y[0])
    ensures TrimStart(left + y) == y
    decreases |left|
  {
    if |left| > 0 {
      assert (left + y)[0] == left[0];
      assert (left + y)[1..] == left[1..] + y;
      TrimStartBlankPrefix(left[1..], y);
    } else {
      assert left + y == y;
    }
  }

  /** A blank suffix is exactly what `TrimEnd` removes after a non-space. */
  lemma {:induction false} TrimEndBlankSuffix(y: string, right: string)
    requires IsBlank(right)
    requires y == [] || !IsSpace(y[|y| - 1])
    ensures TrimEnd(y + right) == y
    decreases |right|
  {
    if |right| > 0 {
      var init := right[..|right| - 1];
      assert (y + right)[|y + right| - 1] == right[|right| - 1];
      assert (y + right)[..|y + right| - 1] == y + init;
      TrimEndBlankSuffix(y, init);
    } else {
      assert y + right == y;
    }
  }

  /** Surrounding whitespace of any length is removed and the trimmed core is kept. */
  lemma TrimPadded(left: string, x: string, right: string)
    requires IsBlank(left) && IsBlank(right) && IsTrimmed(x)
    ensures Trim(left + x + right) == x
  {
    if x == [] {
      assert left + x + right == left + right;
      assert IsBlank(left + right);
    } else {
      assert left + x + right == left + (x + right);
      TrimStartBlankPrefix(left, x + right);
      TrimEndBlankSuffix(x, right);
    }
  }

  /**
   * `s.split(sep)`: the pieces between occurrences of `sep`, in order,
   * always at least one (the empty string splits into `[""]`).
   */
  function Split(s: string, sep: char): (r: seq<string>)
    ensures |r| >= 1
    ensures forall k :: 0 <= k < |r| ==> sep !in r[k]
    decreases |s|
  {
    if |s| == 0 then [""]
    else
      var rest := Split(s[1..], sep);
      if s[0] == sep then [""] + rest
      else [[s[0]] + rest[0]] + rest[1..]
  }

  /** A character absent from the string is absent from every piece of its split. */
  lemma {:induction false} SplitAvoids(s: string, sep: char, c: char)
    requires c !in s
    ensures forall k :: 0 <= k < |Split(s, sep)| ==> c !in Split(s, sep)[k]
    decreases |s|
  {
    if |s| > 0 {
      SplitAvoids(s[1..], sep, c);
    }
  }

  /** `parts.join(sep)`. */
  function Join(parts: seq<string>, sep: string): string
  {
    if |parts| == 0 then ""
    else if |parts| == 1 then parts[0]
    else parts[0] + sep + Join(parts[1..], sep)
  }

  /** Two or more parts join as the first, the separator, and the join of the rest. */
  lemma JoinCons(parts: seq<string>, sep: string)
    requires |parts| >= 2
    ensures Join(parts, sep) == parts[0] + sep + Join(parts[1..], sep)
  {
  }

  /** Joining the pieces of a split with the same separator restores the string. */
  lemma {:induction false} JoinSplit(s: string, sep: char)
    ensures Join(Split(s, sep), [sep]) == s
    decreases |s|
  {
    if |s| > 0 {
      var rest := Split(s[1..], sep);
      JoinSplit(s[1..], sep);
      if s[0] == sep {
        assert ([""] + rest)[1..] == rest;
        assert s == [s[0]] + s[1..];
      } else {
        var parts := [[s[0]] + rest[0]] + rest[1..];
        if |rest| == 1 {
          assert s == [s[0]] + s[1..];
        } else {
          assert parts[1..] == rest[1..];
          assert Join(rest, [sep]) == rest[0] + [sep] + Join(rest[1..], [sep]);
          assert s == [s[0]] + s[1..];
        }
      }
    }
  }

  /** A leading separator splits off an empty first piece. */
  lemma SplitSepHead(x: string, sep: char)
    ensures Split([sep] + x, sep) == [""] + Split(x, sep)
  {
    assert ([sep] + x)[1..] == x;
  }

  /** A separator-free prefix is glued onto the first piece of the split. */
  lemma {:induction false} SplitPrepend(p: string, x: string, sep: char)
    requires sep !in p
    ensures Split(p + x, sep) == [p + Split(x, sep)[0]] + Split(x, sep)[1..]
    decreases |p|
  {
    if |p| > 0 {
      SplitPrepend(p[1..], x, sep);
      assert (p + x)[1..] == p[1..] + x;
      assert (p + x)[0] == p[0];
      assert [p[0]] + (p[1..] + Split(x, sep)[0]) == p + Split(x, sep)[0];
    } else {
      assert p + x == x;
      assert p + Split(x, sep)[0] == Split(x, sep)[0];
    }
  }

  /** A string that does not start with the separator has a first piece starting with its first character. */
  lemma SplitFirstPiece(s: string, sep: char)
    requires |s| > 0 && s[0] != sep
    ensures |Split(s, sep)[0]| > 0 && Split(s, sep)[0][0] == s[0]
  {
  }

  /** A string that does not end with the separator has a last piece ending with its last character. */
  lemma {:induction false} SplitLastPiece(s: string, sep: char)
    requires |s| > 0 && s[|s| - 1] != sep
    ensures var r := Split(s, sep); |r[|r| - 1]| > 0 && r[|r| - 1][|r[|r| - 1]| - 1] == s[|s| - 1]
    decreases |s|
  {
    var rest := Split(s[1..], sep);
    if |s| == 1 {
      assert rest == [""];
    } else {
      SplitLastPiece(s[1..], sep);
      if s[0] != sep && |rest| == 1 {
        assert Split(s, sep) == [[s[0]] + rest[0]];
      }
    }
  }

  /** A join ends with the last character of its last part, and starts with the first character of a non-empty first part. */
  lemma {:induction false} JoinEnds(parts: seq<string>, sep: string)
    requires |parts| >= 1 && |parts[|parts| - 1]| > 0
    ensures var j := Join(parts, sep);
      |j| > 0 && j[|j| - 1] == parts[|parts| - 1][|parts[|parts| - 1]| - 1]
      && (|parts[0]| > 0 ==> j[0] == parts[0][0])
    decreases |parts|
  {
    if |parts| >= 2 {
      JoinEnds(parts[1..], sep);
      assert Join(parts, sep) == parts[0] + sep + Join(parts[1..], sep);
    }
  }

  /** `s` is non-empty and starts with a non-space. */
  predicate StartsSolid(s: string) {
    |s| > 0 && !IsSpace(s[0])
  }

  /** `s` is non-empty and ends with a non-space. */
  predicate EndsSolid(s: string) {
    |s| > 0 && !IsSpace(s[|s| - 1])
  }

  /** Splitting stripped, non-blank text on a whitespace separator gives a first piece starting, and a last piece ending, with a non-space. */
  lemma SplitTrimmedEdges(s: string, sep: char)
    requires IsTrimmed(s) && !IsBlank(s) && IsSpace(sep)
    ensures StartsSolid(Split(s, sep)[0])
    ensures EndsSolid(Split(s, sep)[|Split(s, sep)| - 1])
  {
    assert |s| > 0 && !IsSpace(s[0]) && !IsSpace(s[|s| - 1]);
    SplitFirstPiece(s, sep);
    SplitLastPiece(s, sep);
  }

  /** Parts whose join starts and ends with a non-space join to stripped, non-blank text. */
  lemma JoinTrimmed(parts: seq<string>, sep: string)
    requires |parts| >= 1 && StartsSolid(parts[0]) && EndsSolid(parts[|parts| - 1])
    ensures IsTrimmed(Join(parts, sep)) && !IsBlank(Join(parts, sep))
  {
    JoinEnds(parts, sep);
    var j := Join(parts, sep);
    assert !IsSpace(j[0]);
  }

  /** Splitting a join of separator-free pieces gives the pieces back. */
  lemma {:induction false} SplitJoin(parts: seq<string>, sep: char)
    requires |parts| >= 1
    requires forall k :: 0 <= k < |parts| ==> sep !in parts[k]
    ensures Split(Join(parts, [sep]), sep) == parts
    decreases |parts|
  {
    if |parts| == 1 {
      SplitPrepend(parts[0], "", sep);
      assert Split("", sep) == [""];
      assert parts[0] + "" == parts[0];
      assert parts == [parts[0]];
    } else {
      var tail := Join(parts[1..], [sep]);
      SplitJoin(parts[1..], sep);
      assert ([sep] + tail)[1..] == tail;
      assert Split([sep] + tail, sep) == [""] + Split(tail, sep);
      SplitPrepend(parts[0], [sep] + tail, sep);
      assert Join(parts, [sep]) == parts[0] + [sep] + tail;
      assert parts[0] + [sep] + tail == parts[0] + ([sep] + tail);
      assert parts[0] + Split([sep] + tail, sep)[0] == parts[0];
      assert Split([sep] + tail, sep)[1..] == parts[1..];
      assert parts == [parts[0]] + parts[1..];
    }
  }

  /** Trims every piece and drops the ones that trim to nothing, keeping order and duplicates. */
  function Clean(pieces: seq<string>): (r: seq<string>)
    ensures |r| <= |pieces|
    ensures forall k :: 0 <= k < |r| ==> r[k] != "" && IsTrimmed(r[k])
    decreases |pieces|
  {
    if |pieces| == 0 then []
    else
      var t := Trim(pieces[0]);
      (if t == "" then [] else [t]) + Clean(pieces[1..])
  }

  /** A character absent from every piece is absent from every cleaned piece. */
  lemma {:induction false} CleanAvoids(pieces: seq<string>, c: char)
    requires forall j :: 0 <= j < |pieces| ==> c !in pieces[j]
    ensures forall k :: 0 <= k < |Clean(pieces)| ==> c !in Clean(pieces)[k]
    decreases |pieces|
  {
    if |pieces| > 0 {
      TrimKeepsChars(pieces[0], c);
      CleanAvoids(pieces[1..], c);
    }
  }

  /** Cleaning a concatenation cleans each part in turn: order and duplicates are kept. */
  lemma {:induction false} CleanConcat(a: seq<string>, b: seq<string>)
    ensures Clean(a + b) == Clean(a) + Clean(b)
    decreases |a|
  {
    if |a| > 0 {
      CleanFirst(a, b);
      CleanConcat(a[1..], b);
      var head: seq<string> := if Trim(a[0]) == "" then [] else [Trim(a[0])];
      ConcatChain(Clean(a + b), Clean(a), Clean(b), head, Clean(a[1..] + b), Clean(a[1..]));
    } else {
      assert a + b == b;
    }
  }

  /** Regrouping a concatenation: `h + (q + z)` is `(h + q) + z`. */
  lemma ConcatChain<T>(x: seq<T>, y: seq<T>, z: seq<T>, h: seq<T>, p: seq<T>, q: seq<T>)
    requires x == h + p && p == q + z && y == h + q
    ensures x == y + z
  {
  }

  /** The first piece of `a` is cleaned first, both in `a` and in `a + b`. */
  lemma CleanFirst(a: seq<string>, b: seq<string>)
    requires |a| > 0
    ensures var head: seq<string> := if Trim(a[0]) == "" then [] else [Trim(a[0])];
      Clean(a + b) == head + Clean(a[1..] + b) && Clean(a) == head + Clean(a[1..])
  {
    assert (a + b)[1..] == a[1..] + b;
    assert (a + b)[0] == a[0];
  }


  /** One step of `Clean`: the head piece trimmed (or dropped), then the rest. */
  lemma CleanCons(x: string, rest: seq<string>)
    ensures Clean([x] + rest) == (if Trim(x) == "" then [] else [Trim(x)]) + Clean(rest)
  {
    assert ([x] + rest)[1..] == rest;
  }

  /** Every piece of a join that contains no `c` leaves `c` out of the result. */
  lemma {:induction false} JoinAvoids(parts: seq<string>, sep: string, c: char)
    requires c !in sep
    requires forall k :: 0 <= k < |parts| ==> c !in parts[k]
    ensures c !in Join(parts, sep)
    decreases |parts|
  {
    if |parts| > 1 {
      JoinAvoids(parts[1..], sep, c);
    }
  }

  /** JavaScript's `v || fallback` on strings: the empty string is falsy. */
  function OrElse(v: string, fallback: string): (r: string)
    ensures fallback != "" ==> r != ""
    ensures v != "" ==> r == v
  {
    if v == "" then fallback else v
  }

  predicate IsUpper(c: char) {
    'A' <= c <= 'Z'
  }

  function LowerChar(c: char): char {
    if IsUpper(c) then (c as int + 32) as char else c
  }

  /** ASCII `str.lower()`. */
  function Lower(s: string): (r: string)
    ensures |r| == |s|
    ensures forall i :: 0 <= i < |s| ==> r[i] == LowerChar(s[i])
    ensures forall i :: 0 <= i < |s| ==> (r[i] == '\n' <==> s[i] == '\n')
  {
    seq(|s|, i requires 0 <= i < |s| => LowerChar(s[i]))
  }

  predicate StartsWith(s: string, prefix: string) {
    |prefix| <= |s| && s[..|prefix|] == prefix
  }

  predicate EndsWith(s: string, suffix: string) {
    |suffix| <= |s| && s[|s| - |suffix|..] == suffix
  }

  /** Python's `needle in hay` on strings. */
  predicate Contains(hay: string, needle: string)
    decreases |hay|
  {
    StartsWith(hay, needle) || (|hay| > 0 && Contains(hay[1..], needle))
  }

  predicate IsDigit(c: char) {
    '0' <= c <= '9'
  }

  /** `any(ch.isdigit() for ch in s)`. */
  predicate HasDigit(s: string) {
    exists i :: 0 <= i < |s| && IsDigit(s[i])
  }

  /** Trimming is idempotent. */
  lemma TrimIdempotent(s: string)
    ensures Trim(Trim(s)) == Trim(s)
  {
  }

  /** Lower-casing distributes over concatenation. */
  lemma LowerConcat(a: string, b: string)
    ensures Lower(a + b) == Lower(a) + Lower(b)
  {
  }

  /** Lower-casing keeps digits and removes no newline. */
  lemma LowerKeepsDigits(s: string)
    ensures HasDigit(s) <==> HasDigit(Lower(s))
    ensures '\n' !in s ==> '\n' !in Lower(s)
  {
    if HasDigit(Lower(s)) {
      var i :| 0 <= i < |s| && IsDigit(Lower(s)[i]);
      assert IsDigit(s[i]);
    }
    if '\n' in Lower(s) {
      var i :| 0 <= i < |s| && Lower(s)[i] == '\n';
      assert s[i] == '\n';
    }
  }

  /** A string contains each of its prefixes. */
  lemma ContainsPrefix(s: string, prefix: string, rest: string)
    requires s == prefix + rest
    ensures Contains(s, prefix)
  {
    assert s[..|prefix|] == prefix;
  }

  /** Appending text keeps every substring. */
  lemma {:induction false} ContainsAppend(s: string, needle: string, t: string)
    requires Contains(s, needle)
    ensures Contains(s + t, needle)
    decreases |s|
  {
    if StartsWith(s, needle) {
      assert (s + t)[..|needle|] == s[..|needle|];
    } else {
      assert (s + t)[1..] == s[1..] + t;
      ContainsAppend(s[1..], needle, t);
    }
  }

  /** A digit anywhere in either part is a digit of the concatenation. */
  lemma HasDigitConcat(a: string, b: string)
    ensures HasDigit(a + b) <==> HasDigit(a) || HasDigit(b)
  {
    if HasDigit(b) {
      var i :| 0 <= i < |b| && IsDigit(b[i]);
      assert (a + b)[|a| + i] == b[i];
    }
    if HasDigit(a) {
      var i :| 0 <= i < |a| && IsDigit(a[i]);
      assert (a + b)[i] == a[i];
    }
    if HasDigit(a + b) {
      var i :| 0 <= i < |a + b| && IsDigit((a + b)[i]);
      if i >= |a| {
        assert b[i - |a|] == (a + b)[i];
      } else {
        assert a[i] == (a + b)[i];
      }
    }
  }
}

=== FILE: upload.dfy ===
/**
 * The file-upload intake: a MIME-type gate on the first chosen file, the
 * uploading flag and status, the timer callbacks that follow, and the fixed
 * document the mock parser delivers.
 *
 * Timers are modelled as pending callbacks that fire one at a time in any
 * order the environment picks; their delays are not modelled.
 */
module FileIntake {
  import opened Wrappers
  import opened Resume
  import ExperienceEditor
  import Collection

  datatype Status = Idle | Success | Error

  datatype Intake = Intake(uploading: bool, status: Status)

  const Start := Intake(false, Idle)

  /** The three accepted MIME types: PDF, DOCX and DOC. */
  const AllowedTypes: seq<string> := [
    "application/pdf",
    "application/vnd.openxmlformats-officedocument.wordprocessingml.document",
    "application/msword"]

  /** A scheduled callback: clear an error, finish processing, or hand over the document. */
  datatype Timer = ClearError | ProcessingDone | DeliverDocument

  /** A handler's effect: the new intake state and the callbacks it scheduled. */
  datatype Effect = Effect(intake: Intake, scheduled: seq<Timer>)

  /**
   * `handleFiles`: nothing for a missing or empty list; otherwise only the
   * first file's type is looked at. A refused type shows an error and
   * schedules its clearing; an accepted one starts uploading.
   */
  function HandleFiles(s: Intake, files: Option<seq<string>>): (r: Effect)
    ensures files.None? || files == Some([]) ==> r == Effect(s, [])
    ensures files.Some? && |files.value| > 0 && files.value[0] !in AllowedTypes ==>
      r == Effect(s.(status := Error), [ClearError])
    ensures files.Some? && |files.value| > 0 && files.value[0] in AllowedTypes ==>
      r == Effect(Intake(true, Idle), [ProcessingDone])
  {
    match files
    case None => Effect(s, [])
    case Some(fs) =>
      if |fs| == 0 then Effect(s, [])
      else if fs[0] !in AllowedTypes then Effect(s.(status := Error), [ClearError])
      else Effect(Intake(true, Idle), [ProcessingDone])
  }

  /** Only the first file's type decides, whatever follows it. */
  lemma OnlyFirstFileMatters(s: Intake, first: string, rest: seq<string>)
    ensures HandleFiles(s, Some([first] + rest)) == HandleFiles(s, Some([first]))
  {
  }

  /** A callback firing: its effect on the intake, the document it hands over, the callbacks it schedules. */
  datatype Fired = Fired(intake: Intake, delivered: Option<ResumeData>, scheduled: seq<Timer>)

  function Fire(s: Intake, t: Timer): (r: Fired)
    ensures r.delivered.Some? <==> t == DeliverDocument
    ensures r.delivered.Some? ==> r.delivered.value == MockDocument
    ensures t == ProcessingDone <==> r.scheduled == [DeliverDocument]
    ensures t != ProcessingDone ==> r.scheduled == []
  {
    match t
    case ClearError => Fired(s.(status := Idle), None, [])
    case ProcessingDone => Fired(Intake(false, Success), None, [DeliverDocument])
    case DeliverDocument => Fired(s, Some(MockDocument), [])
  }

  /** The file input is disabled while uploading (dropping a file is not). */
  predicate InputDisabled(s: Intake) {
    s.uploading
  }

  // ---------------------------------------------------------------------
  // Runs
  // ---------------------------------------------------------------------

  /** What the environment does next: choose files, or fire pending callback number `k`. */
  datatype Event = FilesChosen(files: Option<seq<string>>) | TimerFires(k: nat)

  /** The intake, its pending callbacks, and every document handed to the editor so far. */
  datatype Machine = Machine(intake: Intake, pending: seq<Timer>, delivered: seq<ResumeData>)

  const Fresh := Machine(Start, [], [])

  /** One event. Firing an index with nothing pending does nothing. */
  function Step(m: Machine, e: Event): (r: Machine)
    ensures |m.delivered| <= |r.delivered| <= |m.delivered| + 1
    ensures r.delivered[..|m.delivered|] == m.delivered
  {
    match e
    case FilesChosen(files) =>
      var eff := HandleFiles(m.intake, files);
      Machine(eff.intake, m.pending + eff.scheduled, m.delivered)
    case TimerFires(k) =>
      if k >= |m.pending| then m
      else
        var f := Fire(m.intake, m.pending[k]);
        var left := m.pending[..k] + m.pending[k + 1..];
        var handed := match f.delivered case Some(d) => [d] case None => [];
        assert (m.delivered + handed)[..|m.delivered|] == m.delivered;
        Machine(f.intake, left + f.scheduled, m.delivered + handed)
  }

  function Run(m: Machine, es: seq<Event>): Machine
    decreases |es|
  {
    if |es| == 0 then m else Run(Step(m, es[0]), es[1..])
  }

  lemma RunCons(m: Machine, e: Event, es: seq<Event>)
    ensures Run(m, [e] + es) == Run(Step(m, e), es)
  {
    assert ([e] + es)[1..] == es;
  }

  /** The event chooses files whose first type is accepted. */
  predicate Accepts(e: Event) {
    e.FilesChosen? && e.files.Some? && |e.files.value| > 0 && e.files.value[0] in AllowedTypes
  }

  /** Nothing pending can lead to a delivery. */
  predicate Harmless(m: Machine) {
    forall k :: 0 <= k < |m.pending| ==> m.pending[k] == ClearError
  }

  /** Every handed-over document is the fixed mock document. */
  predicate OnlyMock(m: Machine) {
    forall k :: 0 <= k < |m.delivered| ==> m.delivered[k] == MockDocument
  }

  /**
   * Without an accepted file nothing is ever delivered: refused types only
   * schedule the clearing of the error.
   */
  lemma {:induction false} RefusedFilesNeverDeliver(m: Machine, es: seq<Event>)
    requires Harmless(m)
    requires forall i :: 0 <= i < |es| ==> !Accepts(es[i])
    ensures Run(m, es).delivered == m.delivered && Harmless(Run(m, es))
    decreases |es|
  {
    if |es| > 0 {
      var n := Step(m, es[0]);
      match es[0] {
        case FilesChosen(files) =>
          var eff := HandleFiles(m.intake, files);
          assert eff.scheduled == [] || eff.scheduled == [ClearError];
          assert n.pending == m.pending + eff.scheduled;
        case TimerFires(k) =>
          if k < |m.pending| {
            assert m.pending[k] == ClearError;
            assert n.pending == m.pending[..k] + m.pending[k + 1..];
          }
      }
      assert Harmless(n);
      assert n.delivered == m.delivered;
      assert Run(m, es) == Run(n, es[1..]);
      RefusedFilesNeverDeliver(n, es[1..]);
    }
  }

  /** Whatever the events, every document handed to the editor is the mock document. */
  lemma {:induction false} OnlyMockIsDelivered(m: Machine, es: seq<Event>)
    requires OnlyMock(m)
    ensures OnlyMock(Run(m, es))
    decreases |es|
  {
    if |es| > 0 {
      var n := Step(m, es[0]);
      assert OnlyMock(n) by {
        forall k | 0 <= k < |n.delivered| ensures n.delivered[k] == MockDocument {
          if k < |m.delivered| {
            assert n.delivered[k] == n.delivered[..|m.delivered|][k];
          }
        }
      }
      OnlyMockIsDelivered(n, es[1..]);
    }
  }

  /**
   * The happy path from a fresh intake: an accepted file starts uploading
   * with status idle, the first callback ends uploading with success, the
   * second hands over the mock document.
   */
  lemma AcceptedFileDelivers(file: string)
    requires file in AllowedTypes
    ensures Run(Fresh, [FilesChosen(Some([file]))]).intake == Intake(true, Idle)
    ensures Run(Fresh, [FilesChosen(Some([file])), TimerFires(0)]).intake == Intake(false, Success)
    ensures Run(Fresh, [FilesChosen(Some([file])), TimerFires(0), TimerFires(0)])
      == Machine(Intake(false, Success), [], [MockDocument])
  {
    var e := FilesChosen(Some([file]));
    var m1 := Step(Fresh, e);
    assert m1 == Machine(Intake(true, Idle), [ProcessingDone], []);
    var m2 := Step(m1, TimerFires(0));
    assert m2 == Machine(Intake(false, Success), [DeliverDocument], []);
    var m3 := Step(m2, TimerFires(0));
    assert m3 == Machine(Intake(false, Success), [], [MockDocument]);
    RunCons(m2, TimerFires(0), []);
    RunCons(m1, TimerFires(0), []);
    RunCons(m1, TimerFires(0), [TimerFires(0)]);
    RunCons(Fresh, e, []);
    RunCons(Fresh, e, [TimerFires(0)]);
    RunCons(Fresh, e, [TimerFires(0), TimerFires(0)]);
  }

  /** A refused file shows the error; its callback returns the status to idle and delivers nothing. */
  lemma RefusedFileErrorsThenClears(file: string)
    requires file !in AllowedTypes
    ensures Run(Fresh, [FilesChosen(Some([file]))]).intake.status == Error
    ensures Run(Fresh, [FilesChosen(Some([file])), TimerFires(0)]) == Fresh
  {
    var e := FilesChosen(Some([file]));
    var m1 := Step(Fresh, e);
    assert m1 == Machine(Intake(false, Error), [ClearError], []);
    assert Step(m1, TimerFires(0)) == Fresh;
    RunCons(m1, TimerFires(0), []);
    RunCons(Fresh, e, []);
    RunCons(Fresh, e, [TimerFires(0)]);
  }

  // ---------------------------------------------------------------------
  // The delivered document
  // ---------------------------------------------------------------------

  const MockInfo := PersonalInfo(
    "Sarah Johnson",
    "sarah.johnson@email.com",
    "+1 (555) 123-4567",
    "San Francisco, CA",
    "linkedin.com/in/sarahjohnson",
    "sarahjohnson.dev")

  const MockSummary :=
    "Experienced software developer with 5+ years of expertise in full-stack development. "
    + "Passionate about creating scalable web applications and leading cross-functional teams."

  const MockExperience := [
    Experience("1", "TechCorp Inc.", "Senior Software Developer", "2021-03", "", true,
      "Led development of microservices architecture\nImplemented CI/CD pipelines\nMentored junior developers",
      "San Francisco, CA"),
    Experience("2", "StartupXYZ", "Full Stack Developer", "2019-06", "2021-02", false,
      "Built responsive web applications using React and Node.js\nIntegrated third-party APIs\nOptimized database performance",
      "Remote")]

  const MockEducation := [
    Education("1", "University of California, Berkeley", "Bachelor of Science", "Computer Science",
      "2015-08", "2019-05", Some("3.8"), Some("Magna Cum Laude"))]

  const MockSkills := [
    Skill("1", "JavaScript", Expert, "Programming"),
    Skill("2", "React", Expert, "Frontend"),
    Skill("3", "Node.js", Advanced, "Backend"),
    Skill("4", "Python", Advanced, "Programming"),
    Skill("5", "AWS", Intermediate, "Cloud")]

  const MockProjects := [
    Project("1", "E-commerce Platform",
      "Full-stack e-commerce solution with React frontend and Node.js backend",
      ["React", "Node.js", "MongoDB", "Stripe"],
      Some("https://example-ecommerce.com"), Some("https://github.com/sarahjohnson/ecommerce"),
      "2023-01", "2023-06")]

  /** The certification has no expiry date. */
  const MockCertifications := [
    Certification("1", "AWS Certified Developer", "Amazon Web Services", "2023-03",
      Some("https://aws.amazon.com/certification/"), None)]

  const MockDocument := ResumeData(
    MockInfo, MockSummary, MockExperience, MockEducation, MockSkills, MockProjects, MockCertifications)

  /**
   * The delivered document already satisfies the editor's invariants: a
   * current position has no end date, and ids are distinct within each
   * collection.
   */
  lemma MockDocumentWellFormed()
    ensures ExperienceEditor.AllConsistent(MockDocument.experience)
    ensures Collection.DistinctIds(MockDocument.experience, (e: Experience) => e.id)
    ensures Collection.DistinctIds(MockDocument.education, (e: Education) => e.id)
    ensures Collection.DistinctIds(MockDocument.skills, (s: Skill) => s.id)
    ensures Collection.DistinctIds(MockDocument.projects, (p: Project) => p.id)
    ensures Collection.DistinctIds(MockDocument.certifications, (c: Certification) => c.id)
  {
    assert MockDocument.experience[0].endDate == "";
    assert MockDocument.experience[1].current == false;
  }
}

=== FILE: wrappers.dfy ===
/**
 * The optional value used across the model: the source's `field?: string`,
 * `T | null` and `undefined`.
 */
module Wrappers {

  datatype Option<+T> = None | Some(value: T) {
    /** The value when present, otherwise `default`: a key present in a partial update wins over the current field. */
    function GetOr(default: T): T {
      match this
      case Some(v) => v
      case None => default
    }
  }
}
